=== FILE: README.md ===
# Digital Certificate Generation System — a verified model of its core

The system lets whitelisted organisations register, buy certificate
templates and certificates through a payment gateway, and issue PDF
certificates. Each certificate carries an id and a QR code that points to a
public verification page. This project models the backend's core in Dafny:

- the PDF renderer (`generateCertificatePdf`): the page size, the fixed
  drawing order, text fallbacks, font mapping, path resolution, and where
  each element lands on the page;
- the certificate routes:
  - `generate-by-purchase`: the payment gate, the one-purchase-one-certificate
    rule, the data given to the renderer, and the stored record;
  - `verify`;
- the bulk routes:
  - CSV `upload`: splitting lines, headers, per-row checks, and the split
    into valid and invalid rows;
  - `commit`: template choice, per-row ids, and stopping at the first
    failing row;
- the payment routes (`create-order`, `mark-success`) and the gateway
  webhook;
- the purchase read routes (`history`, `details`), the template routes, and
  the authentication routes (`register`, `login`, `upload-signature`);
- the token middleware;
- the `Purchase` schema;
- the two template migration scripts;
- the client-side pieces of the core: the sign-up password policy, the
  certificate search filter, and the navigation bar's tabs and avatar.

Layout of the Dafny project:

- **Database**: the collections are one mutable `Store.Db` object.
  Purchases, templates, users and plans are maps keyed by id; certificates
  are a sequence in insertion order.
- **Routes**: a route that writes is a method on that object. For every
  case the code distinguishes, its `ensures` gives the reply and the full new
  state. Where the outcome hangs on the payment gateway, or on a write that
  the model lets fail (a fault parameter in `generate-by-purchase`, the bulk
  commit and the two scripts; schema validation of the buyer in the
  webhook), it says exactly when the route succeeds. A route that only
  reads is a function.
- **Renderer**: `PdfService.PdfDoc` is a class that records the `doc.text` /
  `doc.image` calls in order. `GenerateCertificatePdf` is proved equal to the
  pure plan `RenderPlan`, and the drawing properties are proved about that
  plan.
- **Migration scripts**: both are loops over an `array<Template>`.
- **Environment as parameters**: the clock, uuids, bcrypt, JWT verification,
  `JSON.parse`, the payment gateway, the file system and `image-size` are
  passed in as values or functions.

JavaScript built-ins the core relies on are modelled in `Text`, `Seqs` and
`Radix`: `trim`, `split`, `includes`, `toUpperCase`/`toLowerCase` on ASCII,
`Array.prototype.filter`, and `Number.prototype.toString(radix)`.

Some behaviour of the code is modelled as written, because the code does it:

- Bulk ids built from a login token read `undefined-XXXXXXXX`. A login
  token carries no issuer code (`BulkCommit.LoginTokenIdsUndefined`).
- Bulk PDFs are drawn without a signature, because the token has no
  signature URL.
- `mark-success` accepts any purchase id without proof of payment.
- An issuer code that differs only in letter case from a stored one reaches
  `User.create` and ends in a server error (`Auth.CaseVariantCodeFails`).
- A Mongoose document exposes only the paths its schema declares. The code
  reads three that no schema declares, so each reads `undefined`:
  - `user.purchasedTemplates`: no template is ever purchased, and every
    premium template stays locked (see Findings);
  - `user.password`, the fallback for `passwordHash`: a user without a
    `passwordHash` gets the 500 account error at login;
  - `template.backgroundImage`: the renderer always uses `bgImageUrl`.
- Student data that is `null` (metadata holding the JSON text `null`) makes
  `generate-by-purchase` fail with a 500 unless an override object is sent.
  In the webhook it causes a 500 after the purchase has been saved as paid.

## Model

| member | source | states |
|---|---|---|
| Text.TrimStart | backend/src/routes/auth.js:23 | the result is the longest suffix not starting with white space; everything removed is white space |
| Text.TrimEnd | backend/src/routes/purchase.js:14 | the result is the longest prefix not ending with white space; everything removed is white space |
| Text.TrimStartSkips | backend/src/routes/auth.js:23 | leading white space before a non-space start is exactly what `trimStart` removes |
| Text.TrimEndSkips | backend/src/routes/auth.js:23 | trailing white space after a non-space end is exactly what `trimEnd` removes |
| Text.TrimPadded | backend/src/routes/purchase.js:14 | trimming a padded trimmed string gives that string back |
| Text.TrimEmptyIff | backend/src/routes/bulkCertificates.js:31 | `trim` gives "" exactly for all-white-space strings, which is what makes a CSV line blank |
| Text.Lower | backend/src/routes/bulkCertificates.js:35 | same length, each character lower-cased |
| Text.Upper | backend/src/services/pdfService.js:167-168 | same length, each character upper-cased |
| Text.ContainsEmpty | frontend/src/pages/MyCertificates.jsx:46-50 | every string includes "" |
| Text.IndexOf | backend/src/middlewares/auth.js:13 | the first position of the character |
| Text.LastIndexOf | backend/fixTemplatePaths.js:27 | the last position of the character |
| Text.Split | backend/src/middlewares/auth.js:13 | never empty; a single field exactly when the separator is absent |
| Text.SplitFieldsClean | backend/src/middlewares/auth.js:13 | no field of a split contains the separator |
| Text.JoinCons | backend/src/middlewares/auth.js:13 | joining puts one separator between a field and the rest (the step of the split round trip) |
| Text.SplitJoin | backend/src/middlewares/auth.js:13 | `split` then `join` gives back the original string |
| Text.FirstField | backend/src/routes/certificates.js:128 | `split(sep)[0]` is the separator-free prefix ended by the first separator |
| Text.LastField | backend/fixTemplatePaths.js:27 | `split(sep).pop()` is the separator-free suffix after the last separator |
| Text.LastFieldAfter | backend/fixTemplatePaths.js:27 | after a prefix ending in the separator, a separator-free tail is the last field |
| Text.IndexOfAfterPrefix | backend/src/middlewares/auth.js:13 | the first separator after a separator-free prefix is the one ending it |
| Text.SplitAfterPrefix | backend/src/middlewares/auth.js:13 | splitting `a + sep + b` gives `a`, then the fields of `b` |
| Text.FirstFieldAfterPrefix | backend/src/middlewares/auth.js:13 | the first field of `a + sep + b` is `a` |
| Radix.DigitChar | backend/src/routes/certificates.js:136 | every digit character is 0-9 or a-z |
| Radix.DigitValue | backend/src/routes/certificates.js:136 | a digit's value is below the radix and maps back to the same character |
| Radix.DigitRoundTrip | backend/src/routes/certificates.js:136 | digit value to character to value is the identity |
| Radix.ToRadix | backend/src/routes/certificates.js:136 | `n.toString(radix)` is a canonical numeral: non-empty, digits of the radix, no leading zero |
| Radix.DecodeEncode | backend/src/routes/certificates.js:136 | decoding `n.toString(radix)` gives `n` |
| Radix.EncodeDecode | backend/src/routes/certificates.js:136 | every canonical numeral is the encoding of its value |
| Radix.Unfold | backend/src/routes/certificates.js:136 | the numeral of `n >= radix` is the numeral of `n / radix` followed by the last digit |
| Radix.LeadingDigitPositive | backend/src/routes/certificates.js:136 | a canonical numeral not starting with '0' denotes a positive number |
| Radix.ToRadixInjective | backend/src/routes/certificates.js:136 | distinct numbers give distinct numerals |
| Radix.ToBase36 | backend/src/routes/certificates.js:136 | `Date.now().toString(36)` is canonical base 36 and decodes to the clock value |
| Radix.ToDecimal | backend/src/routes/auth.js:138 | `${Date.now()}` is a canonical decimal numeral of decimal digits that decodes to the clock value |
| Records.TextOr | backend/src/routes/certificates.js:123-134 | `bag[key] \|\| fallback` for a string or falsy value: the string when present and non-empty, else the fallback |
| Records.ParsePurchaseType | backend/src/models/Purchase.js:35-39 | exactly the four enum names are accepted, each to the type it names |
| Records.ParseStatus | backend/src/models/Purchase.js:41-45 | exactly "created", "success" and "failed" are accepted |
| Records.CreatePurchase | backend/src/models/Purchase.js:5-57 | creation succeeds exactly when the required fields are present, the enums match and the user, template and plan ids are ObjectIds; status defaults to created, used to false, no payment id, createdAt is the creation time; the record carries the draft's user, order id, template, plan, amount and metadata |
| Records.StorageRoot | backend/src/routes/certificates.js:18 | never empty; the configured storage path when one is set, else "uploads" |
| Store.Db.SavePurchase | backend/src/routes/certificates.js:157-158 | only the saved purchase changes |
| Store.Db.SaveUser | backend/src/routes/webhook.js:82 | only the saved user changes |
| Store.Db.AddCertificate | backend/src/routes/certificates.js:143-154 | the certificate is appended; nothing else changes |
| Store.Db.FindPurchaseByOrder | backend/src/routes/webhook.js:51 | finds a purchase with that gateway order id, or reports that none exists |
| PdfService.GetFont | backend/src/services/pdfService.js:50-60 | the font is always one of the fourteen standard PDF fonts |
| PdfService.GetFontTotal | backend/src/services/pdfService.js:50-60 | "Great Vibes" maps to Times-Italic; four names map to themselves; every other name maps to Helvetica |
| PdfService.StripQuery | backend/src/services/pdfService.js:71 | the reference without its query is the prefix before the first '?' |
| PdfService.ResolvePath | backend/src/services/pdfService.js:62-102 | there is no path exactly for an empty reference |
| PdfService.ResolveOrder | backend/src/services/pdfService.js:74-101 | an existing absolute path wins; then the first candidate under the base; then the second; else the first candidate as fallback |
| PdfService.ResolveIgnoresQuery | backend/src/services/pdfService.js:71 | a query string never changes the resolved path |
| PdfService.ResolveAbsoluteIdempotent | backend/src/services/pdfService.js:74-76 | an existing absolute path is returned unchanged, so resolving it again changes nothing |
| PdfService.ResolveFoundIdempotent | backend/src/services/pdfService.js:82-95 | a path found on disk resolves to itself |
| PdfService.StandardLayoutOk | backend/src/services/pdfService.js:12-47 | every position of the standard layout is a fraction of the page, the signature box fits, the QR fraction is at most 0.18, and the fixed lines have text |
| PdfService.CenteredOp | backend/src/services/pdfService.js:145-154 | a centred command is tagged with its element |
| PdfService.AtOp | backend/src/services/pdfService.js:157-163 | a left-aligned command is tagged with its element |
| PdfService.SignatureOp | backend/src/services/pdfService.js:201-210 | the signature command is the signature image |
| PdfService.DrawnOn | backend/src/services/pdfService.js:137-225 | the command for an element, if any, is tagged with that element |
| PdfService.Collect | backend/src/services/pdfService.js:107-236 | the drawing emits at most one command per element |
| PdfService.CollectFrom | backend/src/services/pdfService.js:107-236 | every emitted command is what the drawer returned for one listed element |
| PdfService.CollectHas | backend/src/services/pdfService.js:107-236 | a listed element has a command exactly when its drawer returns one |
| PdfService.CollectAscending | backend/src/services/pdfService.js:107-236 | commands come out in the order of their elements |
| PdfService.SlotOrderRanks | backend/src/services/pdfService.js:137-225 | the drawing order lists fourteen elements, the i-th with rank i |
| PdfService.EverySlotListed | backend/src/services/pdfService.js:137-225 | every element of the certificate is in the drawing order |
| PdfService.PlanSlot | backend/src/services/pdfService.js:107-236 | every command on the page is the one drawn for its element |
| PdfService.PlanOrdered | backend/src/services/pdfService.js:137-225 | the page draws elements in the fixed order, each at most once |
| PdfService.PlanHas | backend/src/services/pdfService.js:137-225 | an element is on the page exactly when it draws a command |
| PdfService.PageSizeRule | backend/src/services/pdfService.js:111-139 | the page has the background's native size when it exists and can be measured, else 842 x 595; the background is drawn exactly when it exists |
| PdfService.FixedElementsAlwaysDrawn | backend/src/services/pdfService.js:167-225 | the title, organisation, both boilerplate lines, recipient, course, date label, signatory and id are always drawn |
| PdfService.DescriptionDrawnIff | backend/src/services/pdfService.js:190-192 | the description is drawn exactly when it is non-empty and differs from the course line |
| PdfService.SignatureDrawnIff | backend/src/services/pdfService.js:201-210 | the signature image is drawn exactly when a URL is given and its resolved path exists |
| PdfService.QrPlacement | backend/src/services/pdfService.js:215-222 | the QR code is drawn exactly for a non-empty URL, and that command is the QR placement for the URL |
| PdfService.TitleFallback | backend/src/services/pdfService.js:167-168 | without a title, "CERTIFICATE OF APPRECIATION" is drawn |
| PdfService.RecipientFallback | backend/src/services/pdfService.js:179-180 | without a recipient name, the student name is drawn |
| PdfService.CourseFallback | backend/src/services/pdfService.js:186-192 | without a course name, the description takes the course line and is not drawn again |
| PdfService.HeadingsUpperCased | backend/src/services/pdfService.js:167-173 | the title and organisation contain no lower-case letter |
| PdfService.DefaultTitleUpper | backend/src/services/pdfService.js:167-168 | the default title is already upper-case |
| PdfService.QrOpShape | backend/src/services/pdfService.js:215-222 | the QR image carries the URL, is square with side min(w, h) * size, is centred, and has its top at 0.82 of the height |
| PdfService.CenteredWellPlaced | backend/src/services/pdfService.js:145-154 | a centred text starts on the page, in a standard font, sized by its fraction, in a box of 0.8 of the width centred on the page |
| PdfService.PlacedWellPlaced | backend/src/services/pdfService.js:157-163 | a left-aligned text starts on the page in a standard font sized by its fraction |
| PdfService.SignatureWellPlaced | backend/src/services/pdfService.js:201-210 | the signature image lies inside the page |
| PdfService.QrWellPlaced | backend/src/services/pdfService.js:215-222 | the QR image lies inside the page |
| PdfService.PageNonNegative | backend/src/services/pdfService.js:111-129 | page dimensions are never negative |
| PdfService.DrawnAtWellPlaced | backend/src/services/pdfService.js:137-225 | every element's command is well placed on the page |
| PdfService.PlanWellPlaced | backend/src/services/pdfService.js:107-236 | every command of the rendered page is well placed |
| PdfService.PdfDoc.constructor | backend/src/services/pdfService.js:132 | a new document has the page size, Helvetica 12 in black, and no commands |
| PdfService.PdfDoc.SetFont | backend/src/services/pdfService.js:145-154 | only the current font changes |
| PdfService.PdfDoc.SetFontSize | backend/src/services/pdfService.js:145-154 | only the current size changes |
| PdfService.PdfDoc.SetFillColor | backend/src/services/pdfService.js:145-154 | only the current colour changes |
| PdfService.PdfDoc.Text | backend/src/services/pdfService.js:145-163 | one text command in the current font state is appended |
| PdfService.PdfDoc.Image | backend/src/services/pdfService.js:137-139 | one image command is appended; the text state is untouched |
| PdfService.DrawCentered | backend/src/services/pdfService.js:145-154 | appends the centred command, or nothing for empty text |
| PdfService.DrawAt | backend/src/services/pdfService.js:157-163 | appends the left-aligned command, or nothing for empty text |
| PdfService.DrawBackground | backend/src/services/pdfService.js:137-139 | appends the background command of the plan |
| PdfService.DrawTitle | backend/src/services/pdfService.js:167-168 | appends the title command of the plan |
| PdfService.DrawOrganization | backend/src/services/pdfService.js:172-173 | appends the organisation command of the plan |
| PdfService.DrawPresentedTo | backend/src/services/pdfService.js:176 | appends the "presented to" command of the plan |
| PdfService.DrawRecipient | backend/src/services/pdfService.js:179-180 | appends the recipient command of the plan |
| PdfService.DrawForCompletion | backend/src/services/pdfService.js:183 | appends the "for completing" command of the plan |
| PdfService.DrawCourseName | backend/src/services/pdfService.js:186-187 | appends the course command of the plan |
| PdfService.DrawDescription | backend/src/services/pdfService.js:190-192 | appends the description command of the plan, if any |
| PdfService.DrawDateLabel | backend/src/services/pdfService.js:195 | appends the date label command of the plan |
| PdfService.DrawDateValue | backend/src/services/pdfService.js:196-197 | appends the date command of the plan |
| PdfService.DrawSignature | backend/src/services/pdfService.js:201-210 | appends the signature command of the plan, if any |
| PdfService.DrawSignatory | backend/src/services/pdfService.js:211 | appends the signatory command of the plan |
| PdfService.DrawQrCode | backend/src/services/pdfService.js:215-222 | appends the QR command of the plan, if any |
| PdfService.DrawCertId | backend/src/services/pdfService.js:225 | appends the certificate id command of the plan |
| PdfService.CollectAll | backend/src/services/pdfService.js:137-225 | the plan over the drawing order is the fourteen element commands in sequence |
| PdfService.PageSize | backend/src/services/pdfService.js:111-129 | the computed page size is the background's size or A4 landscape, as `PageOf` states |
| PdfService.GenerateCertificatePdf | backend/src/services/pdfService.js:107-236 | the document drawn is exactly the page plan for the request |
| Certificates.GatePassesIff | backend/src/routes/certificates.js:77-106 | a purchase passes exactly when the id is given, stored, paid, unused, and its template exists |
| Certificates.StatusCheckedBeforeUsed | backend/src/routes/certificates.js:92-99 | an unpaid purchase is reported unpaid, used or not |
| Certificates.RepeatRejected | backend/src/routes/certificates.js:97-99 | once marked used, a purchase is refused as already used |
| Certificates.BaseData | backend/src/routes/certificates.js:109-112 | an object is kept; a non-empty string is replaced by what it parses to; only text parsing to `null` gives no data |
| Certificates.StudentData | backend/src/routes/certificates.js:109-116 | no data exactly when the stored data is `null` and no override is sent; override keys win; every other key comes from the stored data, and all of those are kept |
| Certificates.PdfDataNamesPresent | backend/src/routes/certificates.js:123-134 | the recipient and course are never empty; a missing name becomes "Student Name"; a known date is non-empty |
| Certificates.CertId | backend/src/routes/certificates.js:136 | the id is "CERT-" followed by a canonical base-36 numeral |
| Certificates.CertIdRoundTrip | backend/src/routes/certificates.js:136 | the clock value can be read back from the id |
| Certificates.CertIdInjective | backend/src/routes/certificates.js:136 | different clock values give different ids |
| Certificates.IssuedValid | backend/src/models/Certificate.js:13-14 | an issued record always passes the required-field validation |
| Certificates.GenerateByPurchase | backend/src/routes/certificates.js:74-183 | a gate rejection changes nothing; `null` student data, a non-string title, or a PDF, create or duplicate-id failure is a 500 with nothing changed; a save failure leaves the certificate stored and the purchase unused; success renders the plan, stores the record, and marks the purchase used |
| Certificates.FindCertificate | backend/src/routes/certificates.js:194 | finds the first stored certificate with the id, or reports that none exists |
| Certificates.VerifyFindsStored | backend/src/routes/certificates.js:192-215 | not found exactly for an unknown id; a found record shows its own name, course, and date or creation time |
| Certificates.IssuedVerifies | backend/src/routes/certificates.js:143-154 | a certificate stored under a fresh id verifies with its own name and course |
| BulkUpload.DropCR | backend/src/routes/bulkCertificates.js:31 | at most one trailing '\r' is removed |
| BulkUpload.CRLFPieces | backend/src/routes/bulkCertificates.js:31 | every piece but the last loses its '\r' |
| Seqs.KeepIf | backend/src/routes/bulkCertificates.js:31 | `filter` keeps exactly the elements that pass, and never more than were given |
| Seqs.KeepIfSplits | backend/src/routes/bulkCertificates.js:31 | filtering a concatenation concatenates the filters, so order is kept |
| Seqs.KeepIfCounts | backend/src/routes/bulkCertificates.js:31 | a kept element keeps its multiplicity; a dropped one vanishes |
| BulkUpload.NonBlankKeeps | backend/src/routes/bulkCertificates.js:31 | the non-blank lines are exactly the lines whose trimmed text is not empty, in file order and with their multiplicity |
| BulkUpload.LineBreak | backend/src/routes/bulkCertificates.js:31 | a '\n' ends one line, without the '\r' before it |
| BulkUpload.CRLFBreaksLine | backend/src/routes/bulkCertificates.js:31 | a Windows line ending is one line break |
| BulkUpload.MissingOf | backend/src/routes/bulkCertificates.js:38-40 | the missing columns are exactly the required ones absent from the header |
| BulkUpload.MissingListing | backend/src/routes/bulkCertificates.js:38-40 | the missing columns are the absent ones among name, course, issuedate and email, in that order |
| BulkUpload.MissingOrder | backend/src/routes/bulkCertificates.js:38-44 | nothing is missing exactly when name, course, issuedate and email are all headers; otherwise the absent ones are listed in that order |
| BulkUpload.Key | backend/src/routes/bulkCertificates.js:52-60 | both title spellings are stored as "title"; every other header as itself |
| BulkUpload.RowDataKeys | backend/src/routes/bulkCertificates.js:52-60 | the row object has one key per distinct normalised header |
| BulkUpload.LastHeaderWins | backend/src/routes/bulkCertificates.js:52-60 | a key's value is the cell under the last header mapping to it |
| BulkUpload.ErrorsFor | backend/src/routes/bulkCertificates.js:63-66 | at most one error per check |
| BulkUpload.ErrorsListed | backend/src/routes/bulkCertificates.js:63-66 | each error is reported exactly when its field is empty, in check order; a row is valid exactly when name, course and issue date are present |
| BulkUpload.Columns | backend/src/routes/bulkCertificates.js:70-74 | a valid row sends back every column but "id" |
| BulkUpload.FileData | backend/src/routes/bulkCertificates.js:50-75 | one row object per line |
| BulkUpload.PartitionCount | backend/src/routes/bulkCertificates.js:50-75 | every data line is classified exactly once |
| BulkUpload.ValidRowAt | backend/src/routes/bulkCertificates.js:70-74 | each valid row carries a data line's index and that line's row object |
| BulkUpload.ValidRowChecked | backend/src/routes/bulkCertificates.js:70-74 | each valid row passed the checks |
| BulkUpload.ValidRowsOrdered | backend/src/routes/bulkCertificates.js:50-75 | valid rows come in line order |
| BulkUpload.ValidRowsFacts | backend/src/routes/bulkCertificates.js:50-75 | valid rows carry their line's data, passed the checks, and come in line order |
| BulkUpload.InvalidRowAt | backend/src/routes/bulkCertificates.js:63-66 | each invalid row is numbered line index + 1 and carries that line's row object |
| BulkUpload.InvalidRowsOrdered | backend/src/routes/bulkCertificates.js:50-75 | invalid rows come in line order |
| BulkUpload.InvalidRowsFacts | backend/src/routes/bulkCertificates.js:50-75 | invalid rows are numbered from 2, carry their line's data, and come in line order |
| BulkUpload.InvalidRowsErrors | backend/src/routes/bulkCertificates.js:63-66 | every invalid row fails the checks and lists its own errors |
| BulkUpload.RowsStep | backend/src/routes/bulkCertificates.js:50-75 | one more line goes to exactly one list |
| BulkUpload.Preview | backend/src/routes/bulkCertificates.js:77-84 | the preview is the first five valid rows, or all of them if there are fewer |
| BulkUpload.BuildRow | backend/src/routes/bulkCertificates.js:52-60 | the header loop builds the row object defined by `RowData` |
| BulkUpload.FileDataRows | backend/src/routes/bulkCertificates.js:50-60 | every line's row object is built from its cells |
| BulkUpload.RowOfLine | backend/src/routes/bulkCertificates.js:51-60 | a line's computed row object is that line's entry |
| BulkUpload.ClassifyRows | backend/src/routes/bulkCertificates.js:50-75 | the loop yields exactly the valid and invalid lists defined by the partition |
| BulkUpload.Upload | backend/src/routes/bulkCertificates.js:26-90 | no file is a 400; fewer than two non-blank lines is a 400; missing columns are a 400 listing them; otherwise the counts, preview and invalid rows come from the partition |
| BulkCommit.BulkCertIdShape | backend/src/routes/bulkCertificates.js:121-122 | the id is the issuer text, '-', and eight upper-cased uuid characters |
| BulkCommit.SameIssuerIds | backend/src/routes/bulkCertificates.js:121-122 | with one issuer, ids collide exactly when the upper-cased uuid prefixes agree |
| BulkCommit.LoginTokenIdsUndefined | backend/src/routes/auth.js:96-100 | a login token has no issuer code, so bulk ids start with "undefined-" |
| BulkCommit.LatestExists | backend/src/routes/bulkCertificates.js:106-116 | a non-empty collection has a newest template |
| BulkCommit.ChooseTemplate | backend/src/routes/bulkCertificates.js:106-116 | a named template is looked up by id; otherwise the newest, or none when the collection is empty |
| BulkCommit.RowPdfData | backend/src/routes/bulkCertificates.js:130-140 | the row's name, course, date and title go to the renderer with the token's organisation and no signature |
| BulkCommit.RowCertificate | backend/src/routes/bulkCertificates.js:146-157 | the stored record has the row's id, name, course and date, the caller, the template, and the payment id or PENDING |
| BulkCommit.Planned | backend/src/routes/bulkCertificates.js:120-174 | one planned record per row, in row order |
| BulkCommit.PlannedPages | backend/src/routes/bulkCertificates.js:125-143 | one rendered page per row, in row order |
| BulkCommit.StopFrom | backend/src/routes/bulkCertificates.js:120-174 | the stopping row lies between the start and the end |
| BulkCommit.StopStep | backend/src/routes/bulkCertificates.js:120-174 | a row that throws is the stop; a row that succeeds passes the search on |
| BulkCommit.StopFacts | backend/src/routes/bulkCertificates.js:120-174 | every row before the stop succeeds, and the stop is a failing row or the end |
| BulkCommit.AllRowsStored | backend/src/routes/bulkCertificates.js:120-174 | with fresh distinct ids and valid rows, every row is stored |
| BulkCommit.StoredRowsVerify | backend/src/routes/bulkCertificates.js:146-157 | every row stored before the stop verifies |
| BulkCommit.UploadedRowValid | backend/src/routes/bulkCertificates.js:63-66 | a row that passed the upload check yields a record passing validation |
| BulkCommit.StoreRow | backend/src/routes/bulkCertificates.js:146-157 | a row is stored exactly when it does not throw, and only the certificates change |
| BulkCommit.PlansList | backend/src/routes/bulkCertificates.js:120-174 | the plans list every row's page and record |
| BulkCommit.RowStep | backend/src/routes/bulkCertificates.js:121-157 | one row's page and record are the planned ones |
| BulkCommit.CommitRows | backend/src/routes/bulkCertificates.js:120-174 | the certificates are the old ones plus the planned prefix up to the first failing row; a failure ends in a 500 |
| BulkCommit.Commit | backend/src/routes/bulkCertificates.js:96-186 | no rows is a 400; no template (the named one unknown, or none stored) is a 400; otherwise the rows are committed as `CommitRows` states |
| Payments.Price | backend/src/routes/payments.js:31-43 | a bulk order costs quantity x 50 and a certificate 50; every other type has no price |
| Payments.Round | backend/src/routes/payments.js:49 | `Math.round` gives the integer within half a unit, halves rounded up |
| Payments.PaiseClose | backend/src/routes/payments.js:49 | the gateway amount is within half a paisa of the price; whole rupees convert exactly |
| Payments.RoundUnique | backend/src/routes/payments.js:49 | only one integer is that close |
| Payments.BulkPaise | backend/src/routes/payments.js:31-49 | k bulk certificates cost exactly k x 5000 paise |
| Payments.LastChars | backend/src/routes/payments.js:51 | `slice(-n)` is the last n characters, or the whole string |
| Payments.ReceiptShape | backend/src/routes/payments.js:51 | a receipt is "rcpt_" followed by one to ten digits |
| Payments.OrderMetadata | backend/src/routes/payments.js:59-67 | the metadata holds the student data plus the quantity |
| Payments.OrderPurchaseShape | backend/src/routes/payments.js:59-67 | a priced order is stored exactly when the caller's id is an ObjectId, the template id is absent or an ObjectId, and the gateway gave an id; it is created, unused and unpaid, with the price, template and merged student data |
| Payments.NewOrderNotGenerable | backend/src/routes/payments.js:59-67 | a fresh order cannot yet generate a certificate |
| Payments.PlaceOrder | backend/src/routes/payments.js:48-67 | the order sent is the price in paise in INR with the receipt and the notes (type, user or "unknown", quantity); the route succeeds exactly when the gateway answers with an id, the caller's id is an ObjectId and the template id is absent or an ObjectId, and then stores the purchase under the new id; a failure changes nothing |
| Payments.CreateOrder | backend/src/routes/payments.js:22-79 | a missing type or an unpriced type is a 400 with nothing stored; for a priced type the route succeeds exactly when the gateway answers with an id and the caller's and template's ids cast to ObjectIds, and it stores the purchase as `PlaceOrder` states |
| Payments.ConfirmTemplate | backend/src/routes/payments.js:84-103 | a missing user or template id is a 400; a user id that is not an ObjectId is a 500; otherwise success, with no record changed |
| Payments.ConfirmedStillLocked | backend/src/routes/payments.js:84-103 | after a successful confirmation a premium template is still locked in the as-written catalogue, and unlocked in the intended one |
| Payments.Marked | backend/src/routes/payments.js:113-120 | marked purchases are success with the given payment id; nothing else changes |
| Payments.MarkSuccess | backend/src/routes/payments.js:105-127 | no id is a 400; an unknown id is a 404; otherwise only that purchase is marked |
| Payments.MarkedGate | backend/src/routes/payments.js:105-127 | after marking, an unused purchase with a template passes the gate; a used one stays refused |
| Webhook.OrderIdOf | backend/src/routes/webhook.js:41 | the order id comes from the payment entity, else from the order entity |
| Webhook.Paid | backend/src/routes/webhook.js:62-64 | paid purchases are success with the event's payment id; nothing else changes |
| Webhook.PaidIdempotent | backend/src/routes/webhook.js:62-64 | a redelivered event changes nothing further |
| Webhook.Subscribed | backend/src/routes/webhook.js:69-86 | the buyer becomes admin, subscribed from now for the plan's days at 86400000 ms a day |
| Webhook.UsersAfterOnlyBuyer | backend/src/routes/webhook.js:69-86 | only the buyer can change, only for a subscription, and not when the buyer fails validation |
| Webhook.Handle | backend/src/routes/webhook.js:15-110 | a bad signature is a 400; an irrelevant event is ignored; no order id is a 400; an unknown order is a 200 with nothing changed; a used purchase is a 200 with nothing changed; otherwise the purchase is paid and, for a subscription, the buyer is subscribed; a buyer lacking a path User.js requires fails `save()`, so the purchase is paid, the user unchanged and the reply a 500; a certificate or template purchase whose metadata parses to `null` is paid and then answered with a 500 |
| Webhook.PaidUnusedGenerable | backend/src/routes/webhook.js:91-108 | a paid, unused certificate purchase passes the gate exactly when its template exists |
| PurchaseRoutes.ParseId | backend/src/routes/purchase.js:14-22 | an id is accepted exactly when the trimmed parameter is 24 hex digits, and it is then lower-cased |
| PurchaseRoutes.ParseIdPadded | backend/src/routes/purchase.js:14 | surrounding white space and letter case do not matter |
| PurchaseRoutes.ParseIdRejects | backend/src/routes/purchase.js:17-22 | wrong lengths and non-hex characters are refused |
| PurchaseRoutes.OfUser | backend/src/routes/purchase.js:25-27 | exactly the user's purchases are selected |
| PurchaseRoutes.Insert | backend/src/routes/purchase.js:25-27 | inserting into a newest-first list keeps it newest-first |
| PurchaseRoutes.InsertPermutes | backend/src/routes/purchase.js:25-27 | insertion adds exactly the one element |
| PurchaseRoutes.SortDescending | backend/src/routes/purchase.js:25-27 | the sorted list is newest-first and of the same length |
| PurchaseRoutes.SortPermutes | backend/src/routes/purchase.js:25-27 | sorting is a permutation |
| PurchaseRoutes.HistoryContents | backend/src/routes/purchase.js:9-34 | a malformed id is a 400; otherwise exactly the user's purchases, each as often as it is stored, newest first |
| PurchaseRoutes.DetailsOutcome | backend/src/routes/purchase.js:40-62 | 400 for a malformed id, 404 for an unknown one, else the stored record |
| Templates.Flag | backend/src/routes/templates.js:82-92 | premium by type, purchased by the given list, locked exactly when premium and not purchased |
| Templates.Catalogue | backend/src/routes/templates.js:82-92 | every template in stored order, flagged against a purchased list |
| Templates.UserTemplates | backend/src/routes/templates.js:74-98 | a malformed user id is a 500; otherwise every template in stored order, none purchased, and exactly the premium ones locked |
| Templates.AddToSet | backend/src/routes/payments.js:93-96 | `$addToSet` adds the id once and keeps every other entry |
| Templates.PurchaseUnlocks | backend/src/routes/payments.js:93-96 | adding a template to the purchased list unlocks it and changes no other template's entry |
| Templates.CreateTemplate | backend/src/routes/templates.js:47-69 | `fields` or `qr` text that is not JSON fails first; otherwise creation succeeds exactly with a name, an upload, and either no type or "free"/"premium"; the record carries the form's name, description, type (default free), price (default 0), fields and qr (defaults empty) and the upload URL |
| Templates.NoUploadNoTemplate | backend/src/routes/templates.js:55-63 | without an upload, creation always fails |
| Auth.FindDuplicate | backend/src/routes/auth.js:39-41 | the first stored user with the email or the upper-cased code, or none exists |
| Auth.UnlistedRefusedFirst | backend/src/routes/auth.js:29-36 | an unlisted code is a 403, whatever the users are |
| Auth.EmailClashReportedFirst | backend/src/routes/auth.js:43-46 | an email clash is reported as such, even if the code clashes too |
| Auth.CaseVariantCodeFails | backend/src/routes/auth.js:39-57 | a code in a different case from the stored one slips past the clash check and ends in a server error |
| Auth.RegisteredShape | backend/src/routes/auth.js:48-57 | a registered organisation was whitelisted, clashes with nobody, is stored upper-cased, unverified, with the organisation role |
| Auth.RegisterSucceeds | backend/src/routes/auth.js:22-57 | a whitelisted, clash-free body with a password, name, email and code is registered as an unverified organisation with the hashed password and upper-cased code (the converse of `RegisteredShape`) |
| Auth.CodeClashReported | backend/src/routes/auth.js:39-45 | when the first matching user has another email and exactly the given code, the reply is 400 "Issuer Code already exists" |
| Auth.FindByEmail | backend/src/routes/auth.js:77 | the first stored user with the email, or none exists |
| Auth.LoginOutcomes | backend/src/routes/auth.js:73-113 | an unknown email gets "Invalid Credentials"; for the first user with the email, another role is a 403, a missing hash a 500, and a matching password signs that user in with a token carrying no issuer code; a login succeeds only that way |
| Auth.WrongPasswordLooksUnknown | backend/src/routes/auth.js:92-93 | a wrong password gets the same reply as an unknown email |
| Auth.UploadCheck | backend/src/routes/auth.js:142-159 | an upload is accepted exactly when it is an image of at most 2 MiB |
| Auth.UploadSignature | backend/src/routes/auth.js:151-169 | a refused upload changes nothing; an accepted one records its URL on the caller |
| Auth.SignatureUrlsDistinct | backend/src/routes/auth.js:136-139 | distinct upload times give distinct URLs |
| AuthMiddleware.TokenOf | backend/src/middlewares/auth.js:13 | there is a token exactly when the header has a space, and the token is the space-free second field |
| AuthMiddleware.Authenticate | backend/src/middlewares/auth.js:5-29 | no header or an empty one is a 401; a pass carries the claims of the verified token |
| AuthMiddleware.TokenAfterScheme | backend/src/middlewares/auth.js:13 | after one word and a space, the token is the next word |
| AuthMiddleware.SchemeIgnored | backend/src/middlewares/auth.js:13-20 | any scheme word behaves like "Bearer" |
| AuthMiddleware.SchemeOnlyRefused | backend/src/middlewares/auth.js:13-17 | a one-word header is a 401 |
| AuthMiddleware.DoubleSpaceRefused | backend/src/middlewares/auth.js:13-17 | two spaces after the scheme make the token empty, which is a 401 |
| AuthMiddleware.VerifiedTokenPasses | backend/src/middlewares/auth.js:19-28 | a well-formed header passes exactly when its token verifies, with its claims |
| FixTemplatePaths.RewrittenUnderTemplates | backend/fixTemplatePaths.js:27-30 | every rewritten URL lies under `/templates/` |
| FixTemplatePaths.RewriteProperties | backend/fixTemplatePaths.js:21-30 | a rewrite keeps the file name, a second rewrite changes nothing, and a moved URL starts with the templates folder |
| FixTemplatePaths.FixOne | backend/fixTemplatePaths.js:18-32 | a template is saved exactly when its URL is non-empty and not under `/templates/`, with the rewritten URL; a skipped one is one the rewrite would not change |
| FixTemplatePaths.FixAt | backend/fixTemplatePaths.js:18-33 | one pass stops, changing nothing, exactly when the template is one to save and its save throws; otherwise it leaves the template rewritten; no other template changes |
| FixTemplatePaths.FixStop | backend/fixTemplatePaths.js:32-40 | the loop stops early only at a throwing save of a template that needs fixing |
| FixTemplatePaths.FixAll | backend/fixTemplatePaths.js:17-40 | every template before the stop has the rewritten URL, the rest are unchanged, and the script completes exactly when it did not stop |
| FixTemplatePaths.FixAllIdempotent | backend/fixTemplatePaths.js:17-34 | a second run leaves every template as the first did |
| StandardizeTemplates.ColoredOnlyColours | backend/src/scripts/standardizeTemplates.js:98-109 | only colours differ from the standard layout, following the dark/light table |
| StandardizeTemplates.LightRecipientDiffers | backend/src/scripts/standardizeTemplates.js:105-109 | a light template's recipient colour differs from the standard one |
| StandardizeTemplates.Standardize | backend/src/scripts/standardizeTemplates.js:93-126 | every template before the first throwing pass gets the one coloured layout for its name, the rest are unchanged, and the script completes exactly when no pass throws |
| StandardizeTemplates.StandardizeAt | backend/src/scripts/standardizeTemplates.js:94-116 | one pass gives that template its coloured layout and changes no other |
| StandardizeTemplates.StandardizeIdempotent | backend/src/scripts/standardizeTemplates.js:93-118 | a second run writes the same layouts |
| StandardizeTemplates.DarkNames | backend/src/scripts/standardizeTemplates.js:97 | "dark" and "black" are found in any case, anywhere in the name |
| Signup.Scan | frontend/src/pages/Signup.jsx:30 | the pass has seen every character |
| Signup.ScanFlags | frontend/src/pages/Signup.jsx:30 | each flag records exactly whether some character of its kind occurs |
| Signup.RegexMatchesPolicy | frontend/src/pages/Signup.jsx:30 | the expression accepts exactly the stated policy |
| Signup.ShortRefused | frontend/src/pages/Signup.jsx:30 | seven characters are never enough |
| Signup.ForeignCharacterRefused | frontend/src/pages/Signup.jsx:30 | one character outside the class refuses the password |
| Signup.ExamplePasses | frontend/src/pages/Signup.jsx:30 | "Passw0rd!" passes |
| Signup.Submit | frontend/src/pages/Signup.jsx:30-38 | `register` is called exactly for a policy-conforming password, with the form unchanged; otherwise the policy message |
| MyCertificates.FilterKeeps | frontend/src/pages/MyCertificates.jsx:46-50 | exactly the matching certificates are kept, in list order and with their multiplicity |
| MyCertificates.EmptyTermKeepsDefined | frontend/src/pages/MyCertificates.jsx:46-50 | an empty search keeps the certificates with any searched field present |
| MyCertificates.TermCaseIgnored | frontend/src/pages/MyCertificates.jsx:46-50 | the term's letter case does not matter |
| MyCertificates.DisplayCourse | frontend/src/pages/MyCertificates.jsx:117 | never empty; the course when present |
| MyCertificates.AvatarMatchesName | frontend/src/pages/MyCertificates.jsx:108-114 | the avatar is one character, the first of the shown name |
| Navbar.DashboardExact | frontend/src/components/Navbar.jsx:36-45 | Dashboard is lit only on its exact path; My Certificates on its path and below |
| Navbar.IssueNewCovers | frontend/src/components/Navbar.jsx:36-45 | Issue New is lit on the generate, bulk-generate and templates pages and below |
| Navbar.AtMostOneTab | frontend/src/components/Navbar.jsx:30-45 | no location lights two tabs |
| Navbar.ShownOrganization | frontend/src/components/Navbar.jsx:88 | never empty; the organisation when known |
| Navbar.Initial | frontend/src/components/Navbar.jsx:94 | one character: the upper-cased first letter, or "C" |
| Navbar.InitialOfShownName | frontend/src/components/Navbar.jsx:88-94 | the avatar letter is the first letter of the shown name, upper-cased |

## Findings

| source | as written | input that shows it | evidently intended | confidence | as-written member | corrected member |
|---|---|---|---|---|---|---|
| backend/src/routes/templates.js:79-84 | `purchasedTemplates` is read from the user and `$addToSet` onto it (backend/src/routes/payments.js:93-96), but the User schema declares no such path: the update is stripped and the read is `undefined` | a user calls `confirm-template` for a premium template T, then `GET /api/templates/user/:userId`: T is listed with `isPurchased` false and `isLocked` true | a confirmed template is listed as purchased and unlocked | high; not executed | Templates.UserTemplates, Payments.ConfirmTemplate, Payments.ConfirmedStillLocked | Templates.Catalogue, Templates.AddToSet, Templates.PurchaseUnlocks |

## Left out

- Sending e-mail (the certificate mail in `generate-by-purchase`) is I/O that cannot change the reply, because the route swallows its failure.
- The clock, uuids, bcrypt, JWT signing and verification, HMAC, the payment gateway, QR encoding, `image-size` and the file system are parameters. A failure to write the PDF is the `pdfFault` / `PdfFails` parameter.
- Case mapping covers ASCII letters only; other Unicode case pairs and locale rules are not modelled.
- Locale date formatting (`toLocaleDateString`) is a parameter: the date text is given.
- The avatar's CSS upper-casing is presentation and is not modelled.
- CSV headers such as `__proto__`, which behave specially on JavaScript objects, are not modelled. Neither are request rows that are not objects.
- BulkCommit.Commit: a row maps columns to strings; row values of other JSON types are not modelled.
- Records.TextOr: a truthy number or boolean in a student-data text field is kept by `||`. The program stores it cast to a string and draws its JavaScript string form; the model reads it as absent and uses the fallback. JavaScript number formatting is not modelled.
- Certificates.GenerateByPurchase: as for Records.TextOr, a truthy non-string recipient, course, description or date is modelled as absent. Only the title, whose non-string value makes the renderer throw, is modelled as given.
- Templates.CreateTemplate: `fields` and `qr` are modelled as absent, parsed to the shapes the schema stores, or not JSON. JSON of another shape is not modelled: a non-array `fields` (the Array path wraps it) or a `qr` whose members are not numbers (the cast fails).
- FixTemplatePaths.FixAll and StandardizeTemplates.Standardize: a failure to connect or to list the templates, before the loop, is not modelled.
- BulkCommit.Commit: one `now` is used for every row, where the code reads the clock once per row.
- BulkCommit.ChooseTemplate: among several templates with the same newest `createdAt`, any one may be chosen. The database's tie order is not modelled.
- Certificates.GenerateByPurchase: two concurrent requests for the same purchase can both pass the `used` check before either saves. The model runs one request at a time.
- Store.Db: an id that is not a valid ObjectId (MongoDB's CastError) is an unknown id in the model. Routes that check the format first are modelled with the check.
- Store.Db: ids are matched as exact strings. MongoDB casts 24 hex digits in upper case to the same ObjectId as their lower-case form, so `findById` in `generate-by-purchase` (Certificates.GenerateByPurchase) and `mark-success` (Payments.MarkSuccess) finds the record, where the model answers 404.
- Payments.Price: amounts are exact reals, where JavaScript computes in IEEE doubles. Whole-number quantities are exact in both (Payments.BulkPaise). A fractional quantity can round differently in `Math.round(amount * 100)` (1.005 rupees is 100 paise in JavaScript, 101 in the model). A string quantity, which JavaScript multiplies after converting it (or turns into NaN), is not modelled.
- Auth.Login: `email` and `password` are strings. A body without `password` makes `bcrypt.compare(undefined, hash)` reject; the handler has no catch, so no reply is sent. That case is not modelled.
- `path.join` is concatenation with '/'; `.` and `..` segments are not normalised.
- Auth.Register: the whitelist lookup builds a regular expression from the code without escaping it. The model reads it as case-insensitive equality, so codes holding regular-expression metacharacters are not modelled.
- Auth.Register has no `ensures` of its own; its properties are the lemmas beside it (UnlistedRefusedFirst, EmailClashReportedFirst, CodeClashReported, CaseVariantCodeFails, RegisteredShape, RegisterSucceeds).
- The older `/generate` route, the `/me` route, the remaining pages and components of the client, and the seeding and debugging scripts are not part of this model.
- PdfService.PdfDoc: font metrics, line wrapping and the bytes of the PDF file are not modelled. A document is the ordered list of its text and image calls.

=== FILE: auth.dfy ===
/**
 * The authentication routes: organisation registration against a whitelist
 * of issuer codes, password login, and the signature-image upload.
 */
module Auth {
  import opened Wrappers
  import opened Text
  import opened Radix
  import opened Records
  import opened Store

  // ---------------------------------------------------------------------
  // register
  // ---------------------------------------------------------------------

  /** The request body; None stands for an absent field. */
  datatype RegisterBody = RegisterBody(
    organizationName: string, issuerCode: Option<string>, email: string, password: Option<string>)

  datatype RegisterReply = RegisterRejected(rejection: Rejection) | Registered(user: User) | RegisterFailed

  /** `issuerCode ? issuerCode.trim() : ""`. */
  function CleanCode(issuerCode: Option<string>): string {
    if issuerCode.Some? then Trim(issuerCode.value) else ""
  }

  /**
   * The whitelist lookup `^code$` with the `i` flag, read as a literal:
   * some whitelisted code equals `code` up to letter case.
   */
  predicate Whitelisted(validOrgs: seq<ValidOrganization>, code: string) {
    exists i :: 0 <= i < |validOrgs| && Lower(validOrgs[i].issuerCode) == Lower(code)
  }

  /**
   * `User.findOne({ $or: [{ email }, { issuerCode }] })`: the first stored
   * user with that email or that issuer code. The schema's upper-casing
   * setter applies to the query value, so the code is compared upper-cased.
   */
  function FindDuplicate(users: seq<User>, email: string, code: string): (k: Option<nat>)
    ensures k.Some? ==> k.value < |users| && (users[k.value].email == email || users[k.value].issuerCode == Upper(code))
    ensures k.Some? ==> forall j :: 0 <= j < k.value ==> users[j].email != email && users[j].issuerCode != Upper(code)
    ensures k.None? ==> forall j :: 0 <= j < |users| ==> users[j].email != email && users[j].issuerCode != Upper(code)
  {
    if users == [] then None
    else if users[0].email == email || users[0].issuerCode == Upper(code) then Some(0)
    else
      var k := FindDuplicate(users[1..], email, code);
      if k.Some? then Some(k.value + 1) else None
  }

  /**
   * `POST /register` over the users in stored order. `hash` stands for
   * bcrypt and `newId` for the id the database assigns. A duplicate that the
   * two explicit comparisons miss reaches `User.create` and fails on its
   * unique indexes; an absent password makes bcrypt throw.
   */
  function Register(validOrgs: seq<ValidOrganization>, users: seq<User>, body: RegisterBody,
                    hash: string -> string, newId: string): RegisterReply
  {
    var code := CleanCode(body.issuerCode);
    if !Whitelisted(validOrgs, code) then
      RegisterRejected(Rejection(403, "Invalid Issuer Code. Please contact admin to whitelist your organization."))
    else
      var existing := FindDuplicate(users, body.email, code);
      if existing.Some? && users[existing.value].email == body.email then
        RegisterRejected(Rejection(400, "Email already exists"))
      else if existing.Some? && users[existing.value].issuerCode == code then
        RegisterRejected(Rejection(400, "Issuer Code already exists"))
      else if body.password.None? || existing.Some? then
        RegisterFailed
      else if body.organizationName == "" || body.email == "" || code == "" then
        RegisterFailed
      else
        Registered(User(newId, body.organizationName, body.email, hash(body.password.value),
                        Upper(code), false, "", "organization", None))
  }

  /** The whitelist is consulted first: an unlisted code is refused whatever the users are. */
  lemma UnlistedRefusedFirst(validOrgs: seq<ValidOrganization>, users: seq<User>, body: RegisterBody,
                             hash: string -> string, newId: string)
    requires !Whitelisted(validOrgs, CleanCode(body.issuerCode))
    ensures Register(validOrgs, users, body, hash, newId).RegisterRejected?
    ensures Register(validOrgs, users, body, hash, newId).rejection.status == 403
  {
  }

  /** A stored user with the same email is reported as an email clash, even when the code clashes too. */
  lemma EmailClashReportedFirst(validOrgs: seq<ValidOrganization>, users: seq<User>, body: RegisterBody,
                                hash: string -> string, newId: string, k: nat)
    requires Whitelisted(validOrgs, CleanCode(body.issuerCode))
    requires k < |users| && users[k].email == body.email
    requires forall j :: 0 <= j < k ==> users[j].email != body.email && users[j].issuerCode != Upper(CleanCode(body.issuerCode))
    ensures Register(validOrgs, users, body, hash, newId) == RegisterRejected(Rejection(400, "Email already exists"))
  {
    var e := FindDuplicate(users, body.email, CleanCode(body.issuerCode));
    assert e.Some?;
  }

  /**
   * An issuer code typed in a different case than it is stored slips past
   * the explicit comparison (which is case-sensitive) and the registration
   * ends in a server error rather than the 400 'Issuer Code already exists'.
   */
  lemma CaseVariantCodeFails(validOrgs: seq<ValidOrganization>, users: seq<User>, body: RegisterBody,
                             hash: string -> string, newId: string)
    requires Whitelisted(validOrgs, CleanCode(body.issuerCode))
    requires forall j :: 0 <= j < |users| ==> users[j].email != body.email
    requires exists j :: 0 <= j < |users| && users[j].issuerCode == Upper(CleanCode(body.issuerCode))
    requires Upper(CleanCode(body.issuerCode)) != CleanCode(body.issuerCode)
    ensures Register(validOrgs, users, body, hash, newId) == RegisterFailed
  {
    var code := CleanCode(body.issuerCode);
    var e := FindDuplicate(users, body.email, code);
    assert e.Some?;
    assert users[e.value].issuerCode == Upper(code);
  }

  /**
   * A registered organisation was whitelisted, clashes with no stored user
   * on email or issuer code, is stored upper-cased, and starts unverified
   * with the organisation role.
   */
  lemma RegisteredShape(validOrgs: seq<ValidOrganization>, users: seq<User>, body: RegisterBody,
                        hash: string -> string, newId: string)
    requires Register(validOrgs, users, body, hash, newId).Registered?
    ensures var u := Register(validOrgs, users, body, hash, newId).user;
      && Whitelisted(validOrgs, CleanCode(body.issuerCode))
      && u.role == "organization" && !u.verified && u.signatureUrl == ""
      && u.issuerCode == Upper(CleanCode(body.issuerCode)) && u.issuerCode != ""
      && u.email == body.email && u.organizationName == body.organizationName
      && body.password.Some? && u.passwordHash == hash(body.password.value)
      && forall j :: 0 <= j < |users| ==> users[j].email != u.email && users[j].issuerCode != u.issuerCode
  {
  }

  /**
   * A whitelisted code whose body has a password, a name, an email and a
   * code, and that clashes with no stored user on email or (upper-cased)
   * issuer code, registers an unverified organisation holding the hashed
   * password and the upper-cased code. With `RegisteredShape` this is an
   * if-and-only-if.
   */
  lemma RegisterSucceeds(validOrgs: seq<ValidOrganization>, users: seq<User>, body: RegisterBody,
                         hash: string -> string, newId: string)
    requires Whitelisted(validOrgs, CleanCode(body.issuerCode))
    requires forall j :: 0 <= j < |users| ==>
               users[j].email != body.email && users[j].issuerCode != Upper(CleanCode(body.issuerCode))
    requires body.password.Some? && body.organizationName != "" && body.email != "" && CleanCode(body.issuerCode) != ""
    ensures Register(validOrgs, users, body, hash, newId)
         == Registered(User(newId, body.organizationName, body.email, hash(body.password.value),
                            Upper(CleanCode(body.issuerCode)), false, "", "organization", None))
  {
    assert FindDuplicate(users, body.email, CleanCode(body.issuerCode)).None?;
  }

  /**
   * The first stored user matching the body has another email but exactly
   * the (already upper-case) issuer code: the code clash is reported.
   */
  lemma CodeClashReported(validOrgs: seq<ValidOrganization>, users: seq<User>, body: RegisterBody,
                          hash: string -> string, newId: string, k: nat)
    requires Whitelisted(validOrgs, CleanCode(body.issuerCode))
    requires k < |users| && users[k].email != body.email && users[k].issuerCode == CleanCode(body.issuerCode)
    requires CleanCode(body.issuerCode) == Upper(CleanCode(body.issuerCode))
    requires forall j :: 0 <= j < k ==> users[j].email != body.email && users[j].issuerCode != Upper(CleanCode(body.issuerCode))
    ensures Register(validOrgs, users, body, hash, newId) == RegisterRejected(Rejection(400, "Issuer Code already exists"))
  {
    var e := FindDuplicate(users, body.email, CleanCode(body.issuerCode));
    assert e.Some?;
    assert e.value == k;
  }

  // ---------------------------------------------------------------------
  // login
  // ---------------------------------------------------------------------

  datatype LoginReply = LoginRejected(rejection: Rejection) | LoggedIn(claims: Claims, user: User)

  /** `User.findOne({ email })`: the first stored user with that email. */
  function FindByEmail(users: seq<User>, email: string): (k: Option<nat>)
    ensures k.Some? ==> k.value < |users| && users[k.value].email == email
    ensures k.Some? ==> forall j :: 0 <= j < k.value ==> users[j].email != email
    ensures k.None? ==> forall j :: 0 <= j < |users| ==> users[j].email != email
  {
    if users == [] then None
    else if users[0].email == email then Some(0)
    else
      var k := FindByEmail(users[1..], email);
      if k.Some? then Some(k.value + 1) else None
  }

  /**
   * `POST /login`; `compare` stands for `bcrypt.compare`. The stored hash is
   * `u.passwordHash || u.password`, but `password` is not a path of the User
   * schema and reads `undefined`, so only `passwordHash` can supply it.
   */
  function Login(users: seq<User>, email: string, password: string, compare: (string, string) -> bool): LoginReply {
    var k := FindByEmail(users, email);
    if k.None? then LoginRejected(Rejection(400, "Invalid Credentials"))
    else
      var u := users[k.value];
      if u.role != "organization" && u.role != "admin" then
        LoginRejected(Rejection(403, "Access Denied: Not an Organization account"))
      else if u.passwordHash == "" then
        LoginRejected(Rejection(500, "Account error. Please contact support."))
      else if !compare(password, u.passwordHash) then
        LoginRejected(Rejection(400, "Invalid Credentials"))
      else
        LoggedIn(Claims(u.id, u.role, u.organizationName, None), u)
  }

  /**
   * The outcomes of a login. An unknown email is refused with "Invalid
   * Credentials". For the first user with the email: another role is a 403,
   * a missing hash a 500, and a matching password signs the user in with a
   * token that carries no issuer code. A login succeeds only that way.
   */
  lemma LoginOutcomes(users: seq<User>, email: string, password: string, compare: (string, string) -> bool)
    ensures (forall j :: 0 <= j < |users| ==> users[j].email != email) ==>
      Login(users, email, password, compare) == LoginRejected(Rejection(400, "Invalid Credentials"))
    ensures forall k :: 0 <= k < |users| && users[k].email == email
                        && (forall j :: 0 <= j < k ==> users[j].email != email) ==>
      var u := users[k];
      && (u.role !in {"organization", "admin"} ==>
            Login(users, email, password, compare) == LoginRejected(Rejection(403, "Access Denied: Not an Organization account")))
      && (u.role in {"organization", "admin"} && u.passwordHash == "" ==>
            Login(users, email, password, compare) == LoginRejected(Rejection(500, "Account error. Please contact support.")))
      && (u.role in {"organization", "admin"} && u.passwordHash != "" && compare(password, u.passwordHash) ==>
            Login(users, email, password, compare) == LoggedIn(Claims(u.id, u.role, u.organizationName, None), u))
    ensures Login(users, email, password, compare).LoggedIn? ==>
      var r := Login(users, email, password, compare);
      && r.user in users && r.user.email == email
      && r.user.role in {"organization", "admin"}
      && r.user.passwordHash != "" && compare(password, r.user.passwordHash)
      && r.claims == Claims(r.user.id, r.user.role, r.user.organizationName, None)
  {
    var f := FindByEmail(users, email);
    forall k | 0 <= k < |users| && users[k].email == email && (forall j :: 0 <= j < k ==> users[j].email != email)
      ensures f == Some(k)
    {
      assert f.Some?;
    }
  }

  /** A known organisation with a stored hash and a wrong password gets the unknown-email reply. */
  lemma WrongPasswordLooksUnknown(users: seq<User>, email: string, password: string, compare: (string, string) -> bool)
    requires FindByEmail(users, email).Some?
    requires var u := users[FindByEmail(users, email).value];
      u.role in {"organization", "admin"} && u.passwordHash != "" && !compare(password, u.passwordHash)
    ensures Login(users, email, password, compare) == Login([], email, password, compare)
  {
  }

  // ---------------------------------------------------------------------
  // upload-signature
  // ---------------------------------------------------------------------

  /** The upload limit: 2 MiB. */
  const MaxSignatureBytes: nat := 2 * 1024 * 1024

  /** An uploaded file: its MIME type, its size, and `path.extname` of its original name. */
  datatype Upload = Upload(mimetype: string, size: nat, ext: string)

  datatype SignatureReply = SignatureRejected(rejection: Rejection) | SignatureStored(signatureUrl: string)

  /** `/uploads/signatures/<user id>_<Date.now()><ext>`. */
  function SignatureUrl(userId: string, now: nat, ext: string): string {
    "/uploads/signatures/" + userId + "_" + ToDecimal(now) + ext
  }

  /** The upload checks in the order they run: the type filter, the size limit, then presence. */
  function UploadCheck(file: Option<Upload>): (r: Option<Rejection>)
    ensures r.None? <==> file.Some? && StartsWith(file.value.mimetype, "image/") && file.value.size <= 2097152
  {
    if file.Some? && !StartsWith(file.value.mimetype, "image/") then Some(Rejection(400, "Only images allowed"))
    else if file.Some? && file.value.size > MaxSignatureBytes then Some(Rejection(400, "File too large. Max 2MB."))
    else if file.None? then Some(Rejection(400, "No file uploaded"))
    else None
  }

  /**
   * `POST /upload-signature` for the caller in `claims`: the accepted image's
   * URL is recorded on the caller's user (a missing user is not an error).
   */
  method UploadSignature(db: Db, claims: Claims, file: Option<Upload>, now: nat) returns (reply: SignatureReply)
    modifies db
    ensures db.purchases == old(db.purchases) && db.templates == old(db.templates)
    ensures db.plans == old(db.plans) && db.certificates == old(db.certificates)
    ensures UploadCheck(file).Some? ==> reply == SignatureRejected(UploadCheck(file).value) && db.users == old(db.users)
    ensures UploadCheck(file).None? ==>
      var url := SignatureUrl(claims.id, now, file.value.ext);
      && reply == SignatureStored(url)
      && db.users == (if claims.id in old(db.users)
                      then old(db.users)[claims.id := old(db.users)[claims.id].(signatureUrl := url)]
                      else old(db.users))
  {
    var rejection := UploadCheck(file);
    if rejection.Some? {
      return SignatureRejected(rejection.value);
    }
    var url := SignatureUrl(claims.id, now, file.value.ext);
    if claims.id in db.users {
      var user := db.users[claims.id];
      db.SaveUser(claims.id, user.(signatureUrl := url));
    }
    reply := SignatureStored(url);
  }

  /** Distinct upload times give distinct URLs for the same user and extension. */
  lemma SignatureUrlsDistinct(userId: string, m: nat, n: nat, ext: string)
    requires m != n
    ensures SignatureUrl(userId, m, ext) != SignatureUrl(userId, n, ext)
  {
    var p := "/uploads/signatures/" + userId + "_";
    var dm, dn := ToDecimal(m), ToDecimal(n);
    assert SignatureUrl(userId, m, ext) == p + dm + ext;
    assert SignatureUrl(userId, n, ext) == p + dn + ext;
    if p + dm + ext == p + dn + ext {
      assert dm + ext == (p + dm + ext)[|p|..];
      assert dn + ext == (p + dn + ext)[|p|..];
      CancelSuffix(dm, dn, ext);
    }
  }

  /** Strings that end in the same suffix are equal when what precedes it is. */
  lemma CancelSuffix(a: string, b: string, ext: string)
    requires a + ext == b + ext
    ensures a == b
  {
    assert |a| == |b|;
    assert a == (a + ext)[..|a|];
  }
}

=== FILE: auth_middleware.dfy ===
/**
 * `authMiddleware`: reads the `Authorization` header, takes the second
 * space-separated word as the token, and lets the request through with the
 * decoded payload when the token verifies.
 */
module AuthMiddleware {
  import opened Wrappers
  import opened Text
  import opened Records

  /** Either a 401 reply, or `next()` called once with `req.user` set to the claims. */
  datatype AuthResult = Denied(rejection: Rejection) | Authenticated(claims: Claims)

  /** `authHeader.split(" ")[1]`; None when the header has no second field. */
  function TokenOf(header: string): (t: Option<string>)
    ensures t.Some? <==> ' ' in header
    ensures t.Some? ==> t.value == Split(header, ' ')[1] && ' ' !in t.value
  {
    var parts := Split(header, ' ');
    if |parts| >= 2 then Some(parts[1]) else None
  }

  /**
   * The middleware. `header` is None when there is no `Authorization`
   * header; `verify` stands for `jwt.verify` under the server secret (None
   * when it throws: bad signature, expired, malformed).
   */
  function Authenticate(header: Option<string>, verify: string -> Option<Claims>): (r: AuthResult)
    ensures (header.None? || header.value == "") ==> r == Denied(Rejection(401, "Unauthorized"))
    ensures r.Authenticated? ==>
      && header.Some? && TokenOf(header.value).Some? && TokenOf(header.value).value != ""
      && verify(TokenOf(header.value).value) == Some(r.claims)
  {
    if header.None? || header.value == "" then Denied(Rejection(401, "Unauthorized"))
    else ByToken(TokenOf(header.value), verify)
  }

  /** The middleware once the header is known to be non-empty: only the token it carries matters. */
  function ByToken(token: Option<string>, verify: string -> Option<Claims>): AuthResult {
    if token.None? || token.value == "" then Denied(Rejection(401, "Unauthorized"))
    else
      var claims := verify(token.value);
      if claims.None? then Denied(Rejection(401, "Invalid token"))
      else Authenticated(claims.value)
  }

  /** After a first word and one space, the token is the rest up to its next space. */
  lemma TokenAfterScheme(scheme: string, rest: string)
    requires ' ' !in scheme
    ensures TokenOf(scheme + " " + rest) == Some(FirstField(rest, ' '))
  {
    assert scheme + " " + rest == scheme + [' '] + rest;
    SplitAfterPrefix(scheme, ' ', rest);
  }

  /**
   * The first word is never looked at: any scheme followed by one space and
   * a token behaves like "Bearer", and the token is cut at the next space.
   */
  lemma SchemeIgnored(scheme: string, rest: string, verify: string -> Option<Claims>)
    requires ' ' !in scheme
    ensures Authenticate(Some(scheme + " " + rest), verify) == Authenticate(Some("Bearer " + rest), verify)
  {
    TokenAfterScheme(scheme, rest);
    TokenAfterScheme("Bearer", rest);
    assert (scheme + " " + rest)[|scheme|] == ' ' && ("Bearer " + rest)[6] == ' ';
  }

  /** A header that is one word has no token and is refused without verifying anything. */
  lemma SchemeOnlyRefused(scheme: string, verify: string -> Option<Claims>)
    requires scheme != "" && ' ' !in scheme
    ensures Authenticate(Some(scheme), verify) == Denied(Rejection(401, "Unauthorized"))
  {
  }

  /** Two spaces after the scheme make the token empty, which is refused the same way. */
  lemma DoubleSpaceRefused(scheme: string, rest: string, verify: string -> Option<Claims>)
    requires ' ' !in scheme
    ensures Authenticate(Some(scheme + "  " + rest), verify) == Denied(Rejection(401, "Unauthorized"))
  {
    assert scheme + "  " + rest == scheme + " " + (" " + rest);
    TokenAfterScheme(scheme, " " + rest);
    FirstFieldAfterPrefix("", ' ', rest);
    assert "" + [' '] + rest == " " + rest;
    assert (scheme + "  " + rest)[|scheme|] == ' ';
  }

  /** A well-formed header passes exactly when its token verifies, and then carries the token's claims. */
  lemma VerifiedTokenPasses(token: string, verify: string -> Option<Claims>)
    requires token != "" && ' ' !in token
    ensures Authenticate(Some("Bearer " + token), verify) ==
      (if verify(token).Some? then Authenticated(verify(token).value) else Denied(Rejection(401, "Invalid token")))
  {
    SplitAfterPrefix("Bearer", ' ', token);
    assert "Bearer " + token == "Bearer" + [' '] + token;
  }
}

=== FILE: bulk_commit.dfy ===
/**
 * `POST /bulk/commit`: one certificate per submitted row, each rendered on
 * the chosen template and stored under `<issuerCode>-<8 upper-case uuid
 * characters>`. The loop stops at the first row that throws; the rows
 * before it stay stored.
 */
module BulkCommit {
  import opened Wrappers
  import opened Text
  import opened Records
  import opened Store
  import Certificates
  import PdfService
  import BulkUpload
  import Auth

  /** A submitted row: the column values by key; an absent key is `undefined`. */
  type Row = map<string, string>

  /** `req.body.rows`: absent, present but not an array, or an array of rows. */
  datatype RowsField = RowsAbsent | RowsNotArray | RowsArray(rows: seq<Row>)

  /** `row[key]`, with `undefined` read as "" (both are falsy, and both fail a required string). */
  function Field(row: Row, key: string): string {
    if key in row then row[key] else ""
  }

  // ---------------------------------------------------------------------
  // Certificate ids
  // ---------------------------------------------------------------------

  /** `${user.issuerCode}` for the token's payload: a missing claim prints as "undefined". */
  function IssuerText(issuerCode: Option<string>): string {
    if issuerCode.Some? then issuerCode.value else "undefined"
  }

  /** `uuid.slice(0, 8).toUpperCase()`. */
  function UniqueId(uuid: string): string {
    Upper(if |uuid| <= 8 then uuid else uuid[..8])
  }

  /** `${user.issuerCode}-${uniqueId}`. */
  function BulkCertId(issuerCode: Option<string>, uuid: string): string {
    IssuerText(issuerCode) + "-" + UniqueId(uuid)
  }

  /**
   * The id is the issuer text, a dash and then the first eight characters of
   * the uuid upper-cased; for a uuid that starts with eight hex digits (as a
   * version-4 uuid string does) the tail is eight hex digits with no
   * lower-case letter.
   */
  lemma BulkCertIdShape(issuerCode: Option<string>, uuid: string)
    ensures var id := BulkCertId(issuerCode, uuid);
      var n := |IssuerText(issuerCode)|;
      && id[..n] == IssuerText(issuerCode) && id[n] == '-'
      && id[n + 1..] == Upper(if |uuid| <= 8 then uuid else uuid[..8])
    ensures |uuid| >= 8 && (forall i :: 0 <= i < 8 ==> IsHexDigit(uuid[i])) ==>
      var tail := BulkCertId(issuerCode, uuid)[|IssuerText(issuerCode)| + 1..];
      |tail| == 8 && forall i :: 0 <= i < 8 ==> IsHexDigit(tail[i]) && !('a' <= tail[i] <= 'z')
  {
    var id := BulkCertId(issuerCode, uuid);
    var n := |IssuerText(issuerCode)|;
    assert id[n + 1..] == UniqueId(uuid);
  }

  /** With one issuer, two rows get the same id exactly when their uuids agree on the upper-cased first eight characters. */
  lemma SameIssuerIds(issuerCode: Option<string>, uuid1: string, uuid2: string)
    ensures BulkCertId(issuerCode, uuid1) == BulkCertId(issuerCode, uuid2) <==> UniqueId(uuid1) == UniqueId(uuid2)
  {
    var n := |IssuerText(issuerCode)| + 1;
    if BulkCertId(issuerCode, uuid1) == BulkCertId(issuerCode, uuid2) {
      assert BulkCertId(issuerCode, uuid1)[n..] == UniqueId(uuid1);
      assert BulkCertId(issuerCode, uuid2)[n..] == UniqueId(uuid2);
    }
  }

  /**
   * Tokens come from `POST /login`, whose payload has no issuer code, so
   * every bulk certificate id issued with such a token starts "undefined-"
   * rather than with the organisation's code.
   */
  lemma LoginTokenIdsUndefined(users: seq<User>, email: string, password: string,
                               compare: (string, string) -> bool, uuid: string)
    requires Auth.Login(users, email, password, compare).LoggedIn?
    ensures var claims := Auth.Login(users, email, password, compare).claims;
      BulkCertId(claims.issuerCode, uuid)[..10] == "undefined-"
  {
  }

  // ---------------------------------------------------------------------
  // Choosing the template
  // ---------------------------------------------------------------------

  /** `templateId` is truthy: present and not "". */
  predicate Named(templateId: Option<string>) {
    templateId.Some? && templateId.value != ""
  }

  /** `t` has the largest `createdAt` of the collection. */
  predicate Latest(templates: map<string, Template>, t: Template) {
    t in templates.Values && forall k :: k in templates ==> templates[k].createdAt <= t.createdAt
  }

  /** A non-empty collection has a newest template. */
  lemma {:induction false} LatestExists(templates: map<string, Template>, keys: set<string>)
    requires keys != {} && keys <= templates.Keys
    ensures exists k :: k in keys && forall k' :: k' in keys ==> templates[k'].createdAt <= templates[k].createdAt
    decreases |keys|
  {
    var x :| x in keys;
    if keys != {x} {
      LatestExists(templates, keys - {x});
      var k :| k in keys - {x} && forall k' :: k' in keys - {x} ==> templates[k'].createdAt <= templates[k].createdAt;
      if templates[x].createdAt <= templates[k].createdAt {
        assert forall k' :: k' in keys ==> templates[k'].createdAt <= templates[k].createdAt;
      } else {
        assert forall k' :: k' in keys ==> templates[k'].createdAt <= templates[x].createdAt;
      }
    } else {
      assert forall k' :: k' in keys ==> k' == x;
    }
  }

  /**
   * `Template.findById(templateId)` when an id is given, otherwise
   * `Template.findOne().sort({ createdAt: -1 })`; None when nothing is found.
   */
  method ChooseTemplate(templates: map<string, Template>, templateId: Option<string>) returns (t: Option<Template>)
    ensures Named(templateId) ==>
      t == (if templateId.value in templates then Some(templates[templateId.value]) else None)
    ensures !Named(templateId) ==> (t.None? <==> templates == map[])
    ensures !Named(templateId) && t.Some? ==> Latest(templates, t.value)
  {
    if Named(templateId) {
      t := if templateId.value in templates then Some(templates[templateId.value]) else None;
    } else if templates == map[] {
      t := None;
    } else {
      assert templates.Keys != {} by {
        var k :| k in templates;
      }
      LatestExists(templates, templates.Keys);
      var k :| k in templates && forall k' :: k' in templates ==> templates[k'].createdAt <= templates[k].createdAt;
      t := Some(templates[k]);
    }
  }

  // ---------------------------------------------------------------------
  // One row
  // ---------------------------------------------------------------------

  /**
   * The configuration and foreign calls of one commit: FRONTEND_URL,
   * `new Date()`, the renderer's environment, and the uuid returned by the
   * k-th call of `uuidv4()`.
   */
  datatype BulkEnv = BulkEnv(frontendUrl: string, now: int, render: PdfService.RenderEnv, uuid: nat -> string)

  /** The data object passed to the renderer for a row; the token's payload carries no signature URL. */
  function RowPdfData(claims: Claims, row: Row): (d: PdfService.CertData)
    ensures d.recipientName == Field(row, "name") && d.courseName == Field(row, "course")
    ensures d.issueDate == Field(row, "issuedate") && d.certificateTitle == Field(row, "title")
    ensures d.signatureUrl == "" && d.description == "" && d.organizationName == claims.organizationName
  {
    PdfService.CertData(
      Field(row, "title"), claims.organizationName, None, Field(row, "name"), "",
      Field(row, "course"), "", Field(row, "issuedate"), "")
  }

  /** The id of the k-th row. */
  function RowCertId(claims: Claims, env: BulkEnv, k: nat): string {
    BulkCertId(claims.issuerCode, env.uuid(k))
  }

  /** The render request of the k-th row. */
  function RowRequest(claims: Claims, t: Template, row: Row, env: BulkEnv, k: nat): PdfService.Request {
    var id := RowCertId(claims, env, k);
    PdfService.Request(
      PdfService.BackgroundRef(t.bgImageUrl), RowPdfData(claims, row), env.render,
      id, Certificates.QrUrl(env.frontendUrl, id))
  }

  /** `paymentId || 'PENDING'`. */
  function PaymentText(paymentId: Option<string>): string {
    if paymentId.Some? && paymentId.value != "" then paymentId.value else "PENDING"
  }

  /** The record `Certificate.create` is asked to store for the k-th row. */
  function RowCertificate(claims: Claims, t: Template, row: Row, paymentId: Option<string>, env: BulkEnv, k: nat)
    : (c: Certificate)
    ensures c.certificateId == RowCertId(claims, env, k)
    ensures c.studentName == Field(row, "name") && c.courseName == Field(row, "course")
    ensures c.issueDate == Field(row, "issuedate")
    ensures c.userId == Some(claims.id) && c.templateId == Some(t.id)
    ensures c.paymentId == Some(PaymentText(paymentId))
  {
    var id := RowCertId(claims, env, k);
    Certificate(
      id, Some(claims.id), Some(t.id), "uploads/certificates/" + id + ".pdf",
      Certificates.QrUrl(env.frontendUrl, id), Some(PaymentText(paymentId)), env.now,
      Field(row, "name"), Field(row, "course"), Field(row, "issuedate"))
  }

  /** The certificates the commit would store, one per row, in row order. */
  function Planned(claims: Claims, t: Template, rows: seq<Row>, paymentId: Option<string>, env: BulkEnv)
    : (r: seq<Certificate>)
    ensures |r| == |rows|
    ensures forall k :: 0 <= k < |rows| ==> r[k] == RowCertificate(claims, t, rows[k], paymentId, env, k)
  {
    seq(|rows|, k requires 0 <= k < |rows| => RowCertificate(claims, t, rows[k], paymentId, env, k))
  }

  /** The page rendered for each row. */
  function PlannedPages(claims: Claims, t: Template, rows: seq<Row>, env: BulkEnv): (r: seq<PdfService.Page>)
    ensures |r| == |rows|
    ensures forall k :: 0 <= k < |rows| ==> r[k] == PdfService.RenderPlan(RowRequest(claims, t, rows[k], env, k))
  {
    seq(|rows|, k requires 0 <= k < |rows| => PdfService.RenderPlan(RowRequest(claims, t, rows[k], env, k)))
  }

  /**
   * Row k throws: its PDF cannot be written (`pdfFault`), or
   * `Certificate.create` refuses the record (an empty name or course, or an
   * id already stored).
   */
  predicate RowFails(stored: seq<Certificate>, c: Certificate, k: nat, pdfFault: Option<nat>) {
    pdfFault == Some(k) || !CertificateValid(c) || Certificates.IdTaken(stored, c.certificateId)
  }

  /** The first row from `k` on that throws, given what is stored before the run; |planned| when none does. */
  function StopFrom(stored: seq<Certificate>, planned: seq<Certificate>, pdfFault: Option<nat>, k: nat): (s: nat)
    requires k <= |planned|
    ensures k <= s <= |planned|
    decreases |planned| - k
  {
    if k == |planned| then k
    else if RowFails(stored + planned[..k], planned[k], k, pdfFault) then k
    else StopFrom(stored, planned, pdfFault, k + 1)
  }

  /** The row the run stops at. */
  function Stop(stored: seq<Certificate>, planned: seq<Certificate>, pdfFault: Option<nat>): nat {
    StopFrom(stored, planned, pdfFault, 0)
  }

  /** One row of the run: a row that throws is the stop, one that succeeds passes the search on. */
  lemma StopStep(stored: seq<Certificate>, planned: seq<Certificate>, pdfFault: Option<nat>, k: nat)
    requires k < |planned|
    ensures RowFails(stored + planned[..k], planned[k], k, pdfFault) ==> StopFrom(stored, planned, pdfFault, k) == k
    ensures !RowFails(stored + planned[..k], planned[k], k, pdfFault) ==>
      StopFrom(stored, planned, pdfFault, k) == StopFrom(stored, planned, pdfFault, k + 1)
  {
  }

  /** Every row before the stop succeeds, and the stop is a row that throws or the end. */
  lemma {:induction false} StopFacts(stored: seq<Certificate>, planned: seq<Certificate>, pdfFault: Option<nat>, k: nat)
    requires k <= |planned|
    ensures forall j :: k <= j < StopFrom(stored, planned, pdfFault, k) ==>
      !RowFails(stored + planned[..j], planned[j], j, pdfFault)
    ensures StopFrom(stored, planned, pdfFault, k) < |planned| ==>
      var s := StopFrom(stored, planned, pdfFault, k);
      RowFails(stored + planned[..s], planned[s], s, pdfFault)
    decreases |planned| - k
  {
    if k < |planned| && !RowFails(stored + planned[..k], planned[k], k, pdfFault) {
      StopFacts(stored, planned, pdfFault, k + 1);
    }
  }

  /**
   * Rows with a name and a course, with ids that are new and distinct, and
   * no failing PDF, are all stored.
   */
  lemma AllRowsStored(stored: seq<Certificate>, planned: seq<Certificate>)
    requires forall k :: 0 <= k < |planned| ==> CertificateValid(planned[k])
    requires forall k :: 0 <= k < |planned| ==> !Certificates.IdTaken(stored, planned[k].certificateId)
    requires forall j, k :: 0 <= j < k < |planned| ==> planned[j].certificateId != planned[k].certificateId
    ensures Stop(stored, planned, None) == |planned|
  {
    forall k | 0 <= k < |planned|
      ensures !RowFails(stored + planned[..k], planned[k], k, None)
    {
      var all := stored + planned[..k];
      forall i | 0 <= i < |all|
        ensures all[i].certificateId != planned[k].certificateId
      {
        if i < |stored| {
          assert all[i] == stored[i];
        } else {
          assert all[i] == planned[i - |stored|];
        }
      }
    }
    StopFacts(stored, planned, None, 0);
  }

  /**
   * Every certificate a run stores can be looked up by its id afterwards,
   * and the lookup shows that row's record, not an older one with the same id.
   */
  lemma StoredRowsVerify(stored: seq<Certificate>, planned: seq<Certificate>, pdfFault: Option<nat>,
                         users: map<string, User>, j: nat)
    requires j < Stop(stored, planned, pdfFault)
    ensures Certificates.Verify(stored + planned[..Stop(stored, planned, pdfFault)], users, planned[j].certificateId)
            == Certificates.Valid(Certificates.Publish(planned[j], users))
  {
    StopFacts(stored, planned, pdfFault, 0);
    var s := Stop(stored, planned, pdfFault);
    var id := planned[j].certificateId;
    var pre := stored + planned[..j];
    assert !RowFails(pre, planned[j], j, pdfFault);
    var all := stored + planned[..s];
    assert all[|pre|] == planned[j];
    forall q | 0 <= q < |pre|
      ensures all[q].certificateId != id
    {
      assert all[q] == pre[q];
    }
    var i := Certificates.FindCertificate(all, id);
    assert i.Some? && i.value == |pre|;
  }

  /**
   * A row accepted by the upload step and sent back unchanged has a name and
   * a course, so `Certificate.create` accepts its record.
   */
  lemma UploadedRowValid(claims: Claims, t: Template, v: BulkUpload.ValidRow, paymentId: Option<string>,
                         env: BulkEnv, k: nat)
    requires BulkUpload.RowValid(v.data)
    ensures CertificateValid(RowCertificate(claims, t, BulkUpload.Columns(v), paymentId, env, k))
  {
    BulkUpload.ErrorsListed(v.data);
    var c := BulkUpload.Columns(v);
    assert "name" in c && c["name"] == v.data["name"];
    assert "course" in c && c["course"] == v.data["course"];
  }

  // ---------------------------------------------------------------------
  // The route
  // ---------------------------------------------------------------------

  datatype CommitReply =
    | CommitRejected(rejection: Rejection)
    | Committed(count: nat, pages: seq<PdfService.Page>)
    | CommitFailed

  /** The rows field holds at least one row. */
  predicate HasRows(rows: RowsField) {
    rows.RowsArray? && rows.rows != []
  }

  /**
   * `Certificate.create` for row k: the record is stored unless it throws;
   * `pdfFault == Some(k)` means the row's PDF could not be written first.
   */
  method StoreRow(db: Db, cert: Certificate, k: nat, pdfFault: Option<nat>) returns (stored: bool)
    modifies db
    ensures stored == !RowFails(old(db.certificates), cert, k, pdfFault)
    ensures db.certificates == if stored then old(db.certificates) + [cert] else old(db.certificates)
    ensures db.purchases == old(db.purchases) && db.templates == old(db.templates)
    ensures db.users == old(db.users) && db.plans == old(db.plans)
  {
    if pdfFault == Some(k) || !CertificateValid(cert) {
      return false;
    }
    var taken := exists i :: 0 <= i < |db.certificates| && db.certificates[i].certificateId == cert.certificateId;
    if taken {
      return false;
    }
    db.AddCertificate(cert);
    stored := true;
  }

  /** Entry k of the plan is row k's record, and of the page plan row k's page. */
  predicate PlanAt(claims: Claims, t: Template, rows: seq<Row>, paymentId: Option<string>, env: BulkEnv,
                   planned: seq<Certificate>, pagesPlanned: seq<PdfService.Page>, k: nat)
    requires k < |rows| == |planned| == |pagesPlanned|
  {
    && planned[k] == RowCertificate(claims, t, rows[k], paymentId, env, k)
    && pagesPlanned[k] == PdfService.RenderPlan(RowRequest(claims, t, rows[k], env, k))
  }

  /** The plans computed by `Planned` and `PlannedPages` list every row. */
  lemma PlansList(claims: Claims, t: Template, rows: seq<Row>, paymentId: Option<string>, env: BulkEnv)
    ensures |Planned(claims, t, rows, paymentId, env)| == |rows| == |PlannedPages(claims, t, rows, env)|
    ensures forall k :: 0 <= k < |rows| ==>
      PlanAt(claims, t, rows, paymentId, env, Planned(claims, t, rows, paymentId, env), PlannedPages(claims, t, rows, env), k)
  {
  }

  /** Row k's page and record, as the plans list them. */
  method RowStep(claims: Claims, t: Template, rows: seq<Row>, paymentId: Option<string>, env: BulkEnv, k: nat,
                 ghost planned: seq<Certificate>, ghost pagesPlanned: seq<PdfService.Page>)
    returns (page: PdfService.Page, cert: Certificate)
    requires k < |rows| == |planned| == |pagesPlanned|
    requires forall j :: 0 <= j < |rows| ==> PlanAt(claims, t, rows, paymentId, env, planned, pagesPlanned, j)
    ensures page == pagesPlanned[k] && cert == planned[k]
  {
    assert PlanAt(claims, t, rows, paymentId, env, planned, pagesPlanned, k);
    page := PdfService.GenerateCertificatePdf(RowRequest(claims, t, rows[k], env, k));
    cert := RowCertificate(claims, t, rows[k], paymentId, env, k);
  }

  /** A prefix one longer is the prefix and the next entry. */
  lemma PrefixGrows<T>(s: seq<T>, k: nat)
    requires k < |s|
    ensures s[..k + 1] == s[..k] + [s[k]]
  {
  }

  /**
   * The loop over the rows with the chosen template: each row's PDF is
   * rendered and its certificate stored, until a row throws. `planned` and
   * `pagesPlanned` are the plans the loop follows.
   */
  method CommitRows(db: Db, claims: Claims, t: Template, rows: seq<Row>, paymentId: Option<string>,
                    env: BulkEnv, pdfFault: Option<nat>,
                    ghost planned: seq<Certificate>, ghost pagesPlanned: seq<PdfService.Page>)
    returns (reply: CommitReply)
    requires |rows| == |planned| == |pagesPlanned|
    requires forall j :: 0 <= j < |rows| ==> PlanAt(claims, t, rows, paymentId, env, planned, pagesPlanned, j)
    modifies db
    ensures db.purchases == old(db.purchases) && db.templates == old(db.templates)
    ensures db.users == old(db.users) && db.plans == old(db.plans)
    ensures var s := Stop(old(db.certificates), planned, pdfFault);
      && db.certificates == old(db.certificates) + planned[..s]
      && (s == |rows| ==> reply == Committed(|rows|, pagesPlanned))
      && (s < |rows| ==> reply == CommitFailed)
  {
    ghost var before := db.certificates;
    var pages: seq<PdfService.Page> := [];
    var k := 0;
    while k < |rows|
      invariant 0 <= k <= |rows|
      invariant db.purchases == old(db.purchases) && db.templates == old(db.templates)
      invariant db.users == old(db.users) && db.plans == old(db.plans)
      invariant db.certificates == before + planned[..k]
      invariant pages == pagesPlanned[..k]
      invariant Stop(before, planned, pdfFault) == StopFrom(before, planned, pdfFault, k)
    {
      var page, cert := RowStep(claims, t, rows, paymentId, env, k, planned, pagesPlanned);
      var stored := StoreRow(db, cert, k, pdfFault);
      StopStep(before, planned, pdfFault, k);
      if !stored {
        return CommitFailed;
      }
      pages := pages + [page];
      PrefixGrows(planned, k);
      PrefixGrows(pagesPlanned, k);
      k := k + 1;
    }
    assert planned[..k] == planned;
    assert pagesPlanned[..k] == pagesPlanned;
    reply := Committed(|rows|, pages);
  }

  /**
   * `POST /commit` for the caller in `claims`. `pdfFault` names the row whose
   * PDF cannot be written, if any; `template` is the template the route
   * chose. Nothing but the certificates changes; a run that throws keeps the
   * certificates stored before the failing row.
   */
  method Commit(db: Db, claims: Claims, rows: RowsField, templateId: Option<string>, paymentId: Option<string>,
                env: BulkEnv, pdfFault: Option<nat>)
    returns (reply: CommitReply, template: Option<Template>)
    modifies db
    ensures db.purchases == old(db.purchases) && db.templates == old(db.templates)
    ensures db.users == old(db.users) && db.plans == old(db.plans)
    ensures !HasRows(rows) ==>
      reply == CommitRejected(Rejection(400, "No data to process")) && db.certificates == old(db.certificates)
    ensures HasRows(rows) && Named(templateId) ==>
      template == (if templateId.value in db.templates then Some(db.templates[templateId.value]) else None)
    ensures HasRows(rows) && !Named(templateId) ==>
      (template.None? <==> db.templates == map[]) && (template.Some? ==> Latest(db.templates, template.value))
    ensures HasRows(rows) && template.None? ==>
      && reply == CommitRejected(Rejection(400, "No template available. Please contact admin."))
      && db.certificates == old(db.certificates)
    ensures HasRows(rows) && template.Some? ==>
      var planned := Planned(claims, template.value, rows.rows, paymentId, env);
      var s := Stop(old(db.certificates), planned, pdfFault);
      && db.certificates == old(db.certificates) + planned[..s]
      && (s == |planned| ==>
            reply == Committed(|rows.rows|, PlannedPages(claims, template.value, rows.rows, env)))
      && (s < |planned| ==> reply == CommitFailed)
  {
    if !HasRows(rows) {
      return CommitRejected(Rejection(400, "No data to process")), None;
    }
    template := ChooseTemplate(db.templates, templateId);
    if template.None? {
      return CommitRejected(Rejection(400, "No template available. Please contact admin.")), template;
    }
    PlansList(claims, template.value, rows.rows, paymentId, env);
    reply := CommitRows(db, claims, template.value, rows.rows, paymentId, env, pdfFault,
                        Planned(claims, template.value, rows.rows, paymentId, env),
                        PlannedPages(claims, template.value, rows.rows, env));
  }
}

=== FILE: bulk_upload.dfy ===
/**
 * `POST /bulk/upload`: a CSV file is split into lines and comma-separated
 * cells (no quoting), its header row is checked for the required columns,
 * and every data row is classified as valid or invalid.
 */
module BulkUpload {
  import opened Wrappers
  import opened Text
  import opened Seqs
  import opened Records

  // ---------------------------------------------------------------------
  // Lines and cells
  // ---------------------------------------------------------------------

  /** Drops one '\r' at the end of `s`, if there is one. */
  function DropCR(s: string): (r: string)
    ensures r == s || (s != [] && s[|s| - 1] == '\r' && r == s[..|s| - 1])
  {
    if s != [] && s[|s| - 1] == '\r' then s[..|s| - 1] else s
  }

  /**
   * The pieces between '\n's with the '\r' of a "\r\n" taken off: every
   * piece but the last is followed by a '\n' and loses one '\r' at its end.
   */
  function CRLFPieces(pieces: seq<string>): (r: seq<string>)
    requires |pieces| >= 1
    ensures |r| == |pieces| && r[|r| - 1] == pieces[|r| - 1]
    ensures forall k :: 0 <= k < |r| - 1 ==> r[k] == DropCR(pieces[k])
    decreases |pieces|
  {
    if |pieces| == 1 then pieces else [DropCR(pieces[0])] + CRLFPieces(pieces[1..])
  }

  /** `content.split(/\r?\n/)`. */
  function SplitCRLF(content: string): seq<string> {
    CRLFPieces(Split(content, '\n'))
  }

  /** `line.trim() !== ''`. */
  predicate Filled(line: string) {
    Trim(line) != ""
  }

  /** `.filter(line => line.trim() !== '')`. */
  function NonBlank(lines: seq<string>): seq<string> {
    KeepIf(lines, Filled)
  }

  /**
   * The non-blank lines are the lines whose trimmed text is not empty, in
   * file order and each as often as it occurs: the filter of a concatenation
   * is the concatenation of the filters, and counts are kept or zeroed.
   */
  lemma NonBlankKeeps(a: seq<string>, b: seq<string>, l: string)
    ensures NonBlank(a + b) == NonBlank(a) + NonBlank(b)
    ensures l in NonBlank(a) <==> l in a && Trim(l) != ""
    ensures multiset(NonBlank(a))[l] == if Trim(l) != "" then multiset(a)[l] else 0
  {
    KeepIfSplits(a, b, Filled);
    KeepIfCounts(a, Filled, l);
  }

  /** The file's non-blank lines, in order. */
  function Lines(content: string): seq<string> {
    NonBlank(SplitCRLF(content))
  }

  /** `line.split(',').map(c => c.trim())`. */
  function Cells(line: string): seq<string> {
    var parts := Split(line, ',');
    seq(|parts|, k requires 0 <= k < |parts| => Trim(parts[k]))
  }

  /** `lines[0].split(',').map(h => h.trim().toLowerCase())`. */
  function Headers(line: string): seq<string> {
    var parts := Split(line, ',');
    seq(|parts|, k requires 0 <= k < |parts| => Lower(Trim(parts[k])))
  }

  /** A line ended by a '\n' is the first piece, without the '\r' in front of the '\n'. */
  lemma LineBreak(p: string, b: string)
    requires '\n' !in p
    ensures SplitCRLF(p + ['\n'] + b) == [DropCR(p)] + SplitCRLF(b)
  {
    SplitAfterPrefix(p, '\n', b);
    var Q := Split(b, '\n');
    assert ([p] + Q)[1..] == Q;
  }

  /** A Windows line ending is one line break: the '\r' does not stay on the line. */
  lemma CRLFBreaksLine(a: string, b: string)
    requires '\n' !in a
    ensures SplitCRLF(a + "\r\n" + b) == [a] + SplitCRLF(b)
  {
    var a' := a + ['\r'];
    assert a + "\r\n" + b == a' + ['\n'] + b;
    assert '\n' !in a' by {
      assert forall i :: 0 <= i < |a'| ==> a'[i] == (if i < |a| then a[i] else '\r');
    }
    LineBreak(a', b);
    assert DropCR(a') == a;
  }

  // ---------------------------------------------------------------------
  // Columns
  // ---------------------------------------------------------------------

  const Required: seq<string> := ["name", "course", "issuedate", "email"]

  /** `required.filter(r => !headers.includes(r))`, in the order of `req`. */
  function MissingOf(req: seq<string>, headers: seq<string>): (r: seq<string>)
    ensures forall c :: c in r <==> c in req && c !in headers
  {
    if req == [] then []
    else IfAbsent(req[0], headers) + MissingOf(req[1..], headers)
  }

  function Missing(headers: seq<string>): seq<string> {
    MissingOf(Required, headers)
  }

  /** A required column absent from the header row, as a one-element list, or nothing. */
  function IfAbsent(c: string, headers: seq<string>): seq<string> {
    if c !in headers then [c] else []
  }

  /** The missing columns of a four-column requirement, in its order. */
  lemma MissingOfFour(a: string, b: string, c: string, d: string, h: seq<string>)
    ensures MissingOf([a, b, c, d], h) == IfAbsent(a, h) + (IfAbsent(b, h) + (IfAbsent(c, h) + IfAbsent(d, h)))
  {
    var r := [a, b, c, d];
    assert r[3..][1..] == r[4..] == [];
    assert MissingOf(r[3..], h) == IfAbsent(d, h);
    assert r[2..][1..] == r[3..];
    assert MissingOf(r[2..], h) == IfAbsent(c, h) + IfAbsent(d, h);
    assert r[1..][1..] == r[2..];
    assert MissingOf(r[1..], h) == IfAbsent(b, h) + (IfAbsent(c, h) + IfAbsent(d, h));
  }

  /** The missing columns are listed in the required order: name, course, issuedate, email. */
  lemma MissingListing(h: seq<string>)
    ensures Missing(h) == IfAbsent("name", h) + (IfAbsent("course", h) + (IfAbsent("issuedate", h) + IfAbsent("email", h)))
  {
    MissingOfFour("name", "course", "issuedate", "email", h);
  }

  /**
   * Nothing is missing exactly when all four required columns are headers,
   * and the missing columns are listed in the required order.
   */
  lemma MissingOrder(headers: seq<string>)
    ensures Missing(headers) == []  <==> "name" in headers && "course" in headers && "issuedate" in headers && "email" in headers
    ensures Missing(headers) == IfAbsent("name", headers) + (IfAbsent("course", headers)
                                + (IfAbsent("issuedate", headers) + IfAbsent("email", headers)))
  {
    MissingListing(headers);
  }

  /** `missing.join(', ')`. */
  function JoinComma(parts: seq<string>): string {
    if parts == [] then ""
    else if |parts| == 1 then parts[0]
    else parts[0] + ", " + JoinComma(parts[1..])
  }

  // ---------------------------------------------------------------------
  // One row
  // ---------------------------------------------------------------------

  /** Both spellings of the title column are stored under "title". */
  function Key(header: string): (k: string)
    ensures header == "certificate_title" || header == "certificatetitle" ==> k == "title"
    ensures header != "certificate_title" && header != "certificatetitle" ==> k == header
  {
    if header == "certificate_title" || header == "certificatetitle" then "title" else header
  }

  /** `cells[index] || ''`: a row shorter than the header reads "" in the missing cells. */
  function Cell(cells: seq<string>, index: nat): string {
    if index < |cells| then cells[index] else ""
  }

  /** The row object after `headers.forEach` has visited the first `n` headers. */
  function RowDataUpTo(headers: seq<string>, cells: seq<string>, n: nat): map<string, string>
    requires n <= |headers|
  {
    if n == 0 then map[]
    else RowDataUpTo(headers, cells, n - 1)[Key(headers[n - 1]) := Cell(cells, n - 1)]
  }

  function RowData(headers: seq<string>, cells: seq<string>): map<string, string> {
    RowDataUpTo(headers, cells, |headers|)
  }

  /** The row object has one key per distinct (title-normalised) header. */
  lemma {:induction false} RowDataKeys(headers: seq<string>, cells: seq<string>, n: nat)
    requires n <= |headers|
    ensures RowDataUpTo(headers, cells, n).Keys == set j | 0 <= j < n :: Key(headers[j])
    decreases n
  {
    if n > 0 {
      RowDataKeys(headers, cells, n - 1);
    }
  }

  /** A column's value is the cell under the last header that maps to its key. */
  lemma {:induction false} LastHeaderWins(headers: seq<string>, cells: seq<string>, n: nat, j: nat)
    requires j < n <= |headers|
    requires forall j' :: j < j' < n ==> Key(headers[j']) != Key(headers[j])
    ensures Key(headers[j]) in RowDataUpTo(headers, cells, n)
    ensures RowDataUpTo(headers, cells, n)[Key(headers[j])] == Cell(cells, j)
    decreases n
  {
    if j < n - 1 {
      LastHeaderWins(headers, cells, n - 1, j);
    }
  }

  /** `rowData[key]`, where an absent key reads as `undefined`, which is falsy like "". */
  function Get(data: map<string, string>, key: string): string {
    if key in data then data[key] else ""
  }

  /** The errors a row can have, reported under `errors` by their messages. */
  datatype RowError = MissingName | MissingCourse | MissingDate

  /** The message the reply carries for each error. */
  function Message(e: RowError): string {
    match e
    case MissingName => "Missing Name"
    case MissingCourse => "Missing Course"
    case MissingDate => "Missing Date"
  }

  /** The fields a row is checked for, in the order they are checked, with the error an empty one gives. */
  const RowChecks: seq<(string, RowError)> := [("name", MissingName), ("course", MissingCourse), ("issuedate", MissingDate)]

  /** The errors of the checks `checks`, in order. */
  function ErrorsFor(data: map<string, string>, checks: seq<(string, RowError)>): (e: seq<RowError>)
    ensures |e| <= |checks|
  {
    if checks == [] then []
    else (if Get(data, checks[0].0) == "" then [checks[0].1] else []) + ErrorsFor(data, checks[1..])
  }

  /** The row's errors. */
  function Errors(data: map<string, string>): seq<RowError> {
    ErrorsFor(data, RowChecks)
  }

  /** A row is valid when it has no errors. */
  predicate RowValid(data: map<string, string>) {
    Errors(data) == []
  }

  /**
   * One error per empty required field, in the order Name, Course, Date;
   * an empty email is no error. So a row is valid exactly when its name,
   * course and date are all non-empty.
   */
  lemma ErrorsListed(data: map<string, string>)
    ensures |Errors(data)| <= 3
    ensures (MissingName in Errors(data) <==> Get(data, "name") == "")
      && (MissingCourse in Errors(data) <==> Get(data, "course") == "")
      && (MissingDate in Errors(data) <==> Get(data, "issuedate") == "")
    ensures Get(data, "name") == "" ==> Errors(data)[0] == MissingName
    ensures Get(data, "name") != "" && Get(data, "course") == "" ==> Errors(data)[0] == MissingCourse
    ensures RowValid(data) <==> Get(data, "name") != "" && Get(data, "course") != "" && Get(data, "issuedate") != ""
  {
    var c := RowChecks;
    assert c[1..][1..][1..] == [];
    var e3 := ErrorsFor(data, c[1..][1..]);
    assert e3 == (if Get(data, "issuedate") == "" then [MissingDate] else []);
    var e2 := ErrorsFor(data, c[1..]);
    assert e2 == (if Get(data, "course") == "" then [MissingCourse] else []) + e3;
    assert Errors(data) == (if Get(data, "name") == "" then [MissingName] else []) + e2;
  }

  // ---------------------------------------------------------------------
  // The whole file
  // ---------------------------------------------------------------------

  /**
   * `{ ...rowData, id: i }`: the row object `data` with its "id" key set to
   * the line index `id`, so a column named "id" does not survive.
   */
  datatype ValidRow = ValidRow(data: map<string, string>, id: nat)

  /** The text-valued keys of a valid row as sent back: every column but "id". */
  function Columns(v: ValidRow): (c: map<string, string>)
    ensures "id" !in c && forall k :: k in c <==> k in v.data && k != "id"
  {
    v.data - {"id"}
  }

  /** `{ row: i + 1, data: rowData, errors }`. */
  datatype InvalidRow = InvalidRow(row: nat, data: map<string, string>, errors: seq<RowError>)

  datatype UploadReply =
    | UploadRejected(rejection: Rejection)
    | Parsed(totalParsed: nat, validCount: nat, invalidCount: nat,
             validRows: seq<ValidRow>, invalidRows: seq<InvalidRow>, preview: seq<ValidRow>)

  /** The row object of every line, the header line included. */
  function FileData(headers: seq<string>, lines: seq<string>): (data: seq<map<string, string>>)
    ensures |data| == |lines|
  {
    seq(|lines|, i requires 0 <= i < |lines| => RowData(headers, Cells(lines[i])))
  }

  /** The valid rows among lines 1 .. n-1, in line order. */
  function ValidRowsOf(data: seq<map<string, string>>, n: nat): seq<ValidRow>
    requires n <= |data|
  {
    if n <= 1 then []
    else
      var d := data[n - 1];
      ValidRowsOf(data, n - 1) + (if RowValid(d) then [ValidRow(d, n - 1)] else [])
  }

  /** The invalid rows among lines 1 .. n-1, in line order, numbered from 2 as the file's rows are. */
  function InvalidRowsOf(data: seq<map<string, string>>, n: nat): seq<InvalidRow>
    requires n <= |data|
  {
    if n <= 1 then []
    else
      var d := data[n - 1];
      InvalidRowsOf(data, n - 1) + (if RowValid(d) then [] else [InvalidRow(n, d, Errors(d))])
  }

  /** Every data line is classified exactly once: the two lists together have one entry per line. */
  lemma {:induction false} PartitionCount(data: seq<map<string, string>>, n: nat)
    requires 1 <= n <= |data|
    ensures |ValidRowsOf(data, n)| + |InvalidRowsOf(data, n)| == n - 1
    decreases n
  {
    if n > 1 {
      PartitionCount(data, n - 1);
    }
  }

  /** The j-th valid row carries a data line's index and that line's row object. */
  lemma {:induction false} ValidRowAt(data: seq<map<string, string>>, n: nat, j: nat)
    requires n <= |data| && j < |ValidRowsOf(data, n)|
    ensures 1 <= ValidRowsOf(data, n)[j].id < n
    ensures ValidRowsOf(data, n)[j].data == data[ValidRowsOf(data, n)[j].id]
    decreases n
  {
    if j < |ValidRowsOf(data, n - 1)| {
      ValidRowAt(data, n - 1, j);
    }
  }

  /** The j-th valid row passed the checks. */
  lemma {:induction false} ValidRowChecked(data: seq<map<string, string>>, n: nat, j: nat)
    requires n <= |data| && j < |ValidRowsOf(data, n)|
    ensures RowValid(ValidRowsOf(data, n)[j].data)
    decreases n
  {
    if j < |ValidRowsOf(data, n - 1)| {
      ValidRowChecked(data, n - 1, j);
    }
  }

  /** A row found on line n - 1 comes after every row found before it. */
  lemma ValidRowsLast(data: seq<map<string, string>>, n: nat, j: nat)
    requires 1 <= n <= |data| && j < |ValidRowsOf(data, n - 1)| < |ValidRowsOf(data, n)|
    ensures ValidRowsOf(data, n)[j].id < ValidRowsOf(data, n)[|ValidRowsOf(data, n)| - 1].id
  {
    var W := ValidRowsOf(data, n - 1);
    var V := ValidRowsOf(data, n);
    assert V == W + [ValidRow(data[n - 1], n - 1)];
    assert V[j] == W[j];
    ValidRowAt(data, n - 1, j);
  }


  /** Valid rows come in line order. */
  lemma {:induction false} ValidRowsOrdered(data: seq<map<string, string>>, n: nat, j: nat, k: nat)
    requires n <= |data| && j < k < |ValidRowsOf(data, n)|
    ensures ValidRowsOf(data, n)[j].id < ValidRowsOf(data, n)[k].id
    decreases n
  {
    if k < |ValidRowsOf(data, n - 1)| {
      ValidRowsOrdered(data, n - 1, j, k);
    } else {
      ValidRowsLast(data, n, j);
    }
  }


  /** Valid rows carry their line index and that line's data, and come in line order. */
  lemma ValidRowsFacts(data: seq<map<string, string>>, n: nat)
    requires n <= |data|
    ensures forall j :: 0 <= j < |ValidRowsOf(data, n)| ==>
      && 1 <= ValidRowsOf(data, n)[j].id < n
      && RowValid(data[ValidRowsOf(data, n)[j].id])
      && ValidRowsOf(data, n)[j].data == data[ValidRowsOf(data, n)[j].id]
    ensures forall j, k :: 0 <= j < k < |ValidRowsOf(data, n)| ==>
      ValidRowsOf(data, n)[j].id < ValidRowsOf(data, n)[k].id
  {
    forall j | 0 <= j < |ValidRowsOf(data, n)|
      ensures 1 <= ValidRowsOf(data, n)[j].id < n
      ensures RowValid(data[ValidRowsOf(data, n)[j].id])
      ensures ValidRowsOf(data, n)[j].data == data[ValidRowsOf(data, n)[j].id]
    {
      ValidRowAt(data, n, j);
      ValidRowChecked(data, n, j);
    }
    forall j, k | 0 <= j < k < |ValidRowsOf(data, n)|
      ensures ValidRowsOf(data, n)[j].id < ValidRowsOf(data, n)[k].id
    {
      ValidRowsOrdered(data, n, j, k);
    }
  }

  /** The j-th invalid row carries a line index plus one and that line's data. */
  lemma {:induction false} InvalidRowAt(data: seq<map<string, string>>, n: nat, j: nat)
    requires n <= |data| && j < |InvalidRowsOf(data, n)|
    ensures 2 <= InvalidRowsOf(data, n)[j].row <= n
    ensures InvalidRowsOf(data, n)[j].data == data[InvalidRowsOf(data, n)[j].row - 1]
    decreases n
  {
    if j < |InvalidRowsOf(data, n - 1)| {
      InvalidRowAt(data, n - 1, j);
    }
  }

  /** A row found on line n - 1 comes after every row found before it. */
  lemma InvalidRowsLast(data: seq<map<string, string>>, n: nat, j: nat)
    requires 1 <= n <= |data| && j < |InvalidRowsOf(data, n - 1)| < |InvalidRowsOf(data, n)|
    ensures InvalidRowsOf(data, n)[j].row < InvalidRowsOf(data, n)[|InvalidRowsOf(data, n)| - 1].row
  {
    InvalidRowAt(data, n - 1, j);
  }

  /** Invalid rows come in line order. */
  lemma {:induction false} InvalidRowsOrdered(data: seq<map<string, string>>, n: nat, j: nat, k: nat)
    requires n <= |data| && j < k < |InvalidRowsOf(data, n)|
    ensures InvalidRowsOf(data, n)[j].row < InvalidRowsOf(data, n)[k].row
    decreases n
  {
    if k < |InvalidRowsOf(data, n - 1)| {
      InvalidRowsOrdered(data, n - 1, j, k);
    } else {
      InvalidRowsLast(data, n, j);
    }
  }


  /** Invalid rows carry the line index plus one and that line's data, and come in line order. */
  lemma InvalidRowsFacts(data: seq<map<string, string>>, n: nat)
    requires n <= |data|
    ensures forall j :: 0 <= j < |InvalidRowsOf(data, n)| ==>
      && 2 <= InvalidRowsOf(data, n)[j].row <= n
      && InvalidRowsOf(data, n)[j].data == data[InvalidRowsOf(data, n)[j].row - 1]
    ensures forall j, k :: 0 <= j < k < |InvalidRowsOf(data, n)| ==>
      InvalidRowsOf(data, n)[j].row < InvalidRowsOf(data, n)[k].row
  {
    forall j | 0 <= j < |InvalidRowsOf(data, n)|
      ensures 2 <= InvalidRowsOf(data, n)[j].row <= n
      ensures InvalidRowsOf(data, n)[j].data == data[InvalidRowsOf(data, n)[j].row - 1]
    {
      InvalidRowAt(data, n, j);
    }
    forall j, k | 0 <= j < k < |InvalidRowsOf(data, n)|
      ensures InvalidRowsOf(data, n)[j].row < InvalidRowsOf(data, n)[k].row
    {
      InvalidRowsOrdered(data, n, j, k);
    }
  }

  /** Every invalid row is one the check refuses, and it lists that row's own errors. */
  lemma {:induction false} InvalidRowsErrors(data: seq<map<string, string>>, n: nat)
    requires n <= |data|
    ensures forall j :: 0 <= j < |InvalidRowsOf(data, n)| ==>
      && !RowValid(InvalidRowsOf(data, n)[j].data)
      && InvalidRowsOf(data, n)[j].errors == Errors(InvalidRowsOf(data, n)[j].data)
    decreases n
  {
    if n > 1 {
      InvalidRowsErrors(data, n - 1);
      var W := InvalidRowsOf(data, n - 1);
      var d := data[n - 1];
      if !RowValid(d) {
        var I := W + [InvalidRow(n, d, Errors(d))];
        assert InvalidRowsOf(data, n) == I;
        forall j | 0 <= j < |I|
          ensures !RowValid(I[j].data) && I[j].errors == Errors(I[j].data)
        {
          if j < |W| { assert I[j] == W[j]; }
        }
      } else {
        assert InvalidRowsOf(data, n) == W;
      }
    }
  }

  /** One more line goes to exactly one of the two lists. */
  lemma RowsStep(data: seq<map<string, string>>, n: nat)
    requires 2 <= n <= |data|
    ensures RowValid(data[n - 1]) ==>
      && ValidRowsOf(data, n) == ValidRowsOf(data, n - 1) + [ValidRow(data[n - 1], n - 1)]
      && InvalidRowsOf(data, n) == InvalidRowsOf(data, n - 1)
    ensures !RowValid(data[n - 1]) ==>
      && ValidRowsOf(data, n) == ValidRowsOf(data, n - 1)
      && InvalidRowsOf(data, n) == InvalidRowsOf(data, n - 1) + [InvalidRow(n, data[n - 1], Errors(data[n - 1]))]
  {
  }

  /** `validRows.slice(0, 5)`. */
  function Preview(rows: seq<ValidRow>): (r: seq<ValidRow>)
    ensures |r| == if |rows| < 5 then |rows| else 5
    ensures forall j :: 0 <= j < |r| ==> r[j] == rows[j]
  {
    if |rows| < 5 then rows else rows[..5]
  }

  /** `headers.forEach(...)`: the row object built one header at a time. */
  method BuildRow(headers: seq<string>, cells: seq<string>) returns (data: map<string, string>)
    ensures data == RowData(headers, cells)
  {
    data := map[];
    var index := 0;
    while index < |headers|
      invariant 0 <= index <= |headers|
      invariant data == RowDataUpTo(headers, cells, index)
    {
      var h := headers[index];
      var value := if index < |cells| then cells[index] else "";
      if h == "certificate_title" || h == "certificatetitle" {
        data := data["title" := value];
      } else {
        data := data[h := value];
      }
      index := index + 1;
    }
  }

  /** Line `k`'s row object is `data[k]`. */
  predicate RowAt(headers: seq<string>, lines: seq<string>, data: seq<map<string, string>>, k: nat)
    requires k < |lines| == |data|
  {
    data[k] == RowData(headers, Cells(lines[k]))
  }

  lemma FileDataRows(headers: seq<string>, lines: seq<string>)
    ensures |FileData(headers, lines)| == |lines|
    ensures forall k :: 0 <= k < |lines| ==> RowAt(headers, lines, FileData(headers, lines), k)
  {
  }

  /** The row object of line `i`, built from its cells. */
  method RowOfLine(headers: seq<string>, lines: seq<string>, ghost data: seq<map<string, string>>, i: nat)
    returns (rowData: map<string, string>)
    requires i < |lines| == |data|
    requires forall k :: 0 <= k < |lines| ==> RowAt(headers, lines, data, k)
    ensures rowData == data[i]
  {
    var cells := Cells(lines[i]);
    rowData := BuildRow(headers, cells);
    assert RowAt(headers, lines, data, i);
  }

  /** The `for` loop over the data lines: each line's row object goes to one of the two lists. */
  method ClassifyRows(headers: seq<string>, lines: seq<string>, ghost data: seq<map<string, string>>)
    returns (validRows: seq<ValidRow>, invalidRows: seq<InvalidRow>)
    requires |lines| >= 1 && |data| == |lines|
    requires forall k :: 0 <= k < |lines| ==> RowAt(headers, lines, data, k)
    ensures validRows == ValidRowsOf(data, |lines|)
    ensures invalidRows == InvalidRowsOf(data, |lines|)
  {
    validRows := [];
    invalidRows := [];
    var i := 1;
    while i < |lines|
      invariant 1 <= i <= |lines|
      invariant validRows == ValidRowsOf(data, i)
      invariant invalidRows == InvalidRowsOf(data, i)
    {
      var rowData := RowOfLine(headers, lines, data, i);
      var errors := Errors(rowData);
      RowsStep(data, i + 1);
      if errors == [] {
        validRows := validRows + [ValidRow(rowData, i)];
      } else {
        invalidRows := invalidRows + [InvalidRow(i + 1, rowData, errors)];
      }
      i := i + 1;
    }
  }

  /**
   * `POST /upload`. `file` is the uploaded file's text, None when no file
   * was sent.
   */
  method Upload(file: Option<string>) returns (reply: UploadReply)
    ensures file.None? ==> reply == UploadRejected(Rejection(400, "No file uploaded"))
    ensures file.Some? && |Lines(file.value)| < 2 ==>
      reply == UploadRejected(Rejection(400, "CSV file is empty or missing headers"))
    ensures file.Some? && |Lines(file.value)| >= 2 ==>
      var lines := Lines(file.value);
      var headers := Headers(lines[0]);
      var data := FileData(headers, lines);
      if Missing(headers) != [] then
        reply == UploadRejected(Rejection(400, "Missing columns: " + JoinComma(Missing(headers))))
      else
        && reply.Parsed?
        && reply.validRows == ValidRowsOf(data, |lines|)
        && reply.invalidRows == InvalidRowsOf(data, |lines|)
        && reply.totalParsed == |lines| - 1 == reply.validCount + reply.invalidCount
        && reply.validCount == |reply.validRows| && reply.invalidCount == |reply.invalidRows|
        && reply.preview == Preview(reply.validRows)
  {
    if file.None? {
      return UploadRejected(Rejection(400, "No file uploaded"));
    }
    var lines := Lines(file.value);
    if |lines| < 2 {
      return UploadRejected(Rejection(400, "CSV file is empty or missing headers"));
    }
    var headers := Headers(lines[0]);
    var missing := Missing(headers);
    if missing != [] {
      return UploadRejected(Rejection(400, "Missing columns: " + JoinComma(missing)));
    }
    FileDataRows(headers, lines);
    var validRows, invalidRows := ClassifyRows(headers, lines, FileData(headers, lines));
    PartitionCount(FileData(headers, lines), |lines|);
    reply := Parsed(|lines| - 1, |validRows|, |invalidRows|, validRows, invalidRows, Preview(validRows));
  }
}

=== FILE: certificates.dfy ===
/**
 * The certificate routes: `generate-by-purchase`, which turns one paid and
 * unused purchase into one rendered certificate and marks the purchase used,
 * and `verify`, the public projection of a stored certificate.
 */
module Certificates {
  import opened Wrappers
  import opened Text
  import opened Radix
  import opened Records
  import opened Store
  import PdfService

  // ---------------------------------------------------------------------
  // The gate
  // ---------------------------------------------------------------------

  /**
   * The checks `generate-by-purchase` makes before any work, in order: a
   * purchase id, a stored purchase, a successful payment, not yet used, and
   * a stored template. None means every check passed.
   */
  function Gate(purchases: map<string, Purchase>, templates: map<string, Template>, purchaseId: string): Option<Rejection> {
    if purchaseId == "" then Some(Rejection(400, "purchaseId required"))
    else if purchaseId !in purchases then Some(Rejection(404, "Purchase not found"))
    else if purchases[purchaseId].status != Success then Some(Rejection(400, "Payment not completed"))
    else if purchases[purchaseId].used then Some(Rejection(400, "Purchase already used"))
    else if purchases[purchaseId].templateId.None? || purchases[purchaseId].templateId.value !in templates
    then Some(Rejection(404, "Template not found"))
    else None
  }

  /** A purchase passes the gate exactly when it is stored, paid, unused and its template exists. */
  lemma GatePassesIff(purchases: map<string, Purchase>, templates: map<string, Template>, id: string)
    ensures Gate(purchases, templates, id).None? <==>
      && id != "" && id in purchases && purchases[id].status == Success && !purchases[id].used
      && purchases[id].templateId.Some? && purchases[id].templateId.value in templates
  {
  }

  /** The payment check comes first: an unpaid purchase is reported as unpaid whether or not it is used. */
  lemma StatusCheckedBeforeUsed(purchases: map<string, Purchase>, templates: map<string, Template>, id: string)
    requires id != "" && id in purchases && purchases[id].status != Success
    ensures Gate(purchases, templates, id) == Some(Rejection(400, "Payment not completed"))
  {
  }

  /** Once a purchase is marked used, asking again is rejected as already used. */
  lemma RepeatRejected(purchases: map<string, Purchase>, templates: map<string, Template>, id: string)
    requires Gate(purchases, templates, id).None?
    ensures Gate(purchases[id := purchases[id].(used := true)], templates, id)
         == Some(Rejection(400, "Purchase already used"))
  {
  }

  // ---------------------------------------------------------------------
  // Student data and the PDF data object
  // ---------------------------------------------------------------------

  /**
   * `purchase.metadata || {}`, with a string metadata replaced by what
   * `JSON.parse` makes of it; None when that is `null`. A string that does
   * not parse stays a string, and it and every other non-object value have
   * none of the named fields, so they read as an empty object.
   */
  function BaseData(m: Metadata, parseJson: string -> Parsed): (b: Option<Bag>)
    ensures b.None? <==> m.StringMeta? && m.text != "" && parseJson(m.text).ParsedNull?
    ensures m.ObjectMeta? ==> b == Some(m.bag)
    ensures m.StringMeta? && m.text != "" && parseJson(m.text).ParsedObject? ==> b == Some(parseJson(m.text).bag)
  {
    match m
    case NoMetadata => Some(map[])
    case ObjectMeta(b) => Some(b)
    case StringMeta(t) =>
      if t == "" then Some(map[])
      else match parseJson(t)
        case ParsedObject(b) => Some(b)
        case ParsedNull => None
        case _ => Some(map[])
  }

  /**
   * `{ ...studentData, ...studentDataOverride }` when an override object is
   * given (spreading `null` adds nothing); otherwise the base data, which is
   * None when it is `null`.
   */
  function StudentData(m: Metadata, parseJson: string -> Parsed, override: Option<Bag>): (r: Option<Bag>)
    ensures r.None? <==> override.None? && BaseData(m, parseJson).None?
    ensures r.Some? && override.Some? ==> forall k :: k in override.value ==> k in r.value && r.value[k] == override.value[k]
    ensures r.Some? ==> forall k :: k in r.value && (override.None? || k !in override.value) ==>
              BaseData(m, parseJson).Some? && k in BaseData(m, parseJson).value
              && r.value[k] == BaseData(m, parseJson).value[k]
    ensures BaseData(m, parseJson).Some? ==> forall k :: k in BaseData(m, parseJson).value ==> k in r.value
  {
    var base := BaseData(m, parseJson);
    if override.Some? then Some((if base.Some? then base.value else map[]) + override.value) else base
  }

  /**
   * `(data.certificateTitle || …).toUpperCase()` throws when the title is a
   * truthy value that is not a string.
   */
  predicate TitleThrows(sd: Bag) {
    "certificateTitle" in sd && Truthy(sd["certificateTitle"]) && !sd["certificateTitle"].JStr?
  }

  /** The "pdfData" object: every text falls back to a fixed default, the date to today's ISO date. */
  function PdfData(sd: Bag, orgUser: Option<User>, todayIso: string): PdfService.CertData {
    PdfService.CertData(
      TextOr(sd, "certificateTitle", ""),
      if orgUser.Some? then orgUser.value.organizationName else "Organization",
      None,
      TextOr(sd, "recipientName", "Student Name"),
      "",
      TextOr(sd, "courseName", "Course Name"),
      TextOr(sd, "description", ""),
      TextOr(sd, "date", todayIso),
      if orgUser.Some? then orgUser.value.signatureUrl else "")
  }

  /** The stored name and course can never be empty, whatever the student data holds. */
  lemma PdfDataNamesPresent(sd: Bag, orgUser: Option<User>, todayIso: string)
    ensures PdfData(sd, orgUser, todayIso).recipientName != ""
    ensures PdfData(sd, orgUser, todayIso).courseName != ""
    ensures "recipientName" !in sd || !sd["recipientName"].JStr? || sd["recipientName"].s == "" ==>
              PdfData(sd, orgUser, todayIso).recipientName == "Student Name"
    ensures todayIso != "" ==> PdfData(sd, orgUser, todayIso).issueDate != ""
  {
  }

  // ---------------------------------------------------------------------
  // Identifiers and URLs
  // ---------------------------------------------------------------------

  /** `'CERT-' + Date.now().toString(36)`. */
  function CertId(now: nat): (id: string)
    ensures |id| > 5 && id[..5] == "CERT-" && Canonical(id[5..], 36)
  {
    var digits := ToBase36(now);
    assert ("CERT-" + digits)[5..] == digits;
    "CERT-" + digits
  }

  /** The clock value can be read back from the id, so two ids are equal only for equal clock values. */
  lemma CertIdRoundTrip(now: nat)
    ensures FromRadix(CertId(now)[5..], 36) == now
  {
    assert CertId(now)[5..] == ToBase36(now);
  }

  lemma CertIdInjective(m: nat, n: nat)
    requires CertId(m) == CertId(n)
    ensures m == n
  {
    CertIdRoundTrip(m);
    CertIdRoundTrip(n);
  }

  /** `${FRONTEND_URL}/verify/${certId}`: the URL the QR code encodes. */
  function QrUrl(frontendUrl: string, certId: string): string {
    frontendUrl + "/verify/" + certId
  }

  /** The stored file location `<storage>/certificates/<certId>.pdf`. */
  function PdfUrl(storagePath: string, certId: string): string {
    StorageRoot(storagePath) + "/certificates/" + certId + ".pdf"
  }

  // ---------------------------------------------------------------------
  // The route
  // ---------------------------------------------------------------------

  /**
   * The configuration and the foreign calls of one request: FRONTEND_URL,
   * FILE_STORAGE_PATH ("" when unset), `Date.now()`, today's ISO date,
   * `JSON.parse` (None when it throws) and the renderer's environment.
   */
  datatype GenEnv = GenEnv(
    frontendUrl: string,
    storagePath: string,
    now: nat,
    todayIso: string,
    parseJson: string -> Parsed,
    render: PdfService.RenderEnv)

  /** "" stands for a missing `purchaseId`; None for an override that is absent or not an object. */
  datatype GenRequest = GenRequest(purchaseId: string, studentDataOverride: Option<Bag>)

  /** Where the route throws: writing the PDF, `Certificate.create`, or `purchase.save()`; or nowhere. */
  datatype Fault = NoFault | PdfFails | CreateFails | SaveFails

  datatype GenReply =
    | Rejected(rejection: Rejection)
    | Generated(cert: Certificate, page: PdfService.Page)
    | ServerError

  function RenderRequest(t: Template, data: PdfService.CertData, env: GenEnv): PdfService.Request {
    var id := CertId(env.now);
    PdfService.Request(
      PdfService.BackgroundRef(t.bgImageUrl), data, env.render, id, QrUrl(env.frontendUrl, id))
  }

  /** The certificate record `Certificate.create` stores for a purchase. */
  function Issued(p: Purchase, data: PdfService.CertData, env: GenEnv): Certificate {
    var id := CertId(env.now);
    Certificate(
      id, Some(p.userId), p.templateId, PdfUrl(env.storagePath, id), QrUrl(env.frontendUrl, id),
      p.paymentId, env.now, data.recipientName, data.courseName, data.issueDate)
  }

  /** The data object for purchase `p` and its student data, with the organisation read from `users`. */
  function DataFor(p: Purchase, users: map<string, User>, sd: Bag, env: GenEnv): PdfService.CertData {
    PdfData(sd, if p.userId in users then Some(users[p.userId]) else None, env.todayIso)
  }

  /** An issued certificate passes the schema's required-field validation. */
  lemma IssuedValid(p: Purchase, sd: Bag, orgUser: Option<User>, env: GenEnv)
    ensures CertificateValid(Issued(p, PdfData(sd, orgUser, env.todayIso), env))
  {
    PdfDataNamesPresent(sd, orgUser, env.todayIso);
  }

  predicate IdTaken(certs: seq<Certificate>, id: string) {
    exists i :: 0 <= i < |certs| && certs[i].certificateId == id
  }

  /**
   * `POST /generate-by-purchase`. Rejections and failures before the
   * certificate is stored change nothing: among them student data that is
   * `null` (reading its fields throws) and a title that is not a string (the
   * renderer throws upper-casing it). A failure of the final save leaves
   * the certificate stored and the purchase unused; success stores one
   * certificate and sets `used`, and nothing else.
   */
  method GenerateByPurchase(db: Db, req: GenRequest, env: GenEnv, fault: Fault) returns (reply: GenReply)
    modifies db
    ensures db.templates == old(db.templates) && db.users == old(db.users) && db.plans == old(db.plans)
    ensures Gate(old(db.purchases), old(db.templates), req.purchaseId).Some? ==>
      && reply == Rejected(Gate(old(db.purchases), old(db.templates), req.purchaseId).value)
      && db.purchases == old(db.purchases) && db.certificates == old(db.certificates)
    ensures Gate(old(db.purchases), old(db.templates), req.purchaseId).None? ==>
      var p := old(db.purchases)[req.purchaseId];
      var sd := StudentData(p.metadata, env.parseJson, req.studentDataOverride);
      if sd.None? || TitleThrows(sd.value) then
        reply == ServerError && db.purchases == old(db.purchases) && db.certificates == old(db.certificates)
      else
      var cert := Issued(p, DataFor(p, old(db.users), sd.value, env), env);
      if fault == PdfFails || fault == CreateFails || IdTaken(old(db.certificates), cert.certificateId) then
        reply == ServerError && db.purchases == old(db.purchases) && db.certificates == old(db.certificates)
      else if fault == SaveFails then
        reply == ServerError && db.purchases == old(db.purchases) && db.certificates == old(db.certificates) + [cert]
      else
        && reply.Generated? && reply.cert == cert
        && reply.page == PdfService.RenderPlan(
             RenderRequest(old(db.templates)[p.templateId.value], DataFor(p, old(db.users), sd.value, env), env))
        && db.purchases == old(db.purchases)[req.purchaseId := p.(used := true)]
        && db.certificates == old(db.certificates) + [cert]
  {
    var rejection := Gate(db.purchases, db.templates, req.purchaseId);
    if rejection.Some? {
      return Rejected(rejection.value);
    }
    var purchase := db.purchases[req.purchaseId];
    var template := db.templates[purchase.templateId.value];

    var studentData := StudentData(purchase.metadata, env.parseJson, req.studentDataOverride);
    if studentData.None? {
      return ServerError;
    }
    var orgUser := if purchase.userId in db.users then Some(db.users[purchase.userId]) else None;
    var pdfData := PdfData(studentData.value, orgUser, env.todayIso);
    if TitleThrows(studentData.value) {
      return ServerError;
    }

    var certId := CertId(env.now);
    var qrUrl := QrUrl(env.frontendUrl, certId);
    var page := PdfService.GenerateCertificatePdf(RenderRequest(template, pdfData, env));
    if fault == PdfFails {
      return ServerError;
    }

    var cert := Certificate(
      certId, Some(purchase.userId), purchase.templateId, PdfUrl(env.storagePath, certId), qrUrl,
      purchase.paymentId, env.now, pdfData.recipientName, pdfData.courseName, pdfData.issueDate);
    if fault == CreateFails || IdTaken(db.certificates, certId) {
      return ServerError;
    }
    db.AddCertificate(cert);

    if fault == SaveFails {
      return ServerError;
    }
    db.SavePurchase(req.purchaseId, purchase.(used := true));
    reply := Generated(cert, page);
  }

  // ---------------------------------------------------------------------
  // Verification
  // ---------------------------------------------------------------------

  /** The populated `userId`: the issuing organisation's public fields. */
  datatype OrgPublic = OrgPublic(organizationName: string, issuerCode: string, verified: bool)

  /** `cert.issueDate || cert.generatedAt`. */
  datatype IssueDateField = IssueDateText(text: string) | GeneratedAtTime(time: int)

  datatype PublicCert = PublicCert(
    certificateId: string, studentName: string, courseName: string,
    issueDate: IssueDateField, organization: Option<OrgPublic>)

  /** 404 `{ valid: false }`, or `{ valid: true, cert }`. */
  datatype VerifyReply = NotFound | Valid(cert: PublicCert)

  /** `Certificate.findOne({ certificateId })`: the first stored certificate with that id. */
  function FindCertificate(certs: seq<Certificate>, id: string): (i: Option<nat>)
    ensures i.Some? ==> i.value < |certs| && certs[i.value].certificateId == id
                        && forall j :: 0 <= j < i.value ==> certs[j].certificateId != id
    ensures i.None? ==> forall j :: 0 <= j < |certs| ==> certs[j].certificateId != id
  {
    if certs == [] then None
    else if certs[0].certificateId == id then Some(0)
    else
      var rest := FindCertificate(certs[1..], id);
      if rest.Some? then Some(rest.value + 1) else None
  }

  function Publish(c: Certificate, users: map<string, User>): PublicCert {
    var org := if c.userId.Some? && c.userId.value in users
      then Some(OrgPublic(users[c.userId.value].organizationName, users[c.userId.value].issuerCode,
                          users[c.userId.value].verified))
      else None;
    PublicCert(c.certificateId, c.studentName, c.courseName,
               if c.issueDate != "" then IssueDateText(c.issueDate) else GeneratedAtTime(c.generatedAt), org)
  }

  /** `GET /verify/:certificateId`. */
  function Verify(certs: seq<Certificate>, users: map<string, User>, id: string): VerifyReply {
    var i := FindCertificate(certs, id);
    if i.None? then NotFound else Valid(Publish(certs[i.value], users))
  }

  /** Found exactly for a stored id; a found record shows its own name, course and date (or creation time). */
  lemma VerifyFindsStored(certs: seq<Certificate>, users: map<string, User>, id: string)
    ensures Verify(certs, users, id).NotFound? <==> !IdTaken(certs, id)
    ensures Verify(certs, users, id).Valid? ==>
      exists i :: 0 <= i < |certs| && certs[i].certificateId == id
        && Verify(certs, users, id).cert.certificateId == id
        && Verify(certs, users, id).cert.studentName == certs[i].studentName
        && Verify(certs, users, id).cert.courseName == certs[i].courseName
        && Verify(certs, users, id).cert.issueDate ==
             (if certs[i].issueDate != "" then IssueDateText(certs[i].issueDate) else GeneratedAtTime(certs[i].generatedAt))
  {
    var i := FindCertificate(certs, id);
    if i.None? {
      assert forall j :: 0 <= j < |certs| ==> certs[j].certificateId != id;
      assert !IdTaken(certs, id);
    } else {
      assert certs[i.value].certificateId == id;
    }
  }

  /** A certificate stored under a fresh id verifies with the stored name and course. */
  lemma IssuedVerifies(certs: seq<Certificate>, users: map<string, User>, c: Certificate)
    requires !IdTaken(certs, c.certificateId)
    ensures Verify(certs + [c], users, c.certificateId) == Valid(Publish(c, users))
  {
    var all := certs + [c];
    assert all[|certs|].certificateId == c.certificateId;
    forall j | 0 <= j < |certs|
      ensures all[j].certificateId != c.certificateId
    {
      assert all[j] == certs[j];
    }
  }
}

=== FILE: fix_template_paths.dfy ===
/**
 * The one-off migration that points every template's background at the
 * `uploads/templates` folder, keeping the file name. The first save that
 * throws ends the script with exit code 1, leaving later templates as they
 * were.
 */
module FixTemplatePaths {
  import opened Wrappers
  import opened Text
  import opened Records

  const TemplatesDir: string := "./uploads/templates/"

  /** A URL the loop rewrites and saves: not empty and not yet under a `/templates/` folder. */
  predicate NeedsFix(url: string) {
    url != "" && !Contains(url, "/templates/")
  }

  /**
   * The new `bgImageUrl`: empty URLs and URLs already under a `/templates/`
   * folder stay as they are; any other URL becomes the templates folder
   * followed by its last '/'-separated segment.
   */
  function Rewrite(url: string): string {
    if !NeedsFix(url) then url
    else TemplatesDir + LastField(url, '/')
  }

  /** Every rewritten URL lies under `/templates/`. */
  lemma RewrittenUnderTemplates(f: string)
    ensures Contains(TemplatesDir + f, "/templates/")
  {
    assert OccursAt(TemplatesDir + f, "/templates/", 9);
  }

  /** A rewrite names the same file, and a second rewrite changes nothing. */
  lemma RewriteProperties(url: string)
    ensures LastField(Rewrite(url), '/') == LastField(url, '/')
    ensures Rewrite(Rewrite(url)) == Rewrite(url)
    ensures url != "" && !Contains(url, "/templates/") ==> StartsWith(Rewrite(url), TemplatesDir)
  {
    if url != "" && !Contains(url, "/templates/") {
      var f := LastField(url, '/');
      LastFieldAfter(TemplatesDir, '/', f);
      RewrittenUnderTemplates(f);
      assert (TemplatesDir + f)[..|TemplatesDir|] == TemplatesDir;
    }
  }

  /** The template as the loop saves it. */
  function Fixed(t: Template): Template {
    t.(bgImageUrl := Rewrite(t.bgImageUrl))
  }

  /** One pass of the loop: the template to save, or None when it is skipped. */
  method FixOne(t: Template) returns (saved: Option<Template>)
    ensures saved.Some? <==> NeedsFix(t.bgImageUrl)
    ensures saved.None? ==> Rewrite(t.bgImageUrl) == t.bgImageUrl
    ensures saved.Some? ==> saved.value == Fixed(t)
  {
    if t.bgImageUrl == "" {
      return None;
    }
    if Contains(t.bgImageUrl, "/templates/") {
      return None;
    }
    var filename := LastField(t.bgImageUrl, '/');
    saved := Some(t.(bgImageUrl := TemplatesDir + filename));
  }

  /**
   * One pass of the loop on the template at `k`: it stops, changing nothing,
   * when that template is one to save and its save throws; otherwise the
   * template is left rewritten.
   */
  method FixAt(templates: array<Template>, k: nat, saveFault: Option<nat>) returns (stopped: bool)
    requires k < templates.Length
    modifies templates
    ensures stopped <==> saveFault == Some(k) && NeedsFix(old(templates[k]).bgImageUrl)
    ensures stopped ==> templates[k] == old(templates[k])
    ensures !stopped ==> templates[k] == Fixed(old(templates[k]))
    ensures forall i :: 0 <= i < templates.Length && i != k ==> templates[i] == old(templates[i])
  {
    var saved := FixOne(templates[k]);
    stopped := false;
    if saved.Some? {
      if saveFault == Some(k) {
        return true;
      }
      templates[k] := saved.value;
    }
  }

  /**
   * Where the loop stops when the save of the template at `saveFault` throws:
   * at that template if it is one the loop saves, otherwise after the last.
   */
  function FixStop(ts: seq<Template>, saveFault: Option<nat>): (stop: nat)
    ensures stop <= |ts|
    ensures stop < |ts| ==> saveFault == Some(stop) && NeedsFix(ts[stop].bgImageUrl)
  {
    if saveFault.Some? && saveFault.value < |ts| && NeedsFix(ts[saveFault.value].bgImageUrl)
    then saveFault.value else |ts|
  }

  /**
   * The `start` loop. `saveFault` is the position of the template whose
   * `save()` throws, if any. Every template before the stop is saved with its
   * rewritten URL, the rest are left as they were, and the script completes
   * (exit code 0) exactly when it did not stop early.
   */
  method FixAll(templates: array<Template>, saveFault: Option<nat>) returns (completed: bool)
    modifies templates
    ensures completed <==> FixStop(old(templates[..]), saveFault) == templates.Length
    ensures forall i :: 0 <= i < FixStop(old(templates[..]), saveFault) ==>
      templates[i] == Fixed(old(templates[i]))
    ensures forall i :: FixStop(old(templates[..]), saveFault) <= i < templates.Length ==>
      templates[i] == old(templates[i])
  {
    ghost var ts := templates[..];
    ghost var stop := FixStop(ts, saveFault);
    var k := 0;
    while k < templates.Length
      invariant 0 <= k <= stop
      invariant forall i :: 0 <= i < k ==> templates[i] == Fixed(ts[i])
      invariant forall i :: k <= i < templates.Length ==> templates[i] == ts[i]
    {
      var stopped := FixAt(templates, k, saveFault);
      if stopped {
        return false;
      }
      k := k + 1;
    }
    completed := true;
  }

  /** Running the migration a second time leaves every template as the first run did. */
  lemma FixAllIdempotent(ts: seq<Template>)
    ensures forall i :: 0 <= i < |ts| ==> Fixed(Fixed(ts[i])) == Fixed(ts[i])
  {
    forall i | 0 <= i < |ts| {
      RewriteProperties(ts[i].bgImageUrl);
    }
  }
}

=== FILE: my_certificates.dfy ===
/**
 * The "Issued Certificates" page: the search box's filter over the listed
 * certificates, and the fallbacks each card shows for missing fields.
 */
module MyCertificates {
  import opened Wrappers
  import opened Text
  import opened Seqs

  /**
   * A listed certificate as the page sees it: each of the three searched
   * fields may be absent (`undefined` or `null`); a present field may be "".
   */
  datatype CertView = CertView(studentName: Option<string>, courseName: Option<string>, certificateId: Option<string>)

  /** `field?.toLowerCase().includes(term.toLowerCase())`: an absent field never matches. */
  predicate FieldMatches(field: Option<string>, term: string) {
    field.Some? && Contains(Lower(field.value), Lower(term))
  }

  /** The filter's predicate: any of the three fields contains the term, ignoring case. */
  predicate Matches(c: CertView, term: string) {
    FieldMatches(c.studentName, term) || FieldMatches(c.courseName, term) || FieldMatches(c.certificateId, term)
  }

  /** `certificates.filter(...)` with the search box's term. */
  function Filter(certs: seq<CertView>, term: string): seq<CertView> {
    KeepIf(certs, Matcher(term))
  }

  /** The filter's callback for one term. */
  function Matcher(term: string): CertView -> bool {
    (v: CertView) => Matches(v, term)
  }

  /**
   * The search keeps exactly the listed certificates that match, in list
   * order (filtering a list split in two filters each part) and each as
   * often as it is listed.
   */
  lemma FilterKeeps(a: seq<CertView>, b: seq<CertView>, term: string, c: CertView)
    ensures Filter(a + b, term) == Filter(a, term) + Filter(b, term)
    ensures c in Filter(a, term) <==> c in a && Matches(c, term)
    ensures multiset(Filter(a, term))[c] == if Matches(c, term) then multiset(a)[c] else 0
  {
    KeepIfSplits(a, b, Matcher(term));
    KeepIfCounts(a, Matcher(term), c);
  }

  /** An empty search keeps exactly the certificates with at least one of the three fields present. */
  lemma EmptyTermKeepsDefined(c: CertView)
    ensures Matches(c, "") <==> c.studentName.Some? || c.courseName.Some? || c.certificateId.Some?
  {
    if c.studentName.Some? { ContainsEmpty(Lower(c.studentName.value)); }
    if c.courseName.Some? { ContainsEmpty(Lower(c.courseName.value)); }
    if c.certificateId.Some? { ContainsEmpty(Lower(c.certificateId.value)); }
  }

  /** The search ignores letter case in the term. */
  lemma TermCaseIgnored(c: CertView, term: string)
    ensures Matches(c, Upper(term)) <==> Matches(c, term)
  {
    assert Lower(Upper(term)) == Lower(term);
  }

  // ---------------------------------------------------------------------
  // The card
  // ---------------------------------------------------------------------

  /** `cert.studentName || "Unknown Student"`. */
  function DisplayName(c: CertView): string {
    if c.studentName.Some? && c.studentName.value != "" then c.studentName.value else "Unknown Student"
  }

  /** `cert.courseName || "Course Name"`. */
  function DisplayCourse(c: CertView): (r: string)
    ensures r != ""
    ensures c.courseName.Some? && c.courseName.value != "" ==> r == c.courseName.value
  {
    if c.courseName.Some? && c.courseName.value != "" then c.courseName.value else "Course Name"
  }

  /** `cert.studentName ? cert.studentName.charAt(0) : "U"`. */
  function AvatarLetter(c: CertView): string {
    if c.studentName.Some? && c.studentName.value != "" then c.studentName.value[..1] else "U"
  }

  /**
   * The avatar is always one character, and it is the first character of
   * the name shown beside it, the fallback name included.
   */
  lemma AvatarMatchesName(c: CertView)
    ensures |AvatarLetter(c)| == 1 && |DisplayName(c)| >= 1
    ensures AvatarLetter(c) == DisplayName(c)[..1]
  {
  }
}

=== FILE: navbar.dfy ===
/**
 * The dashboard's top bar: which of the three tabs is highlighted for the
 * current location, and the letter in the account avatar.
 */
module Navbar {
  import opened Wrappers
  import opened Text

  const DashboardPath := "/dashboard"
  const CertificatesPath := "/dashboard/my-certificates"
  const GeneratePath := "/dashboard/generate"

  /** The pages the "Issue New" tab stands for. */
  const IssuePages: seq<string> := ["/dashboard/generate", "/dashboard/bulk-generate", "/dashboard/templates"]

  /** The three tabs, in display order. */
  const NavPaths: seq<string> := [DashboardPath, CertificatesPath, GeneratePath]

  /** `isActive(path)` for the location `pathname`. */
  predicate IsActive(path: string, pathname: string) {
    if path == DashboardPath then pathname == DashboardPath
    else if path == GeneratePath then exists k :: 0 <= k < |IssuePages| && StartsWith(pathname, IssuePages[k])
    else StartsWith(pathname, path)
  }

  /**
   * The "Dashboard" tab is lit only on its exact path, even though every
   * other page lies under it; any other tab but "Issue New" is lit on its
   * own path and everything below it.
   */
  lemma DashboardExact(pathname: string)
    ensures IsActive(DashboardPath, pathname) <==> pathname == "/dashboard"
    ensures IsActive(CertificatesPath, pathname) <==> StartsWith(pathname, "/dashboard/my-certificates")
  {
  }

  /** "Issue New" is lit on the generate, bulk-generate and templates pages and below them. */
  lemma IssueNewCovers(page: string, rest: string)
    requires page in IssuePages
    ensures IsActive(GeneratePath, page + rest)
  {
    var k :| 0 <= k < |IssuePages| && IssuePages[k] == page;
    assert (page + rest)[..|page|] == page;
  }

  /** No location lights two tabs at once. */
  lemma AtMostOneTab(pathname: string)
    ensures !(IsActive(DashboardPath, pathname) && IsActive(CertificatesPath, pathname))
    ensures !(IsActive(DashboardPath, pathname) && IsActive(GeneratePath, pathname))
    ensures !(IsActive(CertificatesPath, pathname) && IsActive(GeneratePath, pathname))
  {
    assert StartsWith(pathname, CertificatesPath) ==> pathname[11] == CertificatesPath[11] == 'm';
    assert forall k :: 0 <= k < |IssuePages| && StartsWith(pathname, IssuePages[k]) ==>
      pathname[11] == IssuePages[k][11] != 'm';
  }

  /** `user?.organizationName || "Cdac-Banglore"`, the name beside the avatar. */
  function ShownOrganization(organizationName: Option<string>): (r: string)
    ensures r != ""
    ensures organizationName.Some? && organizationName.value != "" ==> r == organizationName.value
  {
    if organizationName.Some? && organizationName.value != "" then organizationName.value else "Cdac-Banglore"
  }

  /** `(user?.organizationName || "C").charAt(0).toUpperCase()`. */
  function Initial(organizationName: Option<string>): (r: string)
    ensures |r| == 1
    ensures organizationName.None? || organizationName.value == "" ==> r == "C"
    ensures organizationName.Some? && organizationName.value != "" ==> r == [UpperChar(organizationName.value[0])]
  {
    var name := if organizationName.Some? && organizationName.value != "" then organizationName.value else "C";
    Upper(name[..1])
  }

  /** The avatar shows the upper-cased first letter of the name shown beside it, when one is known. */
  lemma InitialOfShownName(organizationName: Option<string>)
    requires organizationName.Some? && organizationName.value != ""
    ensures Initial(organizationName) == Upper(ShownOrganization(organizationName)[..1])
  {
  }
}

=== FILE: payments.dfy ===
/**
 * The payment routes: `create-order`, which prices a purchase, opens a
 * gateway order and stores a `created` purchase; `confirm-template`, which
 * means to record a bought template on its user; and `mark-success`, which
 * flips a stored purchase to `success`.
 */
module Payments {
  import opened Wrappers
  import opened Text
  import opened Radix
  import opened Records
  import opened Store
  import Certificates
  import Templates

  // ---------------------------------------------------------------------
  // Pricing
  // ---------------------------------------------------------------------

  /**
   * The amount in rupees for a purchase type: a bulk purchase costs
   * `quantity` times the unit price of 50, a single certificate 50; any
   * other type has no price and is refused.
   */
  function Price(purchaseType: string, quantity: real): (amount: Option<real>)
    ensures purchaseType == "bulk_certificate" ==> amount == Some(quantity * 50.0)
    ensures purchaseType == "certificate" ==> amount == Some(50.0)
    ensures amount.Some? <==> purchaseType in {"bulk_certificate", "certificate"}
  {
    if purchaseType == "bulk_certificate" then Some(quantity * 50.0)
    else if purchaseType == "certificate" then Some(50.0)
    else None
  }

  /** `Math.round(x)`: the nearest integer, halves rounded up. */
  function Round(x: real): (n: int)
    ensures (n as real) - 0.5 <= x < (n as real) + 0.5
  {
    (x + 0.5).Floor
  }

  /** `Math.round(amount * 100)`: the amount in paise sent to the gateway. */
  function Paise(amount: real): int {
    Round(amount * 100.0)
  }

  /** The gateway amount is within half a paisa of the price; whole rupees convert exactly. */
  lemma PaiseClose(amount: real)
    ensures amount * 100.0 - 0.5 < Paise(amount) as real <= amount * 100.0 + 0.5
    ensures amount == amount.Floor as real ==> Paise(amount) == amount.Floor * 100
  {
    var n := Paise(amount);
    if amount == amount.Floor as real {
      var k := amount.Floor;
      assert amount * 100.0 == (k * 100) as real;
      assert (k * 100) as real - 0.5 <= amount * 100.0 < (k * 100) as real + 0.5;
      RoundUnique(amount * 100.0, k * 100);
    }
  }

  /** Only one integer lies within half a unit (rounding halves up) of `x`. */
  lemma RoundUnique(x: real, k: int)
    requires (k as real) - 0.5 <= x < (k as real) + 0.5
    ensures Round(x) == k
  {
  }

  /** A bulk order of `k` certificates costs exactly `k * 5000` paise. */
  lemma BulkPaise(k: nat)
    ensures Price("bulk_certificate", k as real).Some?
    ensures Paise(Price("bulk_certificate", k as real).value) == k * 5000
  {
    var amount := Price("bulk_certificate", k as real).value;
    assert amount == (k * 50) as real;
    assert amount * 100.0 == (k * 5000) as real;
    RoundUnique(amount * 100.0, k * 5000);
  }

  // ---------------------------------------------------------------------
  // create-order
  // ---------------------------------------------------------------------

  /**
   * The request body; "" stands for a missing string. `quantity` is None
   * when the body has none (it then defaults to 1); `studentData` is the
   * empty object when absent.
   */
  datatype OrderBody = OrderBody(purchaseType: string, quantity: Option<real>, templateId: string, studentData: Bag)

  /** What is sent to the gateway's `orders.create`: the amount in paise, the currency, the receipt and the notes. */
  datatype OrderRequest = OrderRequest(
    amount: int, currency: string, receipt: string,
    notePurchaseType: string, noteUserId: string, noteQuantity: real)

  datatype OrderReply =
    | OrderRejected(rejection: Rejection)
    | OrderCreated(order: OrderRequest, orderId: string, purchaseId: string)
    | OrderFailed

  /** `s.slice(-n)`: the last `n` characters, or all of `s` when it is shorter. */
  function LastChars(s: string, n: nat): (r: string)
    ensures |r| == if |s| < n then |s| else n
    ensures r == s[|s| - |r|..]
  {
    if |s| <= n then s else s[|s| - n..]
  }

  /** `"rcpt_" + Date.now().toString().slice(-10)`. */
  function Receipt(now: nat): string {
    "rcpt_" + LastChars(ToDecimal(now), 10)
  }

  /** A receipt is "rcpt_" and then one to ten decimal digits: the clock's last ten. */
  lemma ReceiptShape(now: nat)
    ensures var r := Receipt(now);
      && 6 <= |r| <= 15 && r[..5] == "rcpt_"
      && (forall i :: 5 <= i < |r| ==> '0' <= r[i] <= '9')
      && r[5..] == ToDecimal(now)[|ToDecimal(now)| - (|r| - 5)..]
  {
    var d := ToDecimal(now);
    var r := Receipt(now);
    assert r[5..] == LastChars(d, 10);
  }

  function Quantity(body: OrderBody): real {
    if body.quantity.Some? then body.quantity.value else 1.0
  }

  /** `{ quantity, ...studentData }`. */
  function OrderMetadata(body: OrderBody): (m: Bag)
    ensures m.Keys == body.studentData.Keys + {"quantity"}
    ensures forall k :: k in body.studentData ==> m[k] == body.studentData[k]
    ensures "quantity" !in body.studentData ==> m["quantity"] == JNum(Quantity(body))
  {
    map["quantity" := JNum(Quantity(body))] + body.studentData
  }

  /**
   * The gateway order for a priced purchase: the price in paise, in rupees
   * ("INR"), with the clock's receipt and notes naming the purchase type,
   * the caller (or "unknown" when the token carries no id) and the quantity.
   */
  function GatewayOrder(userId: string, body: OrderBody, amount: real, now: nat): (o: OrderRequest)
    ensures o.amount == Paise(amount) && o.currency == "INR" && o.receipt == Receipt(now)
    ensures o.notePurchaseType == body.purchaseType && o.noteQuantity == Quantity(body)
    ensures o.noteUserId == (if userId == "" then "unknown" else userId)
  {
    OrderRequest(Paise(amount), "INR", Receipt(now), body.purchaseType,
                 if userId == "" then "unknown" else userId, Quantity(body))
  }

  /**
   * A priced order succeeds exactly when the gateway answers the order with
   * an id, the caller's id is an ObjectId, and the template id is absent or
   * an ObjectId: otherwise `Purchase.create` rejects the document.
   */
  predicate OrderAccepted(userId: string, body: OrderBody, amount: real, now: nat,
                          gateway: OrderRequest -> Option<string>)
  {
    var orderId := gateway(GatewayOrder(userId, body, amount, now));
    && orderId.Some? && orderId.value != ""
    && IsObjectId(userId)
    && (body.templateId == "" || IsObjectId(body.templateId))
  }

  /** The document `Purchase.create` is given for a priced order. */
  function OrderDraft(userId: string, body: OrderBody, amount: real, orderId: string): PurchaseDraft {
    PurchaseDraft(
      if userId == "" then None else Some(userId),
      if body.templateId == "" then None else Some(body.templateId),
      None,
      Some(orderId),
      Some(amount),
      Some(body.purchaseType),
      Some("created"),
      ObjectMeta(OrderMetadata(body)))
  }

  /**
   * A priced order yields a stored purchase exactly when the caller's id is
   * an ObjectId, the template id is absent or an ObjectId, and the gateway
   * returned an id; it is `created`, unused, unpaid, and carries the price,
   * the template and the merged student data.
   */
  lemma OrderPurchaseShape(userId: string, body: OrderBody, orderId: string, now: nat)
    requires Price(body.purchaseType, Quantity(body)).Some?
    ensures var amount := Price(body.purchaseType, Quantity(body)).value;
      var r := CreatePurchase(OrderDraft(userId, body, amount, orderId), now);
      && (r.Ok? <==> IsObjectId(userId) && (body.templateId == "" || IsObjectId(body.templateId)) && orderId != "")
      && (r.Ok? ==>
            && r.value.status == Created && !r.value.used && r.value.paymentId.None?
            && r.value.amount == amount && r.value.userId == userId
            && PurchaseTypeName(r.value.purchaseType) == body.purchaseType
            && r.value.templateId == (if body.templateId == "" then None else Some(body.templateId))
            && r.value.metadata == ObjectMeta(OrderMetadata(body)))
  {
  }

  /** A freshly ordered purchase cannot yet be turned into a certificate. */
  lemma NewOrderNotGenerable(userId: string, body: OrderBody, orderId: string, now: nat,
                             purchases: map<string, Purchase>, templates: map<string, Template>, id: string)
    requires Price(body.purchaseType, Quantity(body)).Some?
    requires var r := CreatePurchase(OrderDraft(userId, body, Price(body.purchaseType, Quantity(body)).value, orderId), now);
             r.Ok? && id != "" && id in purchases && purchases[id] == r.value
    ensures Certificates.Gate(purchases, templates, id) == Some(Rejection(400, "Payment not completed"))
  {
  }

  /**
   * The priced part of `create-order`: the gateway order for `amount` and,
   * when the gateway answers, the stored purchase.
   */
  method PlaceOrder(db: Db, userId: string, body: OrderBody, amount: real, now: nat,
                    gateway: OrderRequest -> Option<string>, newId: string) returns (reply: OrderReply)
    requires Price(body.purchaseType, Quantity(body)) == Some(amount)
    requires newId !in db.purchases
    modifies db
    ensures db.templates == old(db.templates) && db.users == old(db.users) && db.plans == old(db.plans)
    ensures db.certificates == old(db.certificates)
    ensures !reply.OrderRejected?
    ensures reply.OrderCreated? <==> OrderAccepted(userId, body, amount, now, gateway)
    ensures reply.OrderFailed? ==> db.purchases == old(db.purchases)
    ensures reply.OrderCreated? ==>
      && reply.order == GatewayOrder(userId, body, amount, now)
      && reply.orderId == gateway(reply.order).value
      && reply.purchaseId == newId
      && var r := CreatePurchase(OrderDraft(userId, body, amount, reply.orderId), now);
      && r.Ok?
      && db.purchases == old(db.purchases)[newId := r.value]
  {
    var order := GatewayOrder(userId, body, amount, now);
    var orderId := gateway(order);
    if orderId.None? {
      return OrderFailed;
    }
    OrderPurchaseShape(userId, body, orderId.value, now);
    var created := CreatePurchase(OrderDraft(userId, body, amount, orderId.value), now);
    if created.Err? {
      return OrderFailed;
    }
    db.SavePurchase(newId, created.value);
    reply := OrderCreated(order, orderId.value, newId);
  }

  /**
   * `POST /create-order`. `gateway` stands for the payment provider's
   * `orders.create` (None when it throws) and `newId` for the `_id` the
   * database assigns to the new purchase. Only a stored purchase is a change.
   */
  method CreateOrder(db: Db, userId: string, body: OrderBody, now: nat,
                     gateway: OrderRequest -> Option<string>, newId: string) returns (reply: OrderReply)
    requires newId !in db.purchases
    modifies db
    ensures db.templates == old(db.templates) && db.users == old(db.users) && db.plans == old(db.plans)
    ensures db.certificates == old(db.certificates)
    ensures body.purchaseType == "" ==> reply == OrderRejected(Rejection(400, "Missing required fields"))
    ensures body.purchaseType != "" && Price(body.purchaseType, Quantity(body)).None? ==>
              reply == OrderRejected(Rejection(400, "Invalid Purchase Type"))
    ensures Price(body.purchaseType, Quantity(body)).Some? ==>
              (reply.OrderCreated? <==>
                 OrderAccepted(userId, body, Price(body.purchaseType, Quantity(body)).value, now, gateway))
    ensures reply.OrderRejected? || reply.OrderFailed? ==> db.purchases == old(db.purchases)
    ensures reply.OrderCreated? ==>
      && Price(body.purchaseType, Quantity(body)).Some?
      && var amount := Price(body.purchaseType, Quantity(body)).value;
      && reply.order == GatewayOrder(userId, body, amount, now)
      && reply.orderId == gateway(reply.order).value
      && reply.purchaseId == newId
      && var r := CreatePurchase(OrderDraft(userId, body, amount, reply.orderId), now);
      && r.Ok?
      && db.purchases == old(db.purchases)[newId := r.value]
  {
    if body.purchaseType == "" {
      return OrderRejected(Rejection(400, "Missing required fields"));
    }
    var quantity := Quantity(body);
    var amount: real;
    if body.purchaseType == "bulk_certificate" {
      amount := quantity * 50.0;
    } else if body.purchaseType == "certificate" {
      amount := 50.0;
    } else {
      return OrderRejected(Rejection(400, "Invalid Purchase Type"));
    }
    assert amount == Price(body.purchaseType, Quantity(body)).value;
    reply := PlaceOrder(db, userId, body, amount, now, gateway, newId);
  }

  // ---------------------------------------------------------------------
  // confirm-template
  // ---------------------------------------------------------------------

  datatype ConfirmReply = ConfirmRejected(rejection: Rejection) | Confirmed

  /**
   * `POST /confirm-template`: "" stands for a missing `userId` or
   * `templateId`. The update `$addToSet: { purchasedTemplates }` names a path
   * the User schema does not declare, so strict mode strips it and no record
   * changes whatever the reply; `findByIdAndUpdate` still casts `userId`,
   * and one that is not an ObjectId makes the route answer 500.
   */
  function ConfirmTemplate(userId: string, templateId: string): (reply: ConfirmReply)
    ensures userId == "" || templateId == "" ==> reply == ConfirmRejected(Rejection(400, "Missing data"))
    ensures reply == Confirmed <==> userId != "" && templateId != "" && IsObjectId(userId)
    ensures userId != "" && templateId != "" && !IsObjectId(userId) ==> reply == ConfirmRejected(Rejection(500, ""))
  {
    if userId == "" || templateId == "" then ConfirmRejected(Rejection(400, "Missing data"))
    else if !IsObjectId(userId) then ConfirmRejected(Rejection(500, ""))
    else Confirmed
  }

  /**
   * The as-written catalogue never shows a bought template: for any premium
   * template, a `confirm-template` call that succeeds leaves it locked in the
   * caller's catalogue, where the intended catalogue would unlock it.
   */
  lemma ConfirmedStillLocked(templates: seq<Template>, userId: string, i: nat)
    requires i < |templates| && templates[i].templateType == "premium" && templates[i].id != ""
    requires IsObjectId(userId)
    ensures ConfirmTemplate(userId, templates[i].id) == Confirmed
    ensures Templates.UserTemplates(templates, userId).Some?
    ensures Templates.UserTemplates(templates, userId).value[i].isLocked
    ensures !Templates.Catalogue(templates, Templates.AddToSet([], templates[i].id))[i].isLocked
  {
  }

  // ---------------------------------------------------------------------
  // mark-success
  // ---------------------------------------------------------------------

  /** The purchase after `mark-success`: paid, with the given payment id or none. */
  function Marked(p: Purchase, paymentId: string): (q: Purchase)
    ensures q.status == Success && q.used == p.used
    ensures q.paymentId == (if paymentId == "" then None else Some(paymentId))
    ensures q.(status := p.status, paymentId := p.paymentId) == p
  {
    p.(status := Success, paymentId := if paymentId == "" then None else Some(paymentId))
  }

  datatype MarkReply = MarkRejected(rejection: Rejection) | MarkDone

  /** `POST /mark-success`: "" stands for a missing `purchaseId` or `paymentId`. */
  method MarkSuccess(db: Db, purchaseId: string, paymentId: string) returns (reply: MarkReply)
    modifies db
    ensures db.templates == old(db.templates) && db.users == old(db.users) && db.plans == old(db.plans)
    ensures db.certificates == old(db.certificates)
    ensures purchaseId == "" ==> reply == MarkRejected(Rejection(400, "purchaseId required"))
    ensures purchaseId != "" && purchaseId !in old(db.purchases) ==>
              reply == MarkRejected(Rejection(404, "Purchase not found"))
    ensures reply.MarkRejected? ==> db.purchases == old(db.purchases)
    ensures purchaseId != "" && purchaseId in old(db.purchases) ==>
              reply == MarkDone
              && db.purchases == old(db.purchases)[purchaseId := Marked(old(db.purchases)[purchaseId], paymentId)]
  {
    if purchaseId == "" {
      return MarkRejected(Rejection(400, "purchaseId required"));
    }
    if purchaseId !in db.purchases {
      return MarkRejected(Rejection(404, "Purchase not found"));
    }
    var purchase := db.purchases[purchaseId];
    db.SavePurchase(purchaseId, Marked(purchase, paymentId));
    reply := MarkDone;
  }

  /**
   * Marking needs no proof of payment: any stored, unused purchase whose
   * template exists becomes generable; a used one stays rejected as used.
   */
  lemma MarkedGate(purchases: map<string, Purchase>, templates: map<string, Template>, id: string, paymentId: string)
    requires id != "" && id in purchases
    ensures var after := purchases[id := Marked(purchases[id], paymentId)];
      && (Certificates.Gate(after, templates, id).None? <==>
            !purchases[id].used && purchases[id].templateId.Some? && purchases[id].templateId.value in templates)
      && (purchases[id].used ==> Certificates.Gate(after, templates, id) == Some(Rejection(400, "Purchase already used")))
  {
  }
}

=== FILE: pdf_service.dfy ===
/**
 * The certificate renderer: font mapping, path resolution against an
 * existence oracle, the percentage-of-page STANDARD_LAYOUT, and the fixed
 * sequence of draw calls `generateCertificatePdf` makes on a PDFKit document.
 *
 * The document is modelled by `PdfDoc`, whose state (current font, size,
 * fill colour) is stepped by the same calls the source makes; every text or
 * image call appends one `Op`. `RenderPlan` is the specification: for each
 * layout slot in drawing order, the one command drawn for it, if any.
 */
module PdfService {
  import opened Wrappers
  import opened Text

  // ---------------------------------------------------------------------
  // Fonts
  // ---------------------------------------------------------------------

  const FontMap: map<string, string> := map[
    "Times-Bold" := "Times-Bold",
    "Helvetica" := "Helvetica",
    "Helvetica-Bold" := "Helvetica-Bold",
    "Courier" := "Courier",
    "Great Vibes" := "Times-Italic"]

  const DefaultFont: string := "Helvetica"

  /** The fourteen standard Type 1 fonts every PDF reader provides (ISO 32000-1, section 9.6.2.2). */
  const StandardFonts: set<string> := {
    "Times-Roman", "Times-Bold", "Times-Italic", "Times-BoldItalic",
    "Helvetica", "Helvetica-Bold", "Helvetica-Oblique", "Helvetica-BoldOblique",
    "Courier", "Courier-Bold", "Courier-Oblique", "Courier-BoldOblique",
    "Symbol", "ZapfDingbats"}

  /** `getFont`: a friendly name to a font PDFKit always has; never fails. */
  function GetFont(name: string): (r: string)
    ensures r in StandardFonts
  {
    if name in FontMap then FontMap[name] else DefaultFont
  }

  /** The five mapped names give their listed fonts and every other name gives Helvetica. */
  lemma GetFontTotal(name: string)
    ensures name == "Great Vibes" ==> GetFont(name) == "Times-Italic"
    ensures name in {"Times-Bold", "Helvetica", "Helvetica-Bold", "Courier"} ==> GetFont(name) == name
    ensures name !in {"Times-Bold", "Helvetica", "Helvetica-Bold", "Courier", "Great Vibes"} ==> GetFont(name) == "Helvetica"
  {
  }

  // ---------------------------------------------------------------------
  // Path resolution
  // ---------------------------------------------------------------------

  /** The backend root directory and the file-system existence test `fs.existsSync`. */
  datatype PathEnv = PathEnv(baseDir: string, fileExists: string -> bool)

  /** `path.isAbsolute` on POSIX. */
  predicate IsAbsolute(p: string) {
    |p| > 0 && p[0] == '/'
  }

  /** `path.join` of two segments (no normalisation of `.` and `..`). */
  function JoinPath(a: string, b: string): string {
    a + "/" + b
  }

  /** `s.split('?')[0]`: the reference without its query string. */
  function StripQuery(s: string): (r: string)
    ensures '?' !in r && |r| <= |s| && r == s[..|r|]
  {
    FirstField(s, '?')
  }

  /** `s.replace(/^[\/\\]/, '')`: at most one leading separator removed. */
  function DropLeadingSeparator(s: string): string {
    if |s| > 0 && (s[0] == '/' || s[0] == '\\') then s[1..] else s
  }

  function FirstCandidate(env: PathEnv, rel: string): string {
    JoinPath(env.baseDir, DropLeadingSeparator(StripQuery(rel)))
  }

  function SecondCandidate(env: PathEnv, rel: string): string {
    JoinPath(JoinPath(env.baseDir, "uploads"), DropLeadingSeparator(StripQuery(rel)))
  }

  /**
   * `resolvePath`: null for an empty reference; an existing absolute path as
   * it is; otherwise `baseDir/rel`, then `baseDir/uploads/rel`, the first
   * that exists, and `baseDir/rel` when neither does.
   */
  function ResolvePath(env: PathEnv, rel: string): (r: Option<string>)
    ensures r.None? <==> rel == ""
  {
    if rel == "" then None
    else
      var stripped := StripQuery(rel);
      if IsAbsolute(stripped) && env.fileExists(stripped) then Some(stripped)
      else if env.fileExists(FirstCandidate(env, rel)) then Some(FirstCandidate(env, rel))
      else if env.fileExists(SecondCandidate(env, rel)) then Some(SecondCandidate(env, rel))
      else Some(FirstCandidate(env, rel))
  }

  /** The candidates are tried in order, and the first one is the fallback. */
  lemma ResolveOrder(env: PathEnv, rel: string)
    requires rel != ""
    requires !(IsAbsolute(StripQuery(rel)) && env.fileExists(StripQuery(rel)))
    ensures env.fileExists(FirstCandidate(env, rel)) ==> ResolvePath(env, rel) == Some(FirstCandidate(env, rel))
    ensures (!env.fileExists(FirstCandidate(env, rel)) && env.fileExists(SecondCandidate(env, rel)))
              ==> ResolvePath(env, rel) == Some(SecondCandidate(env, rel))
    ensures (!env.fileExists(FirstCandidate(env, rel)) && !env.fileExists(SecondCandidate(env, rel)))
              ==> ResolvePath(env, rel) == Some(FirstCandidate(env, rel))
  {
  }

  /** A query string never influences the result. */
  lemma ResolveIgnoresQuery(env: PathEnv, rel: string, query: string)
    requires rel != "" && '?' !in rel
    ensures ResolvePath(env, rel + "?" + query) == ResolvePath(env, rel)
  {
    FirstFieldAfterPrefix(rel, '?', query);
    assert StripQuery(rel) == rel;
  }

  /** An existing absolute path is returned unchanged, so resolving it again changes nothing. */
  lemma ResolveAbsoluteIdempotent(env: PathEnv, p: string)
    requires IsAbsolute(p) && env.fileExists(p) && '?' !in p
    ensures ResolvePath(env, p) == Some(p)
    ensures ResolvePath(env, ResolvePath(env, p).value) == ResolvePath(env, p)
  {
    assert StripQuery(p) == p;
  }

  /** Whatever the resolver finds on disk resolves to itself (the base directory is absolute). */
  lemma ResolveFoundIdempotent(env: PathEnv, rel: string)
    requires IsAbsolute(env.baseDir) && '?' !in env.baseDir
    requires rel != ""
    requires env.fileExists(ResolvePath(env, rel).value)
    ensures ResolvePath(env, ResolvePath(env, rel).value) == ResolvePath(env, rel)
  {
    var r := ResolvePath(env, rel).value;
    var clean := DropLeadingSeparator(StripQuery(rel));
    assert '?' !in clean;
    assert r[0] == '/' by {
      if r != StripQuery(rel) { assert r[0] == env.baseDir[0]; }
    }
    assert '?' !in r;
    ResolveAbsoluteIdempotent(env, r);
  }

  // ---------------------------------------------------------------------
  // STANDARD_LAYOUT (fractions of the page)
  // ---------------------------------------------------------------------

  /** A centred entry: y and font size are fractions of the page height; "" and None stand for absent fields. */
  datatype TextEntry = TextEntry(y: real, fontSize: real, font: string, color: string, text: string, maxWidth: Option<real>)
  /** A left-aligned entry: x is a fraction of the page width. */
  datatype PlacedEntry = PlacedEntry(x: real, y: real, fontSize: real, font: string, text: string)
  /** The signature box: x and w are fractions of the width, y and h of the height. */
  datatype BoxEntry = BoxEntry(x: real, y: real, w: real, h: real)
  /** The QR entry: size is a fraction of min(width, height). */
  datatype QrEntry = QrEntry(x: real, y: real, size: real)

  datatype Layout = Layout(
    title: TextEntry,
    organization: TextEntry,
    presentedTo: TextEntry,
    recipient: TextEntry,
    forCompletion: TextEntry,
    courseName: TextEntry,
    description: TextEntry,
    dateLabel: PlacedEntry,
    dateValue: PlacedEntry,
    signatureImg: BoxEntry,
    signatoryLine: PlacedEntry,
    qr: QrEntry,
    certId: TextEntry)

  const StandardLayout: Layout := Layout(
    TextEntry(0.15, 0.05, "Times-Bold", "#111", "", None),
    TextEntry(0.22, 0.025, "Helvetica-Bold", "#444", "", None),
    TextEntry(0.35, 0.02, "Helvetica", "#555", "This certificate is proudly presented to", None),
    TextEntry(0.42, 0.06, "Great Vibes", "#d4af37", "", None),
    TextEntry(0.52, 0.02, "Helvetica", "#555", "For successfully completing the course", None),
    TextEntry(0.56, 0.035, "Helvetica-Bold", "#222", "", None),
    TextEntry(0.65, 0.018, "Helvetica", "#666", "", Some(0.7)),
    PlacedEntry(0.20, 0.78, 0.015, "Helvetica-Bold", "Date of Issue"),
    PlacedEntry(0.20, 0.81, 0.015, "Helvetica", ""),
    BoxEntry(0.65, 0.75, 0.20, 0.08),
    PlacedEntry(0.65, 0.83, 0.015, "Helvetica-Bold", "Authorized Signatory"),
    QrEntry(0.45, 0.82, 0.10),
    TextEntry(0.94, 0.012, "Courier", "#999", "", None))

  /** The default `maxWPct` of the centring helper; no call passes another. */
  const DefaultMaxWidth := 0.8
  /** The colour every left-aligned call passes. */
  const LabelColor := "#333"
  const DefaultTitle := "CERTIFICATE OF APPRECIATION"

  predicate Fraction(f: real) {
    0.0 <= f <= 1.0
  }

  /**
   * What the layout lemmas need: every position is a fraction of the page,
   * the signature box fits, and the fixed lines have text.
   */
  predicate LayoutOk(L: Layout) {
    && Fraction(L.title.y) && Fraction(L.organization.y) && Fraction(L.presentedTo.y) && Fraction(L.recipient.y)
    && Fraction(L.forCompletion.y) && Fraction(L.courseName.y) && Fraction(L.description.y) && Fraction(L.certId.y)
    && Fraction(L.dateLabel.x) && Fraction(L.dateLabel.y) && Fraction(L.dateValue.x) && Fraction(L.dateValue.y)
    && Fraction(L.signatoryLine.x) && Fraction(L.signatoryLine.y)
    && 0.0 <= L.signatureImg.x && 0.0 <= L.signatureImg.w && L.signatureImg.x + L.signatureImg.w <= 1.0
    && 0.0 <= L.signatureImg.y && 0.0 <= L.signatureImg.h && L.signatureImg.y + L.signatureImg.h <= 1.0
    && 0.0 <= L.qr.size <= 0.18
    && L.presentedTo.text != "" && L.forCompletion.text != "" && L.dateLabel.text != "" && L.signatoryLine.text != ""
  }

  lemma StandardLayoutOk()
    ensures LayoutOk(StandardLayout)
  {
  }

  // ---------------------------------------------------------------------
  // Inputs and draw commands
  // ---------------------------------------------------------------------

  datatype Dims = Dims(width: real, height: real)

  /** What `image-size` reports for a readable image. */
  datatype ImageSize = ImageSize(width: nat, height: nat)

  /** A4 landscape in points, used when the background size is unknown. */
  const DefaultPage := Dims(842.0, 595.0)

  /**
   * The renderer's environment: paths, `sizeOf` (None when it throws),
   * `new Date(s).toLocaleDateString()` and today's locale date.
   */
  datatype RenderEnv = RenderEnv(
    paths: PathEnv,
    sizeOf: string -> Option<ImageSize>,
    formatDate: string -> string,
    today: string)

  /**
   * The background a template names: `backgroundImage || bgImageUrl`, where
   * `backgroundImage` is not a path of the Template schema and so never
   * supplies one; "" stands for absent.
   */
  datatype BackgroundRef = BackgroundRef(bgImageUrl: string)

  /** The nested `data.organization` object some callers pass. */
  datatype OrgRef = OrgRef(organizationName: string, signatureUrl: string)

  /** The data bag the renderer reads; "" stands for a missing, null or empty field. */
  datatype CertData = CertData(
    certificateTitle: string,
    organizationName: string,
    organization: Option<OrgRef>,
    recipientName: string,
    studentName: string,
    courseName: string,
    description: string,
    issueDate: string,
    signatureUrl: string)

  datatype Request = Request(bg: BackgroundRef, data: CertData, env: RenderEnv, certId: string, qrUrl: string)

  /** The layout element a command was drawn for, in drawing order. */
  datatype Slot =
    | Background | Title | Organization | PresentedTo | Recipient | ForCompletion | CourseName
    | Description | DateLabel | DateValue | SignatureImage | Signatory | QrCode | CertId

  function Rank(s: Slot): nat {
    match s
    case Background => 0
    case Title => 1
    case Organization => 2
    case PresentedTo => 3
    case Recipient => 4
    case ForCompletion => 5
    case CourseName => 6
    case Description => 7
    case DateLabel => 8
    case DateValue => 9
    case SignatureImage => 10
    case Signatory => 11
    case QrCode => 12
    case CertId => 13
  }

  const SlotOrder: seq<Slot> := [
    Background, Title, Organization, PresentedTo, Recipient, ForCompletion, CourseName,
    Description, DateLabel, DateValue, SignatureImage, Signatory, QrCode, CertId]

  datatype Align = Left | Center

  datatype ImageSource = FileImage(path: string) | QrImage(payload: string)

  /** One `doc.text` or `doc.image` call, with the font state current at the call. */
  datatype Op =
    | TextOp(slot: Slot, text: string, x: real, y: real, font: string, size: real, color: string,
             boxWidth: Option<real>, align: Align)
    | ImageOp(slot: Slot, source: ImageSource, x: real, y: real, w: real, h: real, fit: bool)

  /** A rendered certificate: the page size and the commands in drawing order. */
  datatype Page = Page(size: Dims, ops: seq<Op>)

  // ---------------------------------------------------------------------
  // The specification of one render
  // ---------------------------------------------------------------------

  function Min(a: real, b: real): real {
    if a <= b then a else b
  }

  function BackgroundPath(r: Request): Option<string> {
    ResolvePath(r.env.paths, r.bg.bgImageUrl)
  }

  predicate BackgroundFound(r: Request) {
    BackgroundPath(r).Some? && r.env.paths.fileExists(BackgroundPath(r).value)
  }

  /** The page is the background's native size when it exists and can be measured, else A4 landscape. */
  function PageOf(r: Request): Dims {
    if BackgroundFound(r) && r.env.sizeOf(BackgroundPath(r).value).Some? then
      var s := r.env.sizeOf(BackgroundPath(r).value).value;
      Dims(s.width as real, s.height as real)
    else DefaultPage
  }

  function TitleText(d: CertData): string {
    Upper(if d.certificateTitle != "" then d.certificateTitle else DefaultTitle)
  }

  function OrganizationText(d: CertData): string {
    Upper(
      if d.organizationName != "" then d.organizationName
      else if d.organization.Some? && d.organization.value.organizationName != "" then d.organization.value.organizationName
      else "Organization")
  }

  function RecipientText(d: CertData): string {
    if d.recipientName != "" then d.recipientName
    else if d.studentName != "" then d.studentName
    else "Recipient Name"
  }

  function CourseText(d: CertData): string {
    if d.courseName != "" then d.courseName
    else if d.description != "" then d.description
    else "Course Name"
  }

  function DateText(r: Request): string {
    if r.data.issueDate != "" then r.env.formatDate(r.data.issueDate) else r.env.today
  }

  function SignatureUrl(d: CertData): string {
    if d.signatureUrl != "" then d.signatureUrl
    else if d.organization.Some? then d.organization.value.signatureUrl
    else ""
  }

  function ColorOr(color: string): string {
    if color == "" then "black" else color
  }

  /** `drawCentered`: nothing for empty text, else a box of width `page.width * maxW` centred on the page. */
  function CenteredOp(slot: Slot, text: string, yPct: real, sizePct: real, font: string, color: string,
                      maxW: real, page: Dims): (o: Option<Op>)
    ensures o.Some? ==> o.value.slot == slot
  {
    if text == "" then None
    else Some(TextOp(slot, text, page.width * (1.0 - maxW) / 2.0, page.height * yPct, GetFont(font),
                     page.height * sizePct, ColorOr(color), Some(page.width * maxW), Center))
  }

  /** `drawAt`: nothing for empty text, else left-aligned text at the given fractions. */
  function AtOp(slot: Slot, text: string, xPct: real, yPct: real, sizePct: real, font: string, color: string,
                page: Dims): (o: Option<Op>)
    ensures o.Some? ==> o.value.slot == slot
  {
    if text == "" then None
    else Some(TextOp(slot, text, page.width * xPct, page.height * yPct, GetFont(font),
                     page.height * sizePct, ColorOr(color), None, Left))
  }

  /** A centred layout entry, drawn with the helper's default width (the entry's own maxWidth is not passed). */
  function Centered(slot: Slot, text: string, e: TextEntry, page: Dims): Option<Op> {
    CenteredOp(slot, text, e.y, e.fontSize, e.font, e.color, DefaultMaxWidth, page)
  }

  function Placed(slot: Slot, text: string, e: PlacedEntry, page: Dims): Option<Op> {
    AtOp(slot, text, e.x, e.y, e.fontSize, e.font, LabelColor, page)
  }

  function SignatureOp(L: Layout, r: Request, page: Dims): (o: Option<Op>)
    ensures o.Some? ==> o.value.slot == SignatureImage
  {
    var url := SignatureUrl(r.data);
    if url == "" then None
    else
      var p := ResolvePath(r.env.paths, url).value;
      if r.env.paths.fileExists(p) then
        Some(ImageOp(SignatureImage, FileImage(p), page.width * L.signatureImg.x, page.height * L.signatureImg.y,
                     page.width * L.signatureImg.w, page.height * L.signatureImg.h, true))
      else None
  }

  function QrSize(L: Layout, page: Dims): real {
    Min(page.width, page.height) * L.qr.size
  }

  /** The QR image: centred horizontally, top edge at 0.82 of the height; the layout's own qr.x and qr.y are not read. */
  function QrOp(L: Layout, payload: string, page: Dims): Op {
    ImageOp(QrCode, QrImage(payload), page.width * 0.5 - QrSize(L, page) / 2.0, page.height * 0.82,
            QrSize(L, page), QrSize(L, page), false)
  }

  /** The command drawn for one layout element, if any. */
  function DrawnAt(L: Layout, r: Request, s: Slot): Option<Op> {
    DrawnOn(L, r, PageOf(r), s)
  }

  /** The command drawn for one layout element on a page of the given size. */
  function DrawnOn(L: Layout, r: Request, page: Dims, s: Slot): (o: Option<Op>)
    ensures o.Some? ==> o.value.slot == s
  {
    var d := r.data;
    match s
    case Background =>
      if BackgroundFound(r)
      then Some(ImageOp(Background, FileImage(BackgroundPath(r).value), 0.0, 0.0, page.width, page.height, false))
      else None
    case Title => Centered(Title, TitleText(d), L.title, page)
    case Organization => Centered(Organization, OrganizationText(d), L.organization, page)
    case PresentedTo => Centered(PresentedTo, L.presentedTo.text, L.presentedTo, page)
    case Recipient => Centered(Recipient, RecipientText(d), L.recipient, page)
    case ForCompletion => Centered(ForCompletion, L.forCompletion.text, L.forCompletion, page)
    case CourseName => Centered(CourseName, CourseText(d), L.courseName, page)
    case Description =>
      if d.description != "" && d.description != CourseText(d)
      then Centered(Description, d.description, L.description, page)
      else None
    case DateLabel => Placed(DateLabel, L.dateLabel.text, L.dateLabel, page)
    case DateValue => Placed(DateValue, DateText(r), L.dateValue, page)
    case SignatureImage => SignatureOp(L, r, page)
    case Signatory => Placed(Signatory, L.signatoryLine.text, L.signatoryLine, page)
    case QrCode => if r.qrUrl != "" then Some(QrOp(L, r.qrUrl, page)) else None
    case CertId => Centered(CertId, "Certificate ID: " + r.certId, L.certId, page)
  }

  function Drawer(L: Layout, r: Request): Slot -> Option<Op> {
    s => DrawnOn(L, r, PageOf(r), s)
  }

  function OptOp(o: Option<Op>): seq<Op> {
    if o.Some? then [o.value] else []
  }

  /** The commands `draw` issues for `slots`, in order. */
  function Collect(draw: Slot -> Option<Op>, slots: seq<Slot>): (ops: seq<Op>)
    ensures |ops| <= |slots|
  {
    if slots == [] then [] else Collect(draw, slots[..|slots| - 1]) + OptOp(draw(slots[|slots| - 1]))
  }

  /** The page `generateCertificatePdf` draws with layout `L`. */
  function RenderWith(L: Layout, r: Request): Page {
    Page(PageOf(r), Collect(Drawer(L, r), SlotOrder))
  }

  function RenderPlan(r: Request): Page {
    RenderWith(StandardLayout, r)
  }

  // ---------------------------------------------------------------------
  // Generic properties of `Collect`
  // ---------------------------------------------------------------------

  predicate HasSlot(ops: seq<Op>, s: Slot) {
    exists i :: 0 <= i < |ops| && ops[i].slot == s
  }

  /** Each command a drawer returns is tagged with the element it was asked for. */
  predicate Tagged(draw: Slot -> Option<Op>) {
    forall s :: draw(s).Some? ==> draw(s).value.slot == s
  }

  predicate AscendingOps(ops: seq<Op>) {
    forall i, j :: 0 <= i < j < |ops| ==> Rank(ops[i].slot) < Rank(ops[j].slot)
  }

  lemma DrawerTagged(L: Layout, r: Request)
    ensures Tagged(Drawer(L, r))
  {
  }

  lemma CollectStep(draw: Slot -> Option<Op>, k: nat)
    requires k < |SlotOrder|
    ensures Collect(draw, SlotOrder[..k + 1]) == Collect(draw, SlotOrder[..k]) + OptOp(draw(SlotOrder[k]))
  {
    assert SlotOrder[..k + 1][..k] == SlotOrder[..k];
  }

  /** Every command of `Collect` is what the drawer returned for one of the slots. */
  lemma {:induction false} CollectFrom(draw: Slot -> Option<Op>, slots: seq<Slot>, i: nat)
    requires i < |Collect(draw, slots)|
    ensures exists k :: 0 <= k < |slots| && draw(slots[k]) == Some(Collect(draw, slots)[i])
    decreases |slots|
  {
    var init := slots[..|slots| - 1];
    if i < |Collect(draw, init)| {
      CollectFrom(draw, init, i);
      var k :| 0 <= k < |init| && draw(init[k]) == Some(Collect(draw, init)[i]);
      assert slots[k] == init[k];
    } else {
      assert draw(slots[|slots| - 1]) == Some(Collect(draw, slots)[i]);
    }
  }

  /** A listed slot has a command exactly when the drawer returns one for it. */
  lemma {:induction false} CollectHas(draw: Slot -> Option<Op>, slots: seq<Slot>, s: Slot)
    requires Tagged(draw) && s in slots
    ensures HasSlot(Collect(draw, slots), s) <==> draw(s).Some?
    decreases |slots|
  {
    var ops := Collect(draw, slots);
    if HasSlot(ops, s) {
      var i :| 0 <= i < |ops| && ops[i].slot == s;
      CollectFrom(draw, slots, i);
    }
    if draw(s).Some? {
      var init := slots[..|slots| - 1];
      if slots[|slots| - 1] == s {
        assert ops[|ops| - 1].slot == s;
      } else {
        assert s in init;
        CollectHas(draw, init, s);
        var i :| 0 <= i < |Collect(draw, init)| && Collect(draw, init)[i].slot == s;
        assert ops[i] == Collect(draw, init)[i];
      }
    }
  }

  /** Commands come out in the order of their slots. */
  lemma {:induction false} CollectAscending(draw: Slot -> Option<Op>, slots: seq<Slot>)
    requires Tagged(draw)
    requires forall i, j :: 0 <= i < j < |slots| ==> Rank(slots[i]) < Rank(slots[j])
    ensures AscendingOps(Collect(draw, slots))
    decreases |slots|
  {
    if slots != [] {
      var init := slots[..|slots| - 1];
      var last := slots[|slots| - 1];
      CollectAscending(draw, init);
      var pre := Collect(draw, init);
      if draw(last).Some? {
        forall i | 0 <= i < |pre| ensures Rank(pre[i].slot) < Rank(last) {
          CollectFrom(draw, init, i);
        }
      }
    }
  }

  /** The element at position i of the drawing order has rank i. */
  lemma SlotOrderRanks()
    ensures |SlotOrder| == 14
    ensures forall i :: 0 <= i < |SlotOrder| ==> Rank(SlotOrder[i]) == i
  {
  }

  // ---------------------------------------------------------------------
  // Properties of the rendered page
  // ---------------------------------------------------------------------

  /** Every command of the page is the one drawn for its element. */
  lemma PlanSlot(L: Layout, r: Request, i: nat)
    requires i < |RenderWith(L, r).ops|
    ensures DrawnAt(L, r, RenderWith(L, r).ops[i].slot) == Some(RenderWith(L, r).ops[i])
  {
    DrawerTagged(L, r);
    CollectFrom(Drawer(L, r), SlotOrder, i);
  }

  /** The page draws the elements in the fixed order of the layout, each at most once. */
  lemma PlanOrdered(L: Layout, r: Request)
    ensures AscendingOps(RenderWith(L, r).ops)
  {
    DrawerTagged(L, r);
    SlotOrderRanks();
    CollectAscending(Drawer(L, r), SlotOrder);
  }

  lemma EverySlotListed(s: Slot)
    ensures s in SlotOrder
  {
    SlotOrderRanks();
    assert SlotOrder[Rank(s)] == s;
  }

  /** An element has a command on the page exactly when it draws one. */
  lemma PlanHas(L: Layout, r: Request, s: Slot)
    ensures HasSlot(RenderWith(L, r).ops, s) <==> DrawnAt(L, r, s).Some?
  {
    DrawerTagged(L, r);
    EverySlotListed(s);
    CollectHas(Drawer(L, r), SlotOrder, s);
  }

  /** The page has the background's native size when it is found and measurable, else 842 x 595. */
  lemma PageSizeRule(L: Layout, r: Request)
    ensures BackgroundFound(r) && r.env.sizeOf(BackgroundPath(r).value).Some? ==>
              RenderWith(L, r).size.width == r.env.sizeOf(BackgroundPath(r).value).value.width as real &&
              RenderWith(L, r).size.height == r.env.sizeOf(BackgroundPath(r).value).value.height as real
    ensures !(BackgroundFound(r) && r.env.sizeOf(BackgroundPath(r).value).Some?) ==> RenderWith(L, r).size == Dims(842.0, 595.0)
    ensures HasSlot(RenderWith(L, r).ops, Background) <==> BackgroundFound(r)
  {
    PlanHas(L, r, Background);
  }

  /** The slots whose text never falls back to empty. */
  predicate AlwaysDrawnSlot(s: Slot) {
    s.Title? || s.Organization? || s.PresentedTo? || s.Recipient? || s.ForCompletion? || s.CourseName?
    || s.DateLabel? || s.Signatory? || s.CertId?
  }

  /** Title, organisation, both boilerplate lines, recipient, course, date label, signatory and id are always drawn. */
  lemma FixedElementsAlwaysDrawn(L: Layout, r: Request, s: Slot)
    requires LayoutOk(L) && AlwaysDrawnSlot(s)
    ensures HasSlot(RenderWith(L, r).ops, s)
  {
    PlanHas(L, r, s);
    match s
    case Title => assert |TitleText(r.data)| > 0;
    case Organization => assert |OrganizationText(r.data)| > 0;
    case _ =>
  }

  /** The description is drawn exactly when it is non-empty and differs from the course line. */
  lemma DescriptionDrawnIff(L: Layout, r: Request)
    ensures HasSlot(RenderWith(L, r).ops, Description) <==>
              r.data.description != "" && r.data.description != CourseText(r.data)
  {
    PlanHas(L, r, Description);
  }

  /** The signature image is drawn exactly when a URL is given and its resolved path exists. */
  lemma SignatureDrawnIff(L: Layout, r: Request)
    ensures HasSlot(RenderWith(L, r).ops, SignatureImage) <==>
              SignatureUrl(r.data) != "" && r.env.paths.fileExists(ResolvePath(r.env.paths, SignatureUrl(r.data)).value)
  {
    PlanHas(L, r, SignatureImage);
  }

  /** The QR code is drawn exactly for a non-empty URL, and whatever QR command the plan holds is `QrOp` of that URL. */
  lemma QrPlacement(L: Layout, r: Request)
    ensures HasSlot(RenderWith(L, r).ops, QrCode) <==> r.qrUrl != ""
    ensures forall i :: 0 <= i < |RenderWith(L, r).ops| && RenderWith(L, r).ops[i].slot == QrCode ==>
              RenderWith(L, r).ops[i] == QrOp(L, r.qrUrl, PageOf(r))
  {
    PlanHas(L, r, QrCode);
    forall i | 0 <= i < |RenderWith(L, r).ops| && RenderWith(L, r).ops[i].slot == QrCode
      ensures RenderWith(L, r).ops[i] == QrOp(L, r.qrUrl, PageOf(r))
    {
      PlanSlot(L, r, i);
    }
  }

  /** Without a title of its own, the certificate is headed "CERTIFICATE OF APPRECIATION". */
  lemma TitleFallback(L: Layout, r: Request)
    requires LayoutOk(L) && r.data.certificateTitle == ""
    ensures DrawnAt(L, r, Title).Some? && DrawnAt(L, r, Title).value.text == DefaultTitle
  {
    DefaultTitleUpper();
    assert DrawnAt(L, r, Title) == Centered(Title, DefaultTitle, L.title, PageOf(r));
  }

  /** Without a recipient name, the student name is drawn in its place. */
  lemma RecipientFallback(L: Layout, r: Request)
    requires r.data.recipientName == "" && r.data.studentName != ""
    ensures DrawnAt(L, r, Recipient).Some? && DrawnAt(L, r, Recipient).value.text == r.data.studentName
  {
    assert DrawnAt(L, r, Recipient) == Centered(Recipient, r.data.studentName, L.recipient, PageOf(r));
  }

  /** Without a course name, the description takes the course line and is then not drawn a second time. */
  lemma CourseFallback(L: Layout, r: Request)
    requires r.data.courseName == "" && r.data.description != ""
    ensures DrawnAt(L, r, CourseName).Some? && DrawnAt(L, r, CourseName).value.text == r.data.description
    ensures !HasSlot(RenderWith(L, r).ops, Description)
  {
    DescriptionDrawnIff(L, r);
    assert DrawnAt(L, r, CourseName) == Centered(CourseName, r.data.description, L.courseName, PageOf(r));
  }

  /** The title and the organisation are drawn upper-cased. */
  lemma HeadingsUpperCased(L: Layout, r: Request)
    ensures DrawnAt(L, r, Title).Some? ==> NoLowerCase(DrawnAt(L, r, Title).value.text)
    ensures DrawnAt(L, r, Organization).Some? ==> NoLowerCase(DrawnAt(L, r, Organization).value.text)
  {
    assert DrawnAt(L, r, Title) == Centered(Title, TitleText(r.data), L.title, PageOf(r));
    assert DrawnAt(L, r, Organization) == Centered(Organization, OrganizationText(r.data), L.organization, PageOf(r));
    UpperNoLowerCase(if r.data.certificateTitle != "" then r.data.certificateTitle else DefaultTitle);
    UpperNoLowerCase(
      if r.data.organizationName != "" then r.data.organizationName
      else if r.data.organization.Some? && r.data.organization.value.organizationName != "" then r.data.organization.value.organizationName
      else "Organization");
  }

  predicate NoLowerCase(s: string) {
    forall i :: 0 <= i < |s| ==> !('a' <= s[i] <= 'z')
  }

  /** The default title is already upper-case, so upper-casing keeps it. */
  lemma DefaultTitleUpper()
    ensures Upper(DefaultTitle) == DefaultTitle
  {
    assert NoLowerCase(DefaultTitle);
    UpperKeepsUpper(DefaultTitle);
  }

  lemma UpperKeepsUpper(s: string)
    requires NoLowerCase(s)
    ensures Upper(s) == s
  {
  }

  lemma UpperNoLowerCase(s: string)
    ensures NoLowerCase(Upper(s))
  {
  }

  /** The QR image carries the payload, is square with side min(w, h) * qr.size, is centred, and has its top at 0.82 h. */
  lemma QrOpShape(L: Layout, payload: string, page: Dims)
    ensures var op := QrOp(L, payload, page);
      && op.ImageOp? && op.source == QrImage(payload) && !op.fit
      && op.w == op.h == Min(page.width, page.height) * L.qr.size
      && op.x + op.w / 2.0 == page.width / 2.0
      && op.y == page.height * 0.82
  {
    var q := QrSize(L, page);
    assert QrOp(L, payload, page).x == page.width * 0.5 - q / 2.0;
  }

  /** The size fraction of each text element. */
  function SizePct(L: Layout, s: Slot): real {
    match s
    case Title => L.title.fontSize
    case Organization => L.organization.fontSize
    case PresentedTo => L.presentedTo.fontSize
    case Recipient => L.recipient.fontSize
    case ForCompletion => L.forCompletion.fontSize
    case CourseName => L.courseName.fontSize
    case Description => L.description.fontSize
    case DateLabel => L.dateLabel.fontSize
    case DateValue => L.dateValue.fontSize
    case Signatory => L.signatoryLine.fontSize
    case CertId => L.certId.fontSize
    case _ => 0.0
  }

  /** A command starts inside the page, and an image also ends inside it. */
  predicate InPage(op: Op, page: Dims) {
    && 0.0 <= op.x <= page.width && 0.0 <= op.y <= page.height
    && (op.ImageOp? ==> 0.0 <= op.w && 0.0 <= op.h && op.x + op.w <= page.width && op.y + op.h <= page.height)
  }

  /** A text command is non-empty and uses a standard font at height * the element's size fraction. */
  predicate TextOk(L: Layout, op: Op, page: Dims) {
    op.TextOp? ==> op.text != "" && op.font in StandardFonts && op.size == page.height * SizePct(L, op.slot)
  }

  /** A centred text fills a box of 0.8 * width whose middle is the middle of the page. */
  predicate CenteredOk(op: Op, page: Dims) {
    op.TextOp? && op.align == Center ==>
      op.boxWidth == Some(page.width * 0.8) && op.x + page.width * 0.8 / 2.0 == page.width / 2.0
  }

  predicate WellPlaced(L: Layout, op: Op, page: Dims) {
    InPage(op, page) && TextOk(L, op, page) && CenteredOk(op, page)
  }

  lemma Scale(a: real, f: real)
    requires a >= 0.0 && 0.0 <= f <= 1.0
    ensures 0.0 <= a * f <= a
  {
  }

  lemma ScaleSum(a: real, f: real, g: real)
    requires a >= 0.0 && 0.0 <= f && 0.0 <= g && f + g <= 1.0
    ensures 0.0 <= a * f && 0.0 <= a * g && a * f + a * g <= a
  {
    assert a * f + a * g == a * (f + g);
    Scale(a, f + g);
    Scale(a, f);
    Scale(a, g);
  }

  /** The arithmetic of a centred box of width w * maxW. */
  lemma CenterBox(w: real)
    requires w >= 0.0
    ensures 0.0 <= w * (1.0 - DefaultMaxWidth) / 2.0 <= w
    ensures w * (1.0 - DefaultMaxWidth) / 2.0 + w * 0.8 / 2.0 == w / 2.0
    ensures w * DefaultMaxWidth == w * 0.8
  {
  }

  lemma PointWithin(x: real, y: real, w: real, h: real, fx: real, fy: real)
    requires w >= 0.0 && h >= 0.0 && Fraction(fx) && Fraction(fy)
    requires x == w * fx && y == h * fy
    ensures 0.0 <= x <= w && 0.0 <= y <= h
  {
    Scale(w, fx);
    Scale(h, fy);
  }

  lemma SpanWithin(x: real, len: real, w: real, fx: real, fl: real)
    requires w >= 0.0 && 0.0 <= fx && 0.0 <= fl && fx + fl <= 1.0
    requires x == w * fx && len == w * fl
    ensures 0.0 <= x <= w && 0.0 <= len && x + len <= w
  {
    ScaleSum(w, fx, fl);
  }

  /** A text command at a fraction of each side starts inside the page. */
  lemma TextInPage(op: Op, page: Dims, fx: real, fy: real)
    requires page.width >= 0.0 && page.height >= 0.0 && Fraction(fx) && Fraction(fy)
    requires op.TextOp? && op.x == page.width * fx && op.y == page.height * fy
    ensures InPage(op, page)
  {
    PointWithin(op.x, op.y, page.width, page.height, fx, fy);
  }

  /** An image command whose box is a fraction of each side, offset by a fraction, lies inside the page. */
  lemma ImageInPage(op: Op, page: Dims, fx: real, fy: real, fw: real, fh: real)
    requires page.width >= 0.0 && page.height >= 0.0
    requires 0.0 <= fx && 0.0 <= fw && fx + fw <= 1.0 && 0.0 <= fy && 0.0 <= fh && fy + fh <= 1.0
    requires op.ImageOp? && op.x == page.width * fx && op.w == page.width * fw
    requires op.y == page.height * fy && op.h == page.height * fh
    ensures InPage(op, page)
  {
    SpanWithin(op.x, op.w, page.width, fx, fw);
    SpanWithin(op.y, op.h, page.height, fy, fh);
  }

  lemma CenteredWellPlaced(L: Layout, slot: Slot, text: string, e: TextEntry, page: Dims)
    requires page.width >= 0.0 && page.height >= 0.0
    requires Fraction(e.y) && e.fontSize == SizePct(L, slot)
    ensures Centered(slot, text, e, page).Some? ==> WellPlaced(L, Centered(slot, text, e, page).value, page)
  {
    if text != "" {
      var op := Centered(slot, text, e, page).value;
      CenterBox(page.width);
      TextInPage(op, page, (1.0 - DefaultMaxWidth) / 2.0, e.y);
      assert TextOk(L, op, page);
      assert CenteredOk(op, page);
    }
  }

  lemma PlacedWellPlaced(L: Layout, slot: Slot, text: string, e: PlacedEntry, page: Dims)
    requires page.width >= 0.0 && page.height >= 0.0
    requires Fraction(e.x) && Fraction(e.y) && e.fontSize == SizePct(L, slot)
    ensures Placed(slot, text, e, page).Some? ==> WellPlaced(L, Placed(slot, text, e, page).value, page)
  {
    if text != "" {
      var op := Placed(slot, text, e, page).value;
      TextInPage(op, page, e.x, e.y);
      assert TextOk(L, op, page);
    }
  }

  lemma SignatureWellPlaced(L: Layout, r: Request, page: Dims)
    requires page.width >= 0.0 && page.height >= 0.0 && LayoutOk(L)
    ensures SignatureOp(L, r, page).Some? ==> WellPlaced(L, SignatureOp(L, r, page).value, page)
  {
    if SignatureOp(L, r, page).Some? {
      var op := SignatureOp(L, r, page).value;
      var B := L.signatureImg;
      ImageInPage(op, page, B.x, B.y, B.w, B.h);
    }
  }

  lemma ScaleMono(a: real, f: real, g: real)
    requires a >= 0.0 && 0.0 <= f <= g
    ensures 0.0 <= a * f <= a * g
  {
    assert a * g - a * f == a * (g - f);
  }

  lemma QrWidthFits(m: real, w: real, f: real)
    requires 0.0 <= m <= w && 0.0 <= f <= 1.0
    ensures 0.0 <= m * f <= w
  {
    Scale(m, f);
  }

  lemma QrHeightFits(m: real, h: real, f: real)
    requires 0.0 <= m <= h && 0.0 <= f <= 0.18
    ensures 0.0 <= h * 0.82 && m * f + h * 0.82 <= h
  {
    ScaleMono(m, f, 0.18);
  }

  /** The arithmetic of the QR placement: centred at half the width, inside the page. */
  lemma QrBox(w: real, h: real, size: real)
    requires w >= 0.0 && h >= 0.0 && 0.0 <= size <= 0.18
    ensures var q := Min(w, h) * size;
      && 0.0 <= q && 0.0 <= w * 0.5 - q / 2.0 && w * 0.5 - q / 2.0 + q <= w
      && 0.0 <= h * 0.82 && h * 0.82 + q <= h
  {
    var m := Min(w, h);
    QrWidthFits(m, w, size);
    QrHeightFits(m, h, size);
  }

  lemma QrWellPlaced(L: Layout, payload: string, page: Dims)
    requires page.width >= 0.0 && page.height >= 0.0 && LayoutOk(L)
    ensures WellPlaced(L, QrOp(L, payload, page), page)
  {
    QrBox(page.width, page.height, L.qr.size);
  }

  lemma PageNonNegative(r: Request)
    ensures PageOf(r).width >= 0.0 && PageOf(r).height >= 0.0
  {
  }

  lemma DrawnAtWellPlaced(L: Layout, r: Request, s: Slot)
    requires LayoutOk(L)
    ensures DrawnAt(L, r, s).Some? ==> WellPlaced(L, DrawnAt(L, r, s).value, PageOf(r))
  {
    PageNonNegative(r);
    var page := PageOf(r);
    var d := r.data;
    match s
    case Background =>
    case Title => CenteredWellPlaced(L, Title, TitleText(d), L.title, page);
    case Organization => CenteredWellPlaced(L, Organization, OrganizationText(d), L.organization, page);
    case PresentedTo => CenteredWellPlaced(L, PresentedTo, L.presentedTo.text, L.presentedTo, page);
    case Recipient => CenteredWellPlaced(L, Recipient, RecipientText(d), L.recipient, page);
    case ForCompletion => CenteredWellPlaced(L, ForCompletion, L.forCompletion.text, L.forCompletion, page);
    case CourseName => CenteredWellPlaced(L, CourseName, CourseText(d), L.courseName, page);
    case Description => CenteredWellPlaced(L, Description, d.description, L.description, page);
    case DateLabel => PlacedWellPlaced(L, DateLabel, L.dateLabel.text, L.dateLabel, page);
    case DateValue => PlacedWellPlaced(L, DateValue, DateText(r), L.dateValue, page);
    case SignatureImage => SignatureWellPlaced(L, r, page);
    case Signatory => PlacedWellPlaced(L, Signatory, L.signatoryLine.text, L.signatoryLine, page);
    case QrCode => QrWellPlaced(L, r.qrUrl, page);
    case CertId => CenteredWellPlaced(L, CertId, "Certificate ID: " + r.certId, L.certId, page);
  }

  /** Every command of the page is well placed (see `WellPlaced`). */
  lemma PlanWellPlaced(L: Layout, r: Request)
    requires LayoutOk(L)
    ensures forall i :: 0 <= i < |RenderWith(L, r).ops| ==> WellPlaced(L, RenderWith(L, r).ops[i], RenderWith(L, r).size)
  {
    forall i | 0 <= i < |RenderWith(L, r).ops| ensures WellPlaced(L, RenderWith(L, r).ops[i], RenderWith(L, r).size) {
      PlanSlot(L, r, i);
      DrawnAtWellPlaced(L, r, RenderWith(L, r).ops[i].slot);
    }
  }

  // ---------------------------------------------------------------------
  // The document and the drawing code
  // ---------------------------------------------------------------------

  /** A PDFKit document: a fixed page size, the current text state and the calls issued so far. */
  class PdfDoc {
    const width: real
    const height: real
    var font: string
    var fontSize: real
    var fillColor: string
    var ops: seq<Op>

    /** `new PDFDocument({ size: [width, height], margin: 0 })`, with PDFKit's initial text state. */
    constructor (size: Dims)
      ensures width == size.width && height == size.height
      ensures font == "Helvetica" && fontSize == 12.0 && fillColor == "black" && ops == []
    {
      width := size.width;
      height := size.height;
      font := "Helvetica";
      fontSize := 12.0;
      fillColor := "black";
      ops := [];
    }

    /** `doc.font(name)`. */
    method SetFont(name: string)
      modifies this
      ensures font == name
      ensures fontSize == old(fontSize) && fillColor == old(fillColor) && ops == old(ops)
    {
      font := name;
    }

    /** `doc.fontSize(size)`. */
    method SetFontSize(size: real)
      modifies this
      ensures fontSize == size
      ensures font == old(font) && fillColor == old(fillColor) && ops == old(ops)
    {
      fontSize := size;
    }

    /** `doc.fillColor(color)`. */
    method SetFillColor(color: string)
      modifies this
      ensures fillColor == color
      ensures font == old(font) && fontSize == old(fontSize) && ops == old(ops)
    {
      fillColor := color;
    }

    /** `doc.text(...)`: one text command in the current font, size and colour. */
    method Text(slot: Slot, text: string, x: real, y: real, boxWidth: Option<real>, align: Align)
      modifies this
      ensures ops == old(ops) + [TextOp(slot, text, x, y, font, fontSize, fillColor, boxWidth, align)]
      ensures font == old(font) && fontSize == old(fontSize) && fillColor == old(fillColor)
    {
      ops := ops + [TextOp(slot, text, x, y, font, fontSize, fillColor, boxWidth, align)];
    }

    /** `doc.image(...)`: one image command; the text state is untouched. */
    method Image(slot: Slot, source: ImageSource, x: real, y: real, w: real, h: real, fit: bool)
      modifies this
      ensures ops == old(ops) + [ImageOp(slot, source, x, y, w, h, fit)]
      ensures font == old(font) && fontSize == old(fontSize) && fillColor == old(fillColor)
    {
      ops := ops + [ImageOp(slot, source, x, y, w, h, fit)];
    }
  }

  /** The `drawCentered` helper: sets the font state, then one centred text, unless the text is empty. */
  method DrawCentered(doc: PdfDoc, page: Dims, slot: Slot, text: string, yPct: real, sizePct: real, font: string,
                      color: string, maxW: real)
    requires page == Dims(doc.width, doc.height)
    modifies doc
    ensures doc.ops == old(doc.ops) + OptOp(CenteredOp(slot, text, yPct, sizePct, font, color, maxW, page))
  {
    if text == "" {
      return;
    }
    var x, y, size, boxWidth := page.width * (1.0 - maxW) / 2.0, page.height * yPct, page.height * sizePct, page.width * maxW;
    doc.SetFont(GetFont(font));
    doc.SetFontSize(size);
    doc.SetFillColor(ColorOr(color));
    doc.Text(slot, text, x, y, Some(boxWidth), Center);
    // The command's coordinates, compared one field at a time.
    var c := CenteredOp(slot, text, yPct, sizePct, font, color, maxW, page).value;
    assert c.x == x && c.y == y && c.size == size && c.boxWidth == Some(boxWidth);
  }

  /** The `drawAt` helper: sets the font state, then one left-aligned text, unless the text is empty. */
  method DrawAt(doc: PdfDoc, page: Dims, slot: Slot, text: string, xPct: real, yPct: real, sizePct: real, font: string,
                color: string)
    requires page == Dims(doc.width, doc.height)
    modifies doc
    ensures doc.ops == old(doc.ops) + OptOp(AtOp(slot, text, xPct, yPct, sizePct, font, color, page))
  {
    if text == "" {
      return;
    }
    var x, y, size := page.width * xPct, page.height * yPct, page.height * sizePct;
    doc.SetFont(GetFont(font));
    doc.SetFontSize(size);
    doc.SetFillColor(ColorOr(color));
    doc.Text(slot, text, x, y, None, Left);
    var c := AtOp(slot, text, xPct, yPct, sizePct, font, color, page).value;
    assert c.x == x && c.y == y && c.size == size;
  }

  /** Draws the background image, stretched over the whole page. */
  method DrawBackground(doc: PdfDoc, page: Dims, L: Layout, r: Request)
    requires page == Dims(doc.width, doc.height)
    modifies doc
    ensures doc.ops == old(doc.ops) + OptOp(DrawnOn(L, r, page, Background))
  {
    var bgPath := ResolvePath(r.env.paths, r.bg.bgImageUrl);
    if bgPath.Some? && r.env.paths.fileExists(bgPath.value) {
      doc.Image(Background, FileImage(bgPath.value), 0.0, 0.0, page.width, page.height, false);
    }
  }

  /** Draws the title, upper-cased, with its default. */
  method DrawTitle(doc: PdfDoc, page: Dims, L: Layout, r: Request)
    requires page == Dims(doc.width, doc.height)
    modifies doc
    ensures doc.ops == old(doc.ops) + OptOp(DrawnOn(L, r, page, Title))
  {
    var d := r.data;
    var titleText := Upper(if d.certificateTitle != "" then d.certificateTitle else DefaultTitle);
    var e := L.title;
    DrawCentered(doc, page, Title, titleText, e.y, e.fontSize, e.font, e.color, DefaultMaxWidth);
  }

  /** Draws the issuing organisation, upper-cased, with its fallbacks. */
  method DrawOrganization(doc: PdfDoc, page: Dims, L: Layout, r: Request)
    requires page == Dims(doc.width, doc.height)
    modifies doc
    ensures doc.ops == old(doc.ops) + OptOp(DrawnOn(L, r, page, Organization))
  {
    var d := r.data;
    var orgName := if d.organizationName != "" then d.organizationName
      else if d.organization.Some? && d.organization.value.organizationName != "" then d.organization.value.organizationName
      else "Organization";
    var e := L.organization;
    DrawCentered(doc, page, Organization, Upper(orgName), e.y, e.fontSize, e.font, e.color, DefaultMaxWidth);
  }

  /** Draws the fixed "presented to" line. */
  method DrawPresentedTo(doc: PdfDoc, page: Dims, L: Layout, r: Request)
    requires page == Dims(doc.width, doc.height)
    modifies doc
    ensures doc.ops == old(doc.ops) + OptOp(DrawnOn(L, r, page, PresentedTo))
  {
    var e := L.presentedTo;
    DrawCentered(doc, page, PresentedTo, e.text, e.y, e.fontSize, e.font, e.color, DefaultMaxWidth);
  }

  /** Draws the recipient's name, with its fallbacks. */
  method DrawRecipient(doc: PdfDoc, page: Dims, L: Layout, r: Request)
    requires page == Dims(doc.width, doc.height)
    modifies doc
    ensures doc.ops == old(doc.ops) + OptOp(DrawnOn(L, r, page, Recipient))
  {
    var d := r.data;
    var recipient := if d.recipientName != "" then d.recipientName
      else if d.studentName != "" then d.studentName
      else "Recipient Name";
    var e := L.recipient;
    DrawCentered(doc, page, Recipient, recipient, e.y, e.fontSize, e.font, e.color, DefaultMaxWidth);
  }

  /** Draws the fixed "for completing" line. */
  method DrawForCompletion(doc: PdfDoc, page: Dims, L: Layout, r: Request)
    requires page == Dims(doc.width, doc.height)
    modifies doc
    ensures doc.ops == old(doc.ops) + OptOp(DrawnOn(L, r, page, ForCompletion))
  {
    var e := L.forCompletion;
    DrawCentered(doc, page, ForCompletion, e.text, e.y, e.fontSize, e.font, e.color, DefaultMaxWidth);
  }

  /** Draws the course name, with its fallbacks. */
  method DrawCourseName(doc: PdfDoc, page: Dims, L: Layout, r: Request)
    requires page == Dims(doc.width, doc.height)
    modifies doc
    ensures doc.ops == old(doc.ops) + OptOp(DrawnOn(L, r, page, CourseName))
  {
    var d := r.data;
    var course := if d.courseName != "" then d.courseName
      else if d.description != "" then d.description
      else "Course Name";
    var e := L.courseName;
    DrawCentered(doc, page, CourseName, course, e.y, e.fontSize, e.font, e.color, DefaultMaxWidth);
  }

  /** Draws the description, when it adds something to the course line. */
  method DrawDescription(doc: PdfDoc, page: Dims, L: Layout, r: Request)
    requires page == Dims(doc.width, doc.height)
    modifies doc
    ensures doc.ops == old(doc.ops) + OptOp(DrawnOn(L, r, page, Description))
  {
    var d := r.data;
    var course := if d.courseName != "" then d.courseName
      else if d.description != "" then d.description
      else "Course Name";
    if d.description != "" && d.description != course {
      var e := L.description;
      DrawCentered(doc, page, Description, d.description, e.y, e.fontSize, e.font, e.color, DefaultMaxWidth);
    }
  }

  /** Draws the date label. */
  method DrawDateLabel(doc: PdfDoc, page: Dims, L: Layout, r: Request)
    requires page == Dims(doc.width, doc.height)
    modifies doc
    ensures doc.ops == old(doc.ops) + OptOp(DrawnOn(L, r, page, DateLabel))
  {
    var e := L.dateLabel;
    DrawAt(doc, page, DateLabel, e.text, e.x, e.y, e.fontSize, e.font, LabelColor);
  }

  /** Draws the issue date, or today, in the locale format. */
  method DrawDateValue(doc: PdfDoc, page: Dims, L: Layout, r: Request)
    requires page == Dims(doc.width, doc.height)
    modifies doc
    ensures doc.ops == old(doc.ops) + OptOp(DrawnOn(L, r, page, DateValue))
  {
    var d := r.data;
    var dateVal := if d.issueDate != "" then r.env.formatDate(d.issueDate) else r.env.today;
    var e := L.dateValue;
    DrawAt(doc, page, DateValue, dateVal, e.x, e.y, e.fontSize, e.font, LabelColor);
  }

  /** Draws the signature image, when one is given and found. */
  method DrawSignature(doc: PdfDoc, page: Dims, L: Layout, r: Request)
    requires page == Dims(doc.width, doc.height)
    modifies doc
    ensures doc.ops == old(doc.ops) + OptOp(DrawnOn(L, r, page, SignatureImage))
  {
    var sigUrl := SignatureUrl(r.data);
    if sigUrl != "" {
      var sigPath := ResolvePath(r.env.paths, sigUrl).value;
      if r.env.paths.fileExists(sigPath) {
        var B := L.signatureImg;
        var sW, sH := page.width * B.w, page.height * B.h;
        var x, y := page.width * B.x, page.height * B.y;
        doc.Image(SignatureImage, FileImage(sigPath), x, y, sW, sH, true);
        var c := SignatureOp(L, r, page).value;
        assert c.x == x && c.y == y && c.w == sW && c.h == sH && c.source == FileImage(sigPath);
      }
    }
  }

  /** Draws the signatory line under the signature. */
  method DrawSignatory(doc: PdfDoc, page: Dims, L: Layout, r: Request)
    requires page == Dims(doc.width, doc.height)
    modifies doc
    ensures doc.ops == old(doc.ops) + OptOp(DrawnOn(L, r, page, Signatory))
  {
    var e := L.signatoryLine;
    DrawAt(doc, page, Signatory, e.text, e.x, e.y, e.fontSize, e.font, LabelColor);
  }

  /** Draws the verification QR code, when a URL is given. */
  method DrawQrCode(doc: PdfDoc, page: Dims, L: Layout, r: Request)
    requires page == Dims(doc.width, doc.height)
    modifies doc
    ensures doc.ops == old(doc.ops) + OptOp(DrawnOn(L, r, page, QrCode))
  {
    if r.qrUrl != "" {
      var qrSize := Min(page.width, page.height) * L.qr.size;
      var qX := page.width * 0.5 - qrSize / 2.0;
      doc.Image(QrCode, QrImage(r.qrUrl), qX, page.height * 0.82, qrSize, qrSize, false);
      assert qrSize == QrSize(L, page);
    }
  }

  /** Draws the certificate id at the foot of the page. */
  method DrawCertId(doc: PdfDoc, page: Dims, L: Layout, r: Request)
    requires page == Dims(doc.width, doc.height)
    modifies doc
    ensures doc.ops == old(doc.ops) + OptOp(DrawnOn(L, r, page, CertId))
  {
    var e := L.certId;
    DrawCentered(doc, page, CertId, "Certificate ID: " + r.certId, e.y, e.fontSize, e.font, e.color, DefaultMaxWidth);
  }

  /** All commands in drawing order, written out element by element. */
  function AllOps(draw: Slot -> Option<Op>): seq<Op> {
    [] + OptOp(draw(Background)) + OptOp(draw(Title)) + OptOp(draw(Organization)) + OptOp(draw(PresentedTo))
    + OptOp(draw(Recipient)) + OptOp(draw(ForCompletion)) + OptOp(draw(CourseName)) + OptOp(draw(Description))
    + OptOp(draw(DateLabel)) + OptOp(draw(DateValue)) + OptOp(draw(SignatureImage)) + OptOp(draw(Signatory))
    + OptOp(draw(QrCode)) + OptOp(draw(CertId))
  }

  lemma {:induction false} CollectAll(draw: Slot -> Option<Op>)
    ensures Collect(draw, SlotOrder) == AllOps(draw)
  {
    assert SlotOrder[..0] == [];
    CollectStep(draw, 0);
    CollectStep(draw, 1);
    CollectStep(draw, 2);
    CollectStep(draw, 3);
    CollectStep(draw, 4);
    CollectStep(draw, 5);
    CollectStep(draw, 6);
    CollectStep(draw, 7);
    CollectStep(draw, 8);
    CollectStep(draw, 9);
    CollectStep(draw, 10);
    CollectStep(draw, 11);
    CollectStep(draw, 12);
    CollectStep(draw, 13);
    assert SlotOrder[..14] == SlotOrder;
  }

  /** The page size: the background's own size when it exists and can be measured, else A4 landscape. */
  method PageSize(r: Request) returns (page: Dims)
    ensures page == PageOf(r)
  {
    var env := r.env;
    var bgPath := ResolvePath(env.paths, r.bg.bgImageUrl);
    var width, height := 842.0, 595.0;
    if bgPath.Some? && env.paths.fileExists(bgPath.value) {
      var dims := env.sizeOf(bgPath.value);
      if dims.Some? {
        width, height := dims.value.width as real, dims.value.height as real;
      }
    }
    page := Dims(width, height);
  }

  /**
   * `generateCertificatePdf`: sizes the page from the background, then draws
   * every element of STANDARD_LAYOUT in order. The result is exactly the
   * render plan, so every lemma about `RenderWith` holds of what it draws.
   */
  method GenerateCertificatePdf(r: Request) returns (result: Page)
    ensures result == RenderPlan(r)
  {
    var page := PageSize(r);
    var doc := new PdfDoc(page);
    var L := StandardLayout;
    DrawBackground(doc, page, L, r);
    DrawTitle(doc, page, L, r);
    DrawOrganization(doc, page, L, r);
    DrawPresentedTo(doc, page, L, r);
    DrawRecipient(doc, page, L, r);
    DrawForCompletion(doc, page, L, r);
    DrawCourseName(doc, page, L, r);
    DrawDescription(doc, page, L, r);
    DrawDateLabel(doc, page, L, r);
    DrawDateValue(doc, page, L, r);
    DrawSignature(doc, page, L, r);
    DrawSignatory(doc, page, L, r);
    DrawQrCode(doc, page, L, r);
    DrawCertId(doc, page, L, r);
    CollectAll(Drawer(L, r));

    result := Page(page, doc.ops);
  }
}

=== FILE: purchase_routes.dfy ===
/**
 * The purchase read routes: `/history/:userId`, a user's purchases newest
 * first, and `/details/:purchaseId`, one purchase. Both trim the path
 * parameter and accept it only as a 24-digit hexadecimal ObjectId.
 */
module PurchaseRoutes {
  import opened Wrappers
  import opened Text
  import opened Seqs
  import opened Records

  /**
   * The id a path parameter names: the trimmed parameter when it is an
   * ObjectId, in the lower-case form stored ids take (an ObjectId is cast
   * from hex without regard to case); None when it is malformed.
   */
  function ParseId(param: string): (id: Option<string>)
    ensures id.Some? <==> IsObjectId(Trim(param))
    ensures id.Some? ==> id.value == Lower(Trim(param)) && IsObjectId(id.value)
  {
    var t := Trim(param);
    if IsObjectId(t) then Some(Lower(t)) else None
  }

  /** White space around a well-formed id is ignored, and case does not matter. */
  lemma ParseIdPadded(pre: string, s: string, post: string)
    requires AllSpace(pre) && AllSpace(post) && IsObjectId(s)
    ensures ParseId(pre + s + post) == Some(Lower(s))
  {
    assert !IsSpace(s[0]) && !IsSpace(s[|s| - 1]);
    TrimPadded(pre, s, post);
  }

  /** Ids of other lengths or with a non-hex character are refused. */
  lemma ParseIdRejects(s: string)
    requires Trim(s) == s
    requires |s| != 24 || exists i :: 0 <= i < |s| && !IsHexDigit(s[i])
    ensures ParseId(s).None?
  {
  }

  // ---------------------------------------------------------------------
  // history
  // ---------------------------------------------------------------------

  /** `s` is in non-increasing order of `key`. */
  predicate Descending<T>(s: seq<T>, key: T -> int) {
    forall i, j :: 0 <= i < j < |s| ==> key(s[i]) >= key(s[j])
  }

  function CreatedAt(p: Purchase): int {
    p.createdAt
  }

  /** Newest first by `createdAt`. */
  predicate NewestFirst(s: seq<Purchase>) {
    Descending(s, CreatedAt)
  }

  /** The query `{ userId }` as a test on one purchase. */
  function Owner(userId: string): Purchase -> bool {
    (p: Purchase) => p.userId == userId
  }

  /** The purchases of one user, in stored order (`Purchase.find({ userId })`). */
  function OfUser(docs: seq<Purchase>, userId: string): (r: seq<Purchase>)
    ensures forall p :: p in r <==> p in docs && p.userId == userId
    ensures |r| <= |docs|
  {
    KeepIf(docs, Owner(userId))
  }

  /** Puts `x` into a descending list after every element whose key is larger. */
  function Insert<T>(x: T, s: seq<T>, key: T -> int): (r: seq<T>)
    requires Descending(s, key)
    ensures Descending(r, key) && |r| == |s| + 1
    ensures r[0] == x || (s != [] && r[0] == s[0])
  {
    if s == [] || key(x) >= key(s[0]) then [x] + s
    else [s[0]] + Insert(x, s[1..], key)
  }

  lemma {:induction false} InsertPermutes<T>(x: T, s: seq<T>, key: T -> int)
    requires Descending(s, key)
    ensures multiset(Insert(x, s, key)) == multiset(s) + multiset{x}
    decreases |s|
  {
    if s != [] && key(x) < key(s[0]) {
      InsertPermutes(x, s[1..], key);
      assert s == [s[0]] + s[1..];
    }
  }

  /** A stable sort into descending order of `key`. */
  function SortDescending<T>(s: seq<T>, key: T -> int): (r: seq<T>)
    ensures Descending(r, key) && |r| == |s|
  {
    if s == [] then [] else Insert(s[0], SortDescending(s[1..], key), key)
  }

  lemma {:induction false} SortPermutes<T>(s: seq<T>, key: T -> int)
    ensures multiset(SortDescending(s, key)) == multiset(s)
    decreases |s|
  {
    if s != [] {
      SortPermutes(s[1..], key);
      InsertPermutes(s[0], SortDescending(s[1..], key), key);
      assert s == [s[0]] + s[1..];
    }
  }

  datatype HistoryReply = HistoryRejected(rejection: Rejection) | HistoryFound(history: seq<Purchase>)

  /** `GET /history/:userId` over the collection `docs` in stored order. */
  function History(docs: seq<Purchase>, userIdParam: string): HistoryReply {
    var id := ParseId(userIdParam);
    if id.None? then HistoryRejected(Rejection(400, "Invalid userId format"))
    else HistoryFound(SortDescending(OfUser(docs, id.value), CreatedAt))
  }

  /**
   * A well-formed id gets exactly that user's purchases, each as often as it
   * is stored, newest first; a malformed one gets 400.
   */
  lemma HistoryContents(docs: seq<Purchase>, userIdParam: string)
    ensures History(docs, userIdParam).HistoryRejected? <==> !IsObjectId(Trim(userIdParam))
    ensures History(docs, userIdParam).HistoryFound? ==>
      var h := History(docs, userIdParam).history;
      var id := Lower(Trim(userIdParam));
      && NewestFirst(h)
      && multiset(h) == multiset(OfUser(docs, id))
      && (forall p :: p in h <==> p in docs && p.userId == id)
      && (forall p: Purchase :: multiset(h)[p] == if p.userId == id then multiset(docs)[p] else 0)
  {
    var id := ParseId(userIdParam);
    if id.Some? {
      var o := OfUser(docs, id.value);
      var h := SortDescending(o, CreatedAt);
      SortPermutes(o, CreatedAt);
      assert History(docs, userIdParam).history == h;
      forall p: Purchase
        ensures multiset(h)[p] == if p.userId == id.value then multiset(docs)[p] else 0
      {
        KeepIfCounts(docs, Owner(id.value), p);
      }
      forall p
        ensures p in h <==> p in o
      {
        assert p in h <==> p in multiset(h);
        assert p in o <==> p in multiset(o);
      }
    }
  }

  // ---------------------------------------------------------------------
  // details
  // ---------------------------------------------------------------------

  datatype DetailsReply = DetailsRejected(rejection: Rejection) | DetailsFound(purchase: Purchase)

  /** `GET /details/:purchaseId`. */
  function Details(purchases: map<string, Purchase>, purchaseIdParam: string): DetailsReply {
    var id := ParseId(purchaseIdParam);
    if id.None? then DetailsRejected(Rejection(400, "Invalid purchaseId format"))
    else if id.value !in purchases then DetailsRejected(Rejection(404, "Purchase not found"))
    else DetailsFound(purchases[id.value])
  }

  /** 400 for a malformed id, 404 for a well-formed unknown one, else the stored record. */
  lemma DetailsOutcome(purchases: map<string, Purchase>, param: string)
    ensures (Details(purchases, param) == DetailsRejected(Rejection(400, "Invalid purchaseId format")))
              <==> !IsObjectId(Trim(param))
    ensures (Details(purchases, param) == DetailsRejected(Rejection(404, "Purchase not found")))
              <==> IsObjectId(Trim(param)) && Lower(Trim(param)) !in purchases
    ensures Details(purchases, param).DetailsFound? ==>
              Lower(Trim(param)) in purchases && Details(purchases, param).purchase == purchases[Lower(Trim(param))]
  {
  }
}

=== FILE: radix.dfy ===
/**
 * `Number.prototype.toString(radix)` on non-negative integers (ECMA-262,
 * Number::toString): digits 0-9 then lower-case a-z, most significant first,
 * no leading zeros. Used with radix 36 for `Date.now().toString(36)` and with
 * the default radix 10 for `Date.now().toString()` and `${Date.now()}`.
 */
module Radix {

  /** A radix `Number.prototype.toString` accepts. */
  predicate ValidRadix(radix: nat) {
    2 <= radix <= 36
  }

  /** The character for digit value `d`. */
  function DigitChar(d: nat): (c: char)
    requires d < 36
    ensures ('0' <= c <= '9') || ('a' <= c <= 'z')
  {
    if d < 10 then ('0' as int + d) as char else ('a' as int + d - 10) as char
  }

  /** `c` is a digit of `radix`. */
  predicate IsDigit(c: char, radix: nat) {
    (('0' <= c <= '9') && c as int - '0' as int < radix) || (('a' <= c <= 'z') && c as int - 'a' as int + 10 < radix)
  }

  function DigitValue(c: char, radix: nat): (d: nat)
    requires IsDigit(c, radix)
    ensures d < radix && d < 36 && DigitChar(d) == c
  {
    if c <= '9' then c as int - '0' as int else c as int - 'a' as int + 10
  }

  lemma DigitRoundTrip(d: nat, radix: nat)
    requires d < radix <= 36
    ensures IsDigit(DigitChar(d), radix) && DigitValue(DigitChar(d), radix) == d
  {
  }

  predicate IsNumeral(s: string, radix: nat) {
    forall i :: 0 <= i < |s| ==> IsDigit(s[i], radix)
  }

  /** A canonical numeral: non-empty, and "0" is the only one that starts with '0'. */
  predicate Canonical(s: string, radix: nat) {
    IsNumeral(s, radix) && |s| >= 1 && (s[0] == '0' ==> s == "0")
  }

  /** `n.toString(radix)`. */
  function ToRadix(n: nat, radix: nat): (r: string)
    requires ValidRadix(radix)
    ensures Canonical(r, radix)
    decreases n
  {
    if n < radix then
      DigitRoundTrip(n, radix);
      [DigitChar(n)]
    else
      var p := ToRadix(n / radix, radix);
      assert p[0] != '0';
      DigitRoundTrip(n % radix, radix);
      p + [DigitChar(n % radix)]
  }

  /** The value a numeral denotes (what `parseInt(s, radix)` returns for one). */
  function FromRadix(s: string, radix: nat): nat
    requires IsNumeral(s, radix)
  {
    if s == [] then 0 else FromRadix(s[..|s| - 1], radix) * radix + DigitValue(s[|s| - 1], radix)
  }

  /** Decoding an encoded number gives the number back. */
  lemma {:induction false} DecodeEncode(n: nat, radix: nat)
    requires ValidRadix(radix)
    ensures FromRadix(ToRadix(n, radix), radix) == n
    decreases n
  {
    var r := ToRadix(n, radix);
    if n < radix {
      DigitRoundTrip(n, radix);
    } else {
      var q, d := n / radix, n % radix;
      Euclid(n, radix);
      DecodeEncode(q, radix);
      var p := ToRadix(q, radix);
      Unfold(n, radix);
      assert r[..|r| - 1] == p;
      DigitRoundTrip(d, radix);
      assert FromRadix(r, radix) == FromRadix(p, radix) * radix + d;
    }
  }

  /** The quotient and remainder recompose `n`, and the quotient is smaller. */
  lemma Euclid(n: nat, radix: nat)
    requires ValidRadix(radix) && n >= radix
    ensures (n / radix) * radix + n % radix == n
    ensures n / radix < n
  {
    var q := n / radix;
    MulMono(2, radix, q);
    assert radix * q == q * radix;
  }

  lemma Unfold(n: nat, radix: nat)
    requires ValidRadix(radix) && n >= radix
    ensures ToRadix(n, radix) == ToRadix(n / radix, radix) + [DigitChar(n % radix)]
  {
  }

  /** A canonical numeral that does not start with '0' denotes a positive number. */
  lemma {:induction false} LeadingDigitPositive(s: string, radix: nat)
    requires ValidRadix(radix) && Canonical(s, radix) && s[0] != '0'
    ensures FromRadix(s, radix) > 0
    decreases |s|
  {
    if |s| > 1 {
      LeadingDigitPositive(s[..|s| - 1], radix);
      MulMono(1, FromRadix(s[..|s| - 1], radix), radix);
    }
  }

  /** Every canonical numeral is the encoding of the number it denotes. */
  lemma {:induction false} EncodeDecode(s: string, radix: nat)
    requires ValidRadix(radix) && Canonical(s, radix)
    ensures ToRadix(FromRadix(s, radix), radix) == s
    decreases |s|
  {
    var n := FromRadix(s, radix);
    var d := DigitValue(s[|s| - 1], radix);
    if |s| > 1 {
      var p := s[..|s| - 1];
      LeadingDigitPositive(p, radix);
      EncodeDecode(p, radix);
      DivMod(FromRadix(p, radix), d, radix);
      assert n >= radix;
      assert s == p + [s[|s| - 1]];
    } else {
      assert s == [s[0]];
    }
  }

  /** Euclidean division undoes `q * radix + d` for a digit `d`. */
  lemma DivMod(q: nat, d: nat, radix: nat)
    requires d < radix
    ensures (q * radix + d) / radix == q && (q * radix + d) % radix == d
    ensures q > 0 ==> q * radix + d >= radix
  {
    var n := q * radix + d;
    var Q, D := n / radix, n % radix;
    assert Q * radix + D == n;
    if Q > q {
      MulMono(q + 1, Q, radix);
    } else if Q < q {
      MulMono(Q + 1, q, radix);
    }
    if q > 0 {
      MulMono(1, q, radix);
    }
  }

  lemma MulMono(a: int, b: int, k: nat)
    requires a <= b
    ensures a * k <= b * k
  {
    assert b * k - a * k == (b - a) * k;
  }

  /** Distinct numbers give distinct numerals. */
  lemma ToRadixInjective(m: nat, n: nat, radix: nat)
    requires ValidRadix(radix) && ToRadix(m, radix) == ToRadix(n, radix)
    ensures m == n
  {
    DecodeEncode(m, radix);
    DecodeEncode(n, radix);
  }

  /** `n.toString(36)`. */
  function ToBase36(n: nat): (r: string)
    ensures Canonical(r, 36) && FromRadix(r, 36) == n
  {
    DecodeEncode(n, 36);
    ToRadix(n, 36)
  }

  /** `String(n)`: the decimal numeral. */
  function ToDecimal(n: nat): (r: string)
    ensures Canonical(r, 10) && FromRadix(r, 10) == n
    ensures forall i :: 0 <= i < |r| ==> '0' <= r[i] <= '9'
  {
    DecodeEncode(n, 10);
    ToRadix(n, 10)
  }
}

=== FILE: records.dfy ===
/**
 * The persisted records: the Purchase schema with its enums, defaults and
 * required fields, and records holding the schema paths of Template, User,
 * Certificate, SubscriptionPlan and ValidOrganization that the core reads.
 * A hydrated document exposes only its schema's paths, so a field the code
 * reads that no schema declares is always `undefined` and has no place here.
 */
module Records {
  import opened Wrappers
  import opened Text

  /** `process.env.FILE_STORAGE_PATH || "uploads"`: where uploads and certificates are stored. */
  function StorageRoot(storagePath: string): (root: string)
    ensures root != ""
    ensures storagePath != "" ==> root == storagePath
  {
    if storagePath == "" then "uploads" else storagePath
  }

  // ---------------------------------------------------------------------
  // JSON-like values (Mongoose `Mixed`, request bodies)
  // ---------------------------------------------------------------------

  datatype Json = JStr(s: string) | JNum(n: real) | JBool(b: bool) | JNull

  /** A flat JSON object: absent keys are `undefined`. */
  type Bag = map<string, Json>

  /** JavaScript truthiness of a value (NaN is not modelled). */
  predicate Truthy(v: Json) {
    match v
    case JStr(s) => s != ""
    case JNum(n) => n != 0.0
    case JBool(b) => b
    case JNull => false
  }

  /**
   * `bag[key] || fallback` for a text field holding a string or a falsy
   * value. A truthy number or boolean, which `||` would keep, is read here as
   * absent.
   */
  function TextOr(bag: Bag, key: string, fallback: string): (r: string)
    ensures key in bag && bag[key].JStr? && bag[key].s != "" ==> r == bag[key].s
    ensures !(key in bag && bag[key].JStr? && bag[key].s != "") ==> r == fallback
  {
    if key in bag && bag[key].JStr? && bag[key].s != "" then bag[key].s else fallback
  }

  /** The stored `metadata` of a purchase: absent, an object, or a string holding JSON. */
  datatype Metadata = NoMetadata | ObjectMeta(bag: Bag) | StringMeta(text: string)

  /**
   * What `JSON.parse` makes of a string: an object, `null`, some other value
   * (a number, boolean, string or array, none of which has the named fields
   * the routes read), or a SyntaxError.
   */
  datatype Parsed = ParsedObject(bag: Bag) | ParsedNull | ParsedOther | NotJson

  // ---------------------------------------------------------------------
  // Purchase
  // ---------------------------------------------------------------------

  datatype PurchaseType = TemplatePurchase | CertificatePurchase | SubscriptionPurchase | BulkCertificatePurchase

  function PurchaseTypeName(t: PurchaseType): string {
    match t
    case TemplatePurchase => "template"
    case CertificatePurchase => "certificate"
    case SubscriptionPurchase => "subscription"
    case BulkCertificatePurchase => "bulk_certificate"
  }

  /** The `enum` validator of `purchaseType`: exactly the four names are accepted. */
  function ParsePurchaseType(s: string): (r: Option<PurchaseType>)
    ensures r.Some? ==> PurchaseTypeName(r.value) == s
    ensures r.None? ==> forall t :: PurchaseTypeName(t) != s
  {
    if s == "template" then Some(TemplatePurchase)
    else if s == "certificate" then Some(CertificatePurchase)
    else if s == "subscription" then Some(SubscriptionPurchase)
    else if s == "bulk_certificate" then Some(BulkCertificatePurchase)
    else None
  }

  datatype PurchaseStatus = Created | Success | Failed

  function StatusName(s: PurchaseStatus): string {
    match s
    case Created => "created"
    case Success => "success"
    case Failed => "failed"
  }

  /** The `enum` validator of `status`. */
  function ParseStatus(s: string): (r: Option<PurchaseStatus>)
    ensures r.Some? ==> StatusName(r.value) == s
    ensures r.None? ==> forall t :: StatusName(t) != s
  {
    if s == "created" then Some(Created)
    else if s == "success" then Some(Success)
    else if s == "failed" then Some(Failed)
    else None
  }

  datatype Purchase = Purchase(
    userId: string,
    templateId: Option<string>,
    planId: Option<string>,
    razorpayOrderId: string,
    paymentId: Option<string>,
    amount: real,
    purchaseType: PurchaseType,
    status: PurchaseStatus,
    used: bool,
    metadata: Metadata,
    createdAt: nat)

  /** The fields a caller hands to `Purchase.create`; `None` is an omitted field. */
  datatype PurchaseDraft = PurchaseDraft(
    userId: Option<string>,
    templateId: Option<string>,
    planId: Option<string>,
    razorpayOrderId: Option<string>,
    amount: Option<real>,
    purchaseType: Option<string>,
    status: Option<string>,
    metadata: Metadata)

  /**
   * What `Purchase.create` accepts: the required paths are present, the
   * enums match, and the three `ObjectId` paths cast (a value that does not
   * is a ValidationError).
   */
  predicate DraftValid(d: PurchaseDraft) {
    && d.userId.Some? && IsObjectId(d.userId.value)
    && (d.templateId.Some? ==> IsObjectId(d.templateId.value))
    && (d.planId.Some? ==> IsObjectId(d.planId.value))
    && d.razorpayOrderId.Some? && d.razorpayOrderId.value != ""
    && d.amount.Some?
    && d.purchaseType.Some? && ParsePurchaseType(d.purchaseType.value).Some?
    && (d.status.Some? ==> ParseStatus(d.status.value).Some?)
  }

  /**
   * `Purchase.create`: required fields (userId, razorpayOrderId, amount,
   * purchaseType) must be present, enums must match, the ids must be
   * ObjectIds, `status` defaults to
   * created, `used` to false, and `createdAt` is the creation time.
   */
  function CreatePurchase(d: PurchaseDraft, now: nat): (r: Result<Purchase, string>)
    ensures r.Ok? <==> DraftValid(d)
    ensures r.Ok? ==> && !r.value.used
                      && r.value.paymentId.None?
                      && r.value.createdAt == now
                      && PurchaseTypeName(r.value.purchaseType) == d.purchaseType.value
                      && r.value.status == (if d.status.None? then Created else ParseStatus(d.status.value).value)
                      && r.value.userId == d.userId.value
                      && r.value.razorpayOrderId == d.razorpayOrderId.value
                      && r.value.templateId == d.templateId
                      && r.value.planId == d.planId
                      && r.value.amount == d.amount.value
                      && r.value.metadata == d.metadata
  {
    if !DraftValid(d) then Err("ValidationError")
    else Ok(Purchase(
      d.userId.value, d.templateId, d.planId, d.razorpayOrderId.value, None, d.amount.value,
      ParsePurchaseType(d.purchaseType.value).value,
      if d.status.None? then Created else ParseStatus(d.status.value).value,
      false, d.metadata, now))
  }

  // ---------------------------------------------------------------------
  // Fixed-canvas layouts stored in Template.fields
  // ---------------------------------------------------------------------

  datatype TextStyle = TextStyle(
    x: int, y: int, fontFamily: string, fontSize: int, fontWeight: string,
    align: string, color: string, maxWidth: Option<int>)

  /** `caption` is the source's `label` (a reserved word in Dafny). */
  datatype SignatureBox = SignatureBox(x: int, y: int, width: int, height: int, caption: string)

  datatype QrBox = QrBox(x: int, y: int, size: int)

  datatype CanvasLayout = CanvasLayout(
    canvasW: int, canvasH: int,
    title: TextStyle, subtitle: TextStyle, recipientName: TextStyle,
    description: TextStyle, date: TextStyle,
    signatures: seq<SignatureBox>, qr: QrBox)

  // ---------------------------------------------------------------------
  // Other records
  // ---------------------------------------------------------------------

  datatype Template = Template(
    id: string, name: string, description: string,
    bgImageUrl: string,
    templateType: string, price: real,
    fields: seq<CanvasLayout>, qr: QrBox, createdAt: nat)

  datatype Subscription = Subscription(planId: string, startDate: int, endDate: int, paymentId: Option<string>)

  /** "" stands for an absent `passwordHash` (a record stored before the field was required). */
  datatype User = User(
    id: string, organizationName: string, email: string,
    passwordHash: string,
    issuerCode: string, verified: bool, signatureUrl: string, role: string,
    subscription: Option<Subscription>)

  /**
   * The paths User.js marks required are present: `save()` rejects a user
   * whose organisation name, email, password hash or issuer code is missing
   * (a required string is missing when it is empty).
   */
  predicate UserComplete(u: User) {
    u.organizationName != "" && u.email != "" && u.passwordHash != "" && u.issuerCode != ""
  }

  datatype Certificate = Certificate(
    certificateId: string, userId: Option<string>, templateId: Option<string>,
    pdfUrl: string, qrCodeData: string, paymentId: Option<string>,
    generatedAt: int, studentName: string, courseName: string, issueDate: string)

  /** The schema marks `studentName` and `courseName` required: empty strings fail validation. */
  predicate CertificateValid(c: Certificate) {
    c.studentName != "" && c.courseName != ""
  }

  datatype SubscriptionPlan = SubscriptionPlan(id: string, name: string, durationDays: int, price: real)

  datatype ValidOrganization = ValidOrganization(organizationName: string, issuerCode: string)

  /** An early `res.status(status).json(...)` reply; `error` is its message text. */
  datatype Rejection = Rejection(status: nat, error: string)

  /**
   * The decoded token payload a route sees as `req.user`. Tokens issued at
   * login carry `id`, `role` and `organizationName` only, so `issuerCode`
   * is None for them.
   */
  datatype Claims = Claims(id: string, role: string, organizationName: string, issuerCode: Option<string>)
}

=== FILE: seqs.dfy ===
/**
 * `Array.prototype.filter`, which the CSV upload applies to its lines and
 * the certificate list page to its cards.
 */
module Seqs {

  /** `xs.filter(keep)`: the elements that pass, in order. */
  function KeepIf<T(==,!new)>(xs: seq<T>, keep: T -> bool): (r: seq<T>)
    ensures |r| <= |xs|
    ensures forall x :: x in r <==> x in xs && keep(x)
  {
    if xs == [] then []
    else (if keep(xs[0]) then [xs[0]] else []) + KeepIf(xs[1..], keep)
  }

  /** Filtering a concatenation filters each part: what is kept stays in order. */
  lemma {:induction false} KeepIfSplits<T(!new)>(a: seq<T>, b: seq<T>, keep: T -> bool)
    ensures KeepIf(a + b, keep) == KeepIf(a, keep) + KeepIf(b, keep)
    decreases |a|
  {
    if a == [] {
      assert a + b == b;
    } else {
      KeepIfSplits(a[1..], b, keep);
      var h := if keep(a[0]) then [a[0]] else [];
      assert (a + b)[0] == a[0] && (a + b)[1..] == a[1..] + b;
      assert KeepIf(a + b, keep) == h + KeepIf(a[1..] + b, keep);
      assert h + (KeepIf(a[1..], keep) + KeepIf(b, keep)) == (h + KeepIf(a[1..], keep)) + KeepIf(b, keep);
    }
  }

  /** A kept element is kept as many times as it occurs, any other never. */
  lemma {:induction false} KeepIfCounts<T(!new)>(xs: seq<T>, keep: T -> bool, x: T)
    ensures multiset(KeepIf(xs, keep))[x] == if keep(x) then multiset(xs)[x] else 0
    decreases |xs|
  {
    if xs != [] {
      KeepIfCounts(xs[1..], keep, x);
      assert xs == [xs[0]] + xs[1..];
    }
  }
}

=== FILE: signup.dfy ===
/**
 * The organisation sign-up form's password policy: at least eight characters
 * drawn from ASCII letters, digits and `@$!%*?&`, with at least one lower-case
 * letter, one upper-case letter, one digit and one of those special
 * characters. A refused password stops the submission before `register`.
 */
module Signup {

  predicate IsLowerLetter(c: char) { 'a' <= c <= 'z' }
  predicate IsUpperLetter(c: char) { 'A' <= c <= 'Z' }
  predicate IsDigit(c: char) { '0' <= c <= '9' }
  predicate IsSpecial(c: char) { c in {'@', '$', '!', '%', '*', '?', '&'} }

  /** The character class `[A-Za-z\d@$!%*?&]`. */
  predicate IsAllowed(c: char) {
    IsLowerLetter(c) || IsUpperLetter(c) || IsDigit(c) || IsSpecial(c)
  }

  /** The policy stated as the form's message states it. */
  predicate PasswordOk(p: string) {
    && |p| >= 8
    && (exists i :: 0 <= i < |p| && IsLowerLetter(p[i]))
    && (exists i :: 0 <= i < |p| && IsUpperLetter(p[i]))
    && (exists i :: 0 <= i < |p| && IsDigit(p[i]))
    && (exists i :: 0 <= i < |p| && IsSpecial(p[i]))
    && (forall i :: 0 <= i < |p| ==> IsAllowed(p[i]))
  }

  /** What one left-to-right pass over the password has seen so far. */
  datatype Seen = Seen(lower: bool, upper: bool, digit: bool, special: bool, clean: bool, length: nat)

  /** The pass over `p`, one character at a time. */
  function Scan(p: string): (s: Seen)
    ensures s.length == |p|
  {
    if p == [] then Seen(false, false, false, false, true, 0)
    else
      var s := Scan(p[..|p| - 1]);
      var c := p[|p| - 1];
      Seen(s.lower || IsLowerLetter(c), s.upper || IsUpperLetter(c), s.digit || IsDigit(c),
           s.special || IsSpecial(c), s.clean && IsAllowed(c), s.length + 1)
  }

  /** The regular expression's verdict, from the pass: the four look-aheads, then `{8,}` over the class. */
  predicate RegexAccepts(p: string) {
    var s := Scan(p);
    s.lower && s.upper && s.digit && s.special && s.clean && s.length >= 8
  }

  /** Each flag of the pass records exactly whether some character so far is of its kind. */
  lemma {:induction false} ScanFlags(p: string)
    ensures Scan(p).lower <==> exists i :: 0 <= i < |p| && IsLowerLetter(p[i])
    ensures Scan(p).upper <==> exists i :: 0 <= i < |p| && IsUpperLetter(p[i])
    ensures Scan(p).digit <==> exists i :: 0 <= i < |p| && IsDigit(p[i])
    ensures Scan(p).special <==> exists i :: 0 <= i < |p| && IsSpecial(p[i])
    ensures Scan(p).clean <==> forall i :: 0 <= i < |p| ==> IsAllowed(p[i])
    decreases |p|
  {
    if p != [] {
      var q := p[..|p| - 1];
      ScanFlags(q);
      assert forall i :: 0 <= i < |q| ==> q[i] == p[i];
    }
  }

  /** The single pass and the stated policy agree on every password. */
  lemma RegexMatchesPolicy(p: string)
    ensures RegexAccepts(p) <==> PasswordOk(p)
  {
    ScanFlags(p);
  }

  /** Seven characters are never enough, whatever they are. */
  lemma ShortRefused(p: string)
    requires |p| < 8
    ensures !RegexAccepts(p)
  {
  }

  /** One character outside the class (a space, '#', a letter with an accent) refuses the whole password. */
  lemma ForeignCharacterRefused(pre: string, c: char, post: string)
    requires !IsAllowed(c)
    ensures !RegexAccepts(pre + [c] + post)
  {
    RegexMatchesPolicy(pre + [c] + post);
    assert (pre + [c] + post)[|pre|] == c;
  }

  /** A password with all four kinds and only allowed characters passes. */
  lemma ExamplePasses()
    ensures RegexAccepts("Passw0rd!")
  {
    var p := "Passw0rd!";
    RegexMatchesPolicy(p);
    assert IsLowerLetter(p[1]) && IsUpperLetter(p[0]) && IsDigit(p[5]) && IsSpecial(p[8]);
  }

  /** The form as submitted. */
  datatype SignupForm = SignupForm(organizationName: string, issuerCode: string, email: string, password: string)

  /** Either the form's error message with no request, or `register(form)` is called. */
  datatype SubmitOutcome = Refused(message: string) | Register(form: SignupForm)

  const PolicyMessage := "Password must be at least 8 characters, include one uppercase, one lowercase, one number and one special character."

  /** `handleSubmit` up to the `register` call. */
  function Submit(form: SignupForm): (r: SubmitOutcome)
    ensures r.Register? <==> PasswordOk(form.password)
    ensures r.Register? ==> r.form == form
    ensures r.Refused? ==> r.message == PolicyMessage
  {
    RegexMatchesPolicy(form.password);
    if !RegexAccepts(form.password) then Refused(PolicyMessage) else Register(form)
  }
}

=== FILE: standardize_templates.dfy ===
/**
 * The one-off script that gives every template the same fixed-canvas layout
 * (a 1600 x 1100 canvas), coloured for a dark or a light background by the
 * template's name. The first template whose pass throws ends the script with
 * exit code 1, leaving it and the later templates as they were.
 */
module StandardizeTemplates {
  import opened Wrappers
  import opened Text
  import opened Records

  /** The script's `STANDARD_LAYOUT`. */
  const StandardCanvas: CanvasLayout := CanvasLayout(
    1600, 1100,
    TextStyle(800, 150, "Playfair Display", 60, "700", "center", "#333333", None),
    TextStyle(800, 250, "Montserrat", 24, "400", "center", "#555555", None),
    TextStyle(800, 380, "Great Vibes", 90, "400", "center", "#1F2937", None),
    TextStyle(800, 560, "Poppins", 22, "400", "center", "#4B5563", Some(1000)),
    TextStyle(200, 850, "Montserrat", 18, "600", "left", "#333333", None),
    [SignatureBox(1100, 820, 250, 80, "Authorized Signatory")],
    QrBox(750, 880, 100))

  /** A name containing "black" or "dark", in any letter case, marks a dark background. */
  predicate IsDark(name: string) {
    Contains(Lower(name), "black") || Contains(Lower(name), "dark")
  }

  /** The colours for a background: main text, secondary text, and the recipient's name. */
  function TextColor(dark: bool): string { if dark then "#FFFFFF" else "#333333" }
  function SecondaryColor(dark: bool): string { if dark then "#CCCCCC" else "#555555" }
  function RecipientColor(dark: bool): string { if dark then "#D0A84F" else "#111827" }

  /** A copy of the standard layout with the five colours set. */
  function Colored(dark: bool): CanvasLayout {
    var L := StandardCanvas;
    L.(title := L.title.(color := TextColor(dark)),
       subtitle := L.subtitle.(color := SecondaryColor(dark)),
       recipientName := L.recipientName.(color := RecipientColor(dark)),
       description := L.description.(color := SecondaryColor(dark)),
       date := L.date.(color := TextColor(dark)))
  }

  /**
   * Only colours differ from the standard layout: every position, size,
   * font, the canvas, the signature boxes and the QR box are the standard
   * ones, and the colours follow the dark/light table.
   */
  lemma ColoredOnlyColours(dark: bool)
    ensures var L := Colored(dark);
      && L.(title := StandardCanvas.title, subtitle := StandardCanvas.subtitle,
            recipientName := StandardCanvas.recipientName, description := StandardCanvas.description,
            date := StandardCanvas.date) == StandardCanvas
      && L.title.(color := "#333333") == StandardCanvas.title
      && L.subtitle.(color := "#555555") == StandardCanvas.subtitle
      && L.recipientName.(color := "#1F2937") == StandardCanvas.recipientName
      && L.description.(color := "#4B5563") == StandardCanvas.description
      && L.date.(color := "#333333") == StandardCanvas.date
      && L.title.color == L.date.color == (if dark then "#FFFFFF" else "#333333")
      && L.subtitle.color == L.description.color == (if dark then "#CCCCCC" else "#555555")
      && L.recipientName.color == (if dark then "#D0A84F" else "#111827")
  {
  }

  /** A light template's recipient colour is not the standard layout's own, so every run overwrites it. */
  lemma LightRecipientDiffers()
    ensures Colored(false).recipientName.color != StandardCanvas.recipientName.color
  {
  }

  /** The template as the loop saves it: its fields are the one coloured layout for its name. */
  function Standardized(t: Template): Template {
    t.(fields := [Colored(IsDark(t.name))])
  }

  /**
   * The `run` loop. `saveFault` is the position of the first template whose
   * pass throws, if any (lower-casing a missing name, or `save()`); every
   * template is saved, so the loop stops there. Every template before the
   * stop gets the coloured layout, the rest are left as they were, and the
   * script completes (exit code 0) exactly when no save throws.
   */
  method Standardize(templates: array<Template>, saveFault: Option<nat>) returns (completed: bool)
    modifies templates
    ensures completed <==> saveFault.None? || saveFault.value >= templates.Length
    ensures forall i :: 0 <= i < templates.Length && (saveFault.None? || i < saveFault.value) ==>
      templates[i] == Standardized(old(templates[i]))
    ensures forall i :: 0 <= i < templates.Length && saveFault.Some? && saveFault.value <= i ==>
      templates[i] == old(templates[i])
  {
    var k := 0;
    while k < templates.Length
      invariant 0 <= k <= templates.Length
      invariant saveFault.Some? ==> k <= saveFault.value
      invariant forall i :: 0 <= i < k ==> templates[i] == Standardized(old(templates[i]))
      invariant forall i :: k <= i < templates.Length ==> templates[i] == old(templates[i])
    {
      if saveFault == Some(k) {
        return false;
      }
      StandardizeAt(templates, k);
      k := k + 1;
    }
    completed := true;
  }

  /** One pass of the loop: the template at `k` gets its coloured layout; nothing else changes. */
  method StandardizeAt(templates: array<Template>, k: nat)
    requires k < templates.Length
    modifies templates
    ensures templates[k] == Standardized(old(templates[k]))
    ensures forall i :: 0 <= i < templates.Length && i != k ==> templates[i] == old(templates[i])
  {
    var t := templates[k];
    var isDark := Contains(Lower(t.name), "black") || Contains(Lower(t.name), "dark");
    var layout := StandardCanvas;
    layout := layout.(title := layout.title.(color := TextColor(isDark)));
    layout := layout.(subtitle := layout.subtitle.(color := SecondaryColor(isDark)));
    layout := layout.(recipientName := layout.recipientName.(color := RecipientColor(isDark)));
    layout := layout.(description := layout.description.(color := SecondaryColor(isDark)));
    layout := layout.(date := layout.date.(color := TextColor(isDark)));
    templates[k] := t.(fields := [layout]);
  }

  /** The script is idempotent: names are not changed, so a second run writes the same layouts. */
  lemma StandardizeIdempotent(t: Template)
    ensures Standardized(Standardized(t)) == Standardized(t)
  {
  }

  /** "Black"/"dark" are found in any case and anywhere in the name. */
  lemma DarkNames(a: string, b: string)
    ensures IsDark(a + "Dark" + b) && IsDark(a + "BLACK" + b)
  {
    var n1 := a + "Dark" + b;
    var n2 := a + "BLACK" + b;
    assert Lower(n1)[|a|..|a| + 4] == "dark";
    assert OccursAt(Lower(n1), "dark", |a|);
    assert Lower(n2)[|a|..|a| + 5] == "black";
    assert OccursAt(Lower(n2), "black", |a|);
  }
}

=== FILE: store.dfy ===
/**
 * The MongoDB collections the routes read and write, as one mutable store.
 * Each collection that is looked up by `_id` is a map from the id (canonical
 * lower-case hex) to the record; certificates are kept in insertion order.
 */
module Store {
  import opened Wrappers
  import opened Records

  class Db {
    var purchases: map<string, Purchase>
    var templates: map<string, Template>
    var users: map<string, User>
    var plans: map<string, SubscriptionPlan>
    var certificates: seq<Certificate>

    constructor ()
      ensures purchases == map[] && templates == map[] && users == map[] && plans == map[]
      ensures certificates == []
    {
      purchases := map[];
      templates := map[];
      users := map[];
      plans := map[];
      certificates := [];
    }

    /** `purchase.save()`: the record under `id` is replaced, nothing else changes. */
    method SavePurchase(id: string, p: Purchase)
      modifies this
      ensures purchases == old(purchases)[id := p]
      ensures templates == old(templates) && users == old(users) && plans == old(plans)
      ensures certificates == old(certificates)
    {
      purchases := purchases[id := p];
    }

    /** `user.save()` and `User.findByIdAndUpdate`. */
    method SaveUser(id: string, u: User)
      modifies this
      ensures users == old(users)[id := u]
      ensures purchases == old(purchases) && templates == old(templates) && plans == old(plans)
      ensures certificates == old(certificates)
    {
      users := users[id := u];
    }

    /** `Certificate.create` once the record has passed validation. */
    method AddCertificate(c: Certificate)
      modifies this
      ensures certificates == old(certificates) + [c]
      ensures purchases == old(purchases) && templates == old(templates) && users == old(users)
      ensures plans == old(plans)
    {
      certificates := certificates + [c];
    }

    /** `Purchase.findOne({ razorpayOrderId })`: some purchase with that order id, if there is one. */
    method FindPurchaseByOrder(orderId: string) returns (id: Option<string>)
      ensures id.Some? ==> id.value in purchases && purchases[id.value].razorpayOrderId == orderId
      ensures id.None? ==> forall k :: k in purchases ==> purchases[k].razorpayOrderId != orderId
    {
      if k :| k in purchases && purchases[k].razorpayOrderId == orderId {
        id := Some(k);
      } else {
        id := None;
      }
    }
  }
}

=== FILE: templates.dfy ===
/**
 * The template routes: creating a template from an upload form, and the
 * per-user catalogue that marks each template premium, purchased and locked.
 */
module Templates {
  import opened Wrappers
  import opened Text
  import opened Records

  // ---------------------------------------------------------------------
  // The per-user catalogue
  // ---------------------------------------------------------------------

  /** A template as listed for one user, with the three derived flags. */
  datatype TemplateView = TemplateView(template: Template, isPremium: bool, isPurchased: bool, isLocked: bool)

  /** The flags of one template for a user who bought the templates in `purchased`. */
  function Flag(t: Template, purchased: seq<string>): (v: TemplateView)
    ensures v.template == t
    ensures v.isPremium <==> t.templateType == "premium"
    ensures v.isPurchased <==> t.id in purchased
    ensures v.isLocked <==> v.isPremium && !v.isPurchased
  {
    var isPremium := t.templateType == "premium";
    var isPurchased := t.id in purchased;
    TemplateView(t, isPremium, isPurchased, isPremium && !isPurchased)
  }

  /**
   * The catalogue for a user who bought the templates in `purchased`: every
   * template in stored order, premium by its type, purchased by its id, and
   * locked exactly when premium and not purchased.
   */
  function Catalogue(templates: seq<Template>, purchased: seq<string>): (r: seq<TemplateView>)
    ensures |r| == |templates|
    ensures forall i :: 0 <= i < |r| ==>
      && r[i].template == templates[i]
      && (r[i].isPremium <==> templates[i].templateType == "premium")
      && (r[i].isPurchased <==> templates[i].id in purchased)
      && (r[i].isLocked <==> templates[i].templateType == "premium" && templates[i].id !in purchased)
  {
    seq(|templates|, i requires 0 <= i < |templates| => Flag(templates[i], purchased))
  }

  /**
   * `GET /user/:userId` as written. `User.findById` refuses an id that is
   * not an ObjectId (a 500); otherwise `user?.purchasedTemplates` reads a
   * path the User schema does not declare, which is `undefined` for every
   * user, so the purchased list is always empty: nothing is ever purchased
   * and exactly the premium templates are locked.
   */
  function UserTemplates(templates: seq<Template>, userId: string): (r: Option<seq<TemplateView>>)
    ensures r.Some? <==> IsObjectId(userId)
    ensures r.Some? ==> |r.value| == |templates|
    ensures r.Some? ==> forall i :: 0 <= i < |templates| ==>
      && r.value[i].template == templates[i]
      && !r.value[i].isPurchased
      && (r.value[i].isLocked <==> templates[i].templateType == "premium")
  {
    if IsObjectId(userId) then Some(Catalogue(templates, [])) else None
  }

  /** `$addToSet`: `x` is appended unless it is already there. */
  function AddToSet(s: seq<string>, x: string): (r: seq<string>)
    ensures x in r
    ensures forall y :: y in r <==> y in s || y == x
    ensures x in s ==> r == s
    ensures x !in s ==> |r| == |s| + 1
  {
    if x in s then s else s + [x]
  }

  /**
   * The intended effect of buying a template: once its id is added to the
   * user's purchased list it is purchased and unlocked, and every other
   * template is listed exactly as before.
   */
  lemma PurchaseUnlocks(templates: seq<Template>, purchased: seq<string>, templateId: string)
    ensures var r := Catalogue(templates, AddToSet(purchased, templateId));
      var r0 := Catalogue(templates, purchased);
      forall i :: 0 <= i < |templates| ==>
        && (templates[i].id == templateId ==> r[i].isPurchased && !r[i].isLocked)
        && (templates[i].id != templateId ==> r[i] == r0[i])
  {
    var r := Catalogue(templates, AddToSet(purchased, templateId));
    var r0 := Catalogue(templates, purchased);
    forall i | 0 <= i < |templates| && templates[i].id != templateId
      ensures r[i] == r0[i]
    {
      assert r[i] == Flag(templates[i], AddToSet(purchased, templateId));
      assert r0[i] == Flag(templates[i], purchased);
    }
  }

  // ---------------------------------------------------------------------
  // Creating a template
  // ---------------------------------------------------------------------

  /**
   * A JSON-encoded form field: absent (or ""), parsed to a value of the
   * shape the schema casts, or text `JSON.parse` refuses.
   */
  datatype FormJson<T> = Absent | Given(value: T) | Unparseable

  /**
   * The form fields: "" stands for an absent `name` or `description`;
   * `templateType` is None when no `type` was sent; `price` is
   * `Number(price)`, None for NaN.
   */
  datatype TemplateForm = TemplateForm(
    name: string, description: string, templateType: Option<string>,
    price: Option<real>, fields: FormJson<seq<CanvasLayout>>, qr: FormJson<QrBox>)

  /**
   * `POST /`: the record `Template.create` stores, or the error the route
   * answers with a 500. `uploaded` is the stored file name of the `bgImage`
   * upload, if any. `fields` and `qr` are parsed first, so text that is not
   * JSON fails before validation; then `name` and `bgImageUrl` are required
   * (an empty string fails too) and a `type` that is sent must be one of the
   * enum values (an empty string fails; only an absent type takes the
   * default).
   */
  function CreateTemplate(form: TemplateForm, uploaded: Option<string>, storagePath: string, id: string, now: nat)
    : (r: Result<Template, string>)
    ensures r.Ok? <==>
      && !form.fields.Unparseable? && !form.qr.Unparseable?
      && form.name != "" && uploaded.Some?
      && (form.templateType.Some? ==> form.templateType.value in {"free", "premium"})
    ensures form.fields.Unparseable? || form.qr.Unparseable? ==> r == Err("SyntaxError")
    ensures r.Ok? ==>
      && r.value.id == id && r.value.createdAt == now
      && r.value.name == form.name && r.value.description == form.description
      && r.value.bgImageUrl == StorageRoot(storagePath) + "/" + uploaded.value
      && (form.templateType.None? ==> r.value.templateType == "free")
      && (form.templateType.Some? ==> r.value.templateType == form.templateType.value)
      && (form.price.None? ==> r.value.price == 0.0)
      && (form.price.Some? ==> r.value.price == form.price.value)
      && (form.fields.Absent? ==> r.value.fields == [])
      && (form.fields.Given? ==> r.value.fields == form.fields.value)
      && (form.qr.Absent? ==> r.value.qr == QrBox(0, 0, 0))
      && (form.qr.Given? ==> r.value.qr == form.qr.value)
  {
    if form.fields.Unparseable? || form.qr.Unparseable? then Err("SyntaxError")
    else
      var bgImageUrl := if uploaded.Some? then StorageRoot(storagePath) + "/" + uploaded.value else "";
      if form.name == "" || bgImageUrl == "" then Err("ValidationError: required")
      else if form.templateType.Some? && form.templateType.value !in {"free", "premium"} then Err("ValidationError: type")
      else Ok(Template(
        id, form.name, form.description, bgImageUrl,
        if form.templateType.Some? then form.templateType.value else "free",
        if form.price.Some? then form.price.value else 0.0,
        if form.fields.Given? then form.fields.value else [],
        if form.qr.Given? then form.qr.value else QrBox(0, 0, 0),
        now))
  }

  /**
   * A form without an uploaded image can never be stored: the route falls
   * back to an empty `bgImageUrl`, which the schema's `required` refuses.
   */
  lemma NoUploadNoTemplate(form: TemplateForm, storagePath: string, id: string, now: nat)
    ensures CreateTemplate(form, None, storagePath, id, now).Err?
  {
  }
}

=== FILE: text.dfy ===
/**
 * The JavaScript string built-ins the core relies on: `trim`, `split` on one
 * character, `startsWith`, `includes`, and ASCII case mapping for
 * `toUpperCase`/`toLowerCase`.
 */
module Text {

  /** ECMAScript WhiteSpace and LineTerminator code points: what `String.prototype.trim` removes. */
  predicate IsSpace(c: char) {
    || c == ' ' || c == '\t' || c == '\n' || c == '\r'
    || c == '\U{000B}' || c == '\U{000C}' || c == '\U{00A0}' || c == '\U{1680}'
    || ('\U{2000}' <= c <= '\U{200A}')
    || c == '\U{2028}' || c == '\U{2029}' || c == '\U{202F}' || c == '\U{205F}'
    || c == '\U{3000}' || c == '\U{FEFF}'
  }

  predicate AllSpace(s: string) {
    forall i :: 0 <= i < |s| ==> IsSpace(s[i])
  }

  predicate IsHexDigit(c: char) {
    ('0' <= c <= '9') || ('a' <= c <= 'f') || ('A' <= c <= 'F')
  }

  /** `/^[0-9a-fA-F]{24}$/.test(s)`: the text of an ObjectId. */
  predicate IsObjectId(s: string) {
    |s| == 24 && forall i :: 0 <= i < |s| ==> IsHexDigit(s[i])
  }

  /** `s.trimStart()`: the longest suffix of `s` that does not start with white space. */
  function TrimStart(s: string): (r: string)
    ensures |r| <= |s| && r == s[|s| - |r|..]
    ensures r == [] || !IsSpace(r[0])
    ensures AllSpace(s[..|s| - |r|])
  {
    if s != [] && IsSpace(s[0]) then
      var r := TrimStart(s[1..]);
      assert s[1..][|s| - 1 - |r|..] == s[|s| - |r|..];
      assert forall i :: 1 <= i < |s| ==> s[i] == s[1..][i - 1];
      r
    else s
  }

  /** `s.trimEnd()`: the longest prefix of `s` that does not end with white space. */
  function TrimEnd(s: string): (r: string)
    ensures |r| <= |s| && r == s[..|r|]
    ensures r == [] || !IsSpace(r[|r| - 1])
    ensures AllSpace(s[|r|..])
  {
    if s != [] && IsSpace(s[|s| - 1]) then
      var r := TrimEnd(s[..|s| - 1]);
      assert s[..|s| - 1][..|r|] == s[..|r|];
      assert s[|r|..] == s[..|s| - 1][|r|..] + [s[|s| - 1]];
      r
    else s
  }

  /** `s.trim()`. */
  function Trim(s: string): string {
    TrimEnd(TrimStart(s))
  }

  /** Leading white space in front of a non-space start is all `trimStart` removes. */
  lemma {:induction false} TrimStartSkips(pre: string, x: string)
    requires AllSpace(pre) && (x == [] || !IsSpace(x[0]))
    ensures TrimStart(pre + x) == x
    decreases |pre|
  {
    if pre == [] {
      assert pre + x == x;
    } else {
      assert (pre + x)[1..] == pre[1..] + x;
      TrimStartSkips(pre[1..], x);
    }
  }

  /** Trailing white space after a non-space end is all `trimEnd` removes. */
  lemma {:induction false} TrimEndSkips(x: string, post: string)
    requires AllSpace(post) && (x == [] || !IsSpace(x[|x| - 1]))
    ensures TrimEnd(x + post) == x
    decreases |post|
  {
    if post == [] {
      assert x + post == x;
    } else {
      assert (x + post)[..|x + post| - 1] == x + post[..|post| - 1];
      TrimEndSkips(x, post[..|post| - 1]);
    }
  }

  /** `trim` gives back a string that neither starts nor ends with white space, whatever surrounds it. */
  lemma TrimPadded(pre: string, s: string, post: string)
    requires AllSpace(pre) && AllSpace(post)
    requires s == [] || (!IsSpace(s[0]) && !IsSpace(s[|s| - 1]))
    ensures Trim(pre + s + post) == s
  {
    if s == [] {
      assert pre + s + post == pre + post;
      assert AllSpace(pre + post);
      TrimEmptyIff(pre + post);
    } else {
      assert pre + s + post == pre + (s + post);
      TrimStartSkips(pre, s + post);
      TrimEndSkips(s, post);
    }
  }

  /** Trimming leaves nothing exactly when the string is white space only. */
  lemma TrimEmptyIff(s: string)
    ensures Trim(s) == [] <==> AllSpace(s)
  {
    var t := TrimStart(s);
    if Trim(s) == [] {
      assert t[0..] == t;
      assert AllSpace(t);
      assert t == [];
      assert s[..|s|] == s;
    }
    if AllSpace(s) {
      assert AllSpace(t);
    }
  }

  function LowerChar(c: char): char {
    if 'A' <= c <= 'Z' then (c as int + 32) as char else c
  }

  function UpperChar(c: char): char {
    if 'a' <= c <= 'z' then (c as int - 32) as char else c
  }

  /** `s.toLowerCase()` on ASCII letters. */
  function Lower(s: string): (r: string)
    ensures |r| == |s|
    ensures forall i :: 0 <= i < |s| ==> r[i] == LowerChar(s[i])
  {
    seq(|s|, i requires 0 <= i < |s| => LowerChar(s[i]))
  }

  /** `s.toUpperCase()` on ASCII letters. */
  function Upper(s: string): (r: string)
    ensures |r| == |s|
    ensures forall i :: 0 <= i < |s| ==> r[i] == UpperChar(s[i])
  {
    seq(|s|, i requires 0 <= i < |s| => UpperChar(s[i]))
  }

  /** `s.startsWith(p)`. */
  predicate StartsWith(s: string, p: string) {
    |p| <= |s| && s[..|p|] == p
  }

  /** `s.includes(t)`: `t` occurs in `s` at some position. */
  predicate Contains(s: string, t: string) {
    exists i :: 0 <= i <= |s| - |t| && OccursAt(s, t, i)
  }

  /** `t` occurs in `s` starting at index `i`. */
  predicate OccursAt(s: string, t: string, i: int)
    requires 0 <= i <= |s| - |t|
  {
    s[i..i + |t|] == t
  }

  /** Every string contains the empty string (`"abc".includes("")` is true). */
  lemma ContainsEmpty(s: string)
    ensures Contains(s, "")
  {
    assert OccursAt(s, "", 0);
  }

  /** The first index of `c` in `s`. */
  function IndexOf(s: string, c: char): (i: nat)
    requires c in s
    ensures i < |s| && s[i] == c && c !in s[..i]
  {
    if s[0] == c then 0 else 1 + IndexOf(s[1..], c)
  }

  /** The last index of `c` in `s`. */
  function LastIndexOf(s: string, c: char): (i: nat)
    requires c in s
    ensures i < |s| && s[i] == c && c !in s[i + 1..]
  {
    if s[|s| - 1] == c then |s| - 1 else LastIndexOf(s[..|s| - 1], c)
  }

  /** `s.split(sep)` for a one-character separator; never empty, as in JavaScript. */
  function Split(s: string, sep: char): (r: seq<string>)
    ensures |r| >= 1 && (|r| == 1 <==> sep !in s)
    decreases |s|
  {
    if sep !in s then [s]
    else
      var i := IndexOf(s, sep);
      [s[..i]] + Split(s[i + 1..], sep)
  }

  /** No field of a split holds the separator. */
  lemma {:induction false} SplitFieldsClean(s: string, sep: char)
    ensures forall k :: 0 <= k < |Split(s, sep)| ==> sep !in Split(s, sep)[k]
    decreases |s|
  {
    if sep in s {
      var i := IndexOf(s, sep);
      SplitFieldsClean(s[i + 1..], sep);
      var rest := Split(s[i + 1..], sep);
      assert Split(s, sep) == [s[..i]] + rest;
      forall k | 1 <= k < |Split(s, sep)|
        ensures sep !in Split(s, sep)[k]
      {
        assert Split(s, sep)[k] == rest[k - 1];
      }
    }
  }

  /** `parts.join(sep)`. */
  function Join(parts: seq<string>, sep: char): string
    requires |parts| >= 1
  {
    if |parts| == 1 then parts[0] else parts[0] + [sep] + Join(parts[1..], sep)
  }

  /** Joining a field in front of at least one more puts the separator between them. */
  lemma JoinCons(a: string, rest: seq<string>, sep: char)
    requires |rest| >= 1
    ensures Join([a] + rest, sep) == a + [sep] + Join(rest, sep)
  {
    assert ([a] + rest)[1..] == rest;
  }

  /** Splitting and joining again gives back the original string. */
  lemma {:induction false} SplitJoin(s: string, sep: char)
    ensures Join(Split(s, sep), sep) == s
    decreases |s|
  {
    if sep in s {
      var i := IndexOf(s, sep);
      var rest := Split(s[i + 1..], sep);
      SplitJoin(s[i + 1..], sep);
      assert Split(s, sep) == [s[..i]] + rest;
      JoinCons(s[..i], rest, sep);
      assert s == s[..i] + [sep] + s[i + 1..];
    }
  }

  /** `s.split(sep)[0]`: everything before the first `sep`. */
  function FirstField(s: string, sep: char): (r: string)
    ensures r == Split(s, sep)[0]
    ensures sep !in r && r == s[..|r|]
    ensures |r| < |s| ==> s[|r|] == sep
  {
    if sep in s then s[..IndexOf(s, sep)] else s
  }

  /** `s.split(sep).pop()`: everything after the last `sep`. */
  function LastField(s: string, sep: char): (r: string)
    ensures sep !in r
    ensures |r| <= |s| && r == s[|s| - |r|..]
    ensures |r| < |s| ==> s[|s| - |r| - 1] == sep
  {
    if sep in s then s[LastIndexOf(s, sep) + 1..] else s
  }

  /** After a prefix ending in `sep`, a separator-free tail is the last field. */
  lemma LastFieldAfter(p: string, sep: char, f: string)
    requires p != [] && p[|p| - 1] == sep && sep !in f
    ensures LastField(p + f, sep) == f
  {
    var s := p + f;
    assert s[|p| - 1] == sep;
    var i := LastIndexOf(s, sep);
    assert forall j :: i < j < |s| ==> s[j] == s[i + 1..][j - i - 1];
    assert forall j :: |p| <= j < |s| ==> s[j] == f[j - |p|];
    assert i == |p| - 1;
    assert s[|p|..] == f;
  }

  /** The first `sep` after a separator-free prefix is the one that ends it. */
  lemma {:induction false} IndexOfAfterPrefix(a: string, sep: char, b: string)
    requires sep !in a
    ensures sep in a + [sep] + b && IndexOf(a + [sep] + b, sep) == |a|
  {
    var s := a + [sep] + b;
    assert s[|a|] == sep;
    if a != [] {
      assert s[1..] == a[1..] + [sep] + b;
      IndexOfAfterPrefix(a[1..], sep, b);
    }
  }

  /** Splitting a string that starts with a separator-free field gives that field, then the rest's fields. */
  lemma SplitAfterPrefix(a: string, sep: char, b: string)
    requires sep !in a
    ensures Split(a + [sep] + b, sep) == [a] + Split(b, sep)
  {
    var s := a + [sep] + b;
    IndexOfAfterPrefix(a, sep, b);
    assert s[..|a|] == a && s[|a| + 1..] == b;
  }

  /** `FirstField` of a separator-free text followed by a separator and anything is that text. */
  lemma FirstFieldAfterPrefix(a: string, sep: char, b: string)
    requires sep !in a
    ensures FirstField(a + [sep] + b, sep) == a
  {
    IndexOfAfterPrefix(a, sep, b);
    assert (a + [sep] + b)[..|a|] == a;
  }
}

=== FILE: webhook.dfy ===
/**
 * The payment provider's webhook: a signed event that marks the matching
 * purchase paid and, for a subscription, grants the buyer a subscription and
 * the admin role.
 */
module Webhook {
  import opened Wrappers
  import opened Records
  import opened Store
  import Certificates

  /** `payload.payment.entity`: its `id` (None when absent) and `order_id` ("" when absent). */
  datatype PaymentEntity = PaymentEntity(id: Option<string>, orderId: string)

  /** `payload.order.entity`: its `id` ("" when absent). */
  datatype OrderEntity = OrderEntity(id: string)

  datatype Event = Event(name: string, payment: Option<PaymentEntity>, order: Option<OrderEntity>)

  /** `res.status(code).send(body)`. */
  datatype Reply = Reply(code: nat, body: string)

  /** The three events the handler acts on. */
  predicate Relevant(name: string) {
    name == "payment.captured" || name == "order.paid" || name == "payment.authorized"
  }

  /** `paymentEntity?.order_id || orderEntity?.id`, "" when neither is present. */
  function OrderIdOf(e: Event): (id: string)
    ensures e.payment.Some? && e.payment.value.orderId != "" ==> id == e.payment.value.orderId
    ensures (e.payment.None? || e.payment.value.orderId == "") ==>
              id == (if e.order.Some? then e.order.value.id else "")
  {
    if e.payment.Some? && e.payment.value.orderId != "" then e.payment.value.orderId
    else if e.order.Some? then e.order.value.id
    else ""
  }

  /** `paymentEntity?.id`. */
  function PaymentIdOf(e: Event): Option<string> {
    if e.payment.Some? then e.payment.value.id else None
  }

  /** The purchase after the event: paid, with the event's payment id; `used` is not touched. */
  function Paid(p: Purchase, paymentId: Option<string>): (q: Purchase)
    ensures q.status == Success && q.paymentId == paymentId
    ensures q.(status := p.status, paymentId := p.paymentId) == p
  {
    p.(paymentId := paymentId, status := Success)
  }

  /** A redelivered event leaves the purchase as the first delivery did. */
  lemma PaidIdempotent(p: Purchase, paymentId: Option<string>)
    ensures Paid(Paid(p, paymentId), paymentId) == Paid(p, paymentId)
  {
  }

  /** Milliseconds in a day. */
  const DayMs: int := 86400000

  /** The buyer after a subscription payment: subscribed from `now` for the plan's duration, and an admin. */
  function Subscribed(u: User, plan: SubscriptionPlan, now: int, paymentId: Option<string>): (v: User)
    ensures v.role == "admin" && v.subscription.Some?
    ensures v.subscription.value.startDate == now
    ensures v.subscription.value.endDate - v.subscription.value.startDate == plan.durationDays * DayMs
    ensures v.subscription.value.planId == plan.id && v.subscription.value.paymentId == paymentId
    ensures v.(role := u.role, subscription := u.subscription) == u
  {
    u.(subscription := Some(Subscription(plan.id, now, now + plan.durationDays * DayMs, paymentId)), role := "admin")
  }

  /** A subscription whose buyer and plan both exist: the handler updates and saves the buyer. */
  predicate SubscribesBuyer(users: map<string, User>, plans: map<string, SubscriptionPlan>, p: Purchase) {
    p.purchaseType == SubscriptionPurchase && p.userId in users && p.planId.Some? && p.planId.value in plans
  }

  /**
   * `user.save()` fails validation when the stored buyer lacks a required
   * path; the subscription and role it was given are then not stored.
   */
  predicate BuyerSaveFails(users: map<string, User>, plans: map<string, SubscriptionPlan>, p: Purchase) {
    SubscribesBuyer(users, plans, p) && !UserComplete(users[p.userId])
  }

  /**
   * The users collection after a paid purchase: only a subscription whose
   * buyer and plan exist, and whose buyer passes validation, changes it.
   */
  function UsersAfter(users: map<string, User>, plans: map<string, SubscriptionPlan>, p: Purchase, now: int): map<string, User> {
    if SubscribesBuyer(users, plans, p) && UserComplete(users[p.userId])
    then users[p.userId := Subscribed(users[p.userId], plans[p.planId.value], now, p.paymentId)]
    else users
  }

  /** Only the buyer's record can change, and only for a subscription. */
  lemma UsersAfterOnlyBuyer(users: map<string, User>, plans: map<string, SubscriptionPlan>, p: Purchase, now: int)
    ensures UsersAfter(users, plans, p, now).Keys == users.Keys
    ensures forall k :: k in users && k != p.userId ==> UsersAfter(users, plans, p, now)[k] == users[k]
    ensures p.purchaseType != SubscriptionPurchase ==> UsersAfter(users, plans, p, now) == users
    ensures BuyerSaveFails(users, plans, p) ==> UsersAfter(users, plans, p, now) == users
  {
  }

  /**
   * For a certificate or template purchase the handler reads
   * `meta.studentData`, where `meta` is the metadata or, for a string, what
   * `JSON.parse` makes of it (`{}` when that throws). Reading it throws
   * exactly when the string parses to `null`.
   */
  predicate MetadataThrows(p: Purchase, parseJson: string -> Parsed) {
    && (p.purchaseType == CertificatePurchase || p.purchaseType == TemplatePurchase)
    && p.metadata.StringMeta? && parseJson(p.metadata.text).ParsedNull?
  }

  /**
   * `handler`. `mac` is the HMAC-SHA256 hex digest of the raw body under the
   * webhook secret, `header` the `x-razorpay-signature` header, and `now` the
   * clock in milliseconds; `parseJson` stands for `JSON.parse`. `matched` is the purchase the order id found, if
   * the handler got as far as looking.
   */
  method Handle(db: Db, e: Event, mac: string, header: Option<string>, now: int, parseJson: string -> Parsed)
    returns (reply: Reply, matched: Option<string>)
    modifies db
    ensures db.templates == old(db.templates) && db.plans == old(db.plans)
    ensures db.certificates == old(db.certificates)
    ensures header != Some(mac) ==> reply == Reply(400, "invalid signature")
    ensures header == Some(mac) && !Relevant(e.name) ==> reply == Reply(200, "ignored")
    ensures header == Some(mac) && Relevant(e.name) && OrderIdOf(e) == "" ==> reply == Reply(400, "no order id")
    ensures matched.Some? ==>
      header == Some(mac) && Relevant(e.name) && OrderIdOf(e) != ""
      && matched.value in old(db.purchases) && old(db.purchases)[matched.value].razorpayOrderId == OrderIdOf(e)
    ensures matched.None? && header == Some(mac) && Relevant(e.name) && OrderIdOf(e) != "" ==>
      reply == Reply(200, "ok")
      && forall k :: k in old(db.purchases) ==> old(db.purchases)[k].razorpayOrderId != OrderIdOf(e)
    ensures matched.None? || old(db.purchases)[matched.value].used ==>
      db.purchases == old(db.purchases) && db.users == old(db.users)
    ensures matched.Some? && old(db.purchases)[matched.value].used ==> reply == Reply(200, "already used")
    ensures matched.Some? && !old(db.purchases)[matched.value].used ==>
      var q := Paid(old(db.purchases)[matched.value], PaymentIdOf(e));
      && reply == (if MetadataThrows(q, parseJson) || BuyerSaveFails(old(db.users), old(db.plans), q)
                   then Reply(500, "server error") else Reply(200, "ok"))
      && db.purchases == old(db.purchases)[matched.value := q]
      && db.users == UsersAfter(old(db.users), old(db.plans), q, now)
  {
    matched := None;
    if header != Some(mac) {
      return Reply(400, "invalid signature"), None;
    }
    if !Relevant(e.name) {
      return Reply(200, "ignored"), None;
    }
    var orderId := OrderIdOf(e);
    var paymentId := PaymentIdOf(e);
    if orderId == "" {
      return Reply(400, "no order id"), None;
    }

    matched := db.FindPurchaseByOrder(orderId);
    if matched.None? {
      return Reply(200, "ok"), matched;
    }
    var purchase := db.purchases[matched.value];
    if purchase.used {
      return Reply(200, "already used"), matched;
    }

    purchase := Paid(purchase, paymentId);
    db.SavePurchase(matched.value, purchase);

    if purchase.purchaseType == SubscriptionPurchase {
      if purchase.userId in db.users && purchase.planId.Some? && purchase.planId.value in db.plans {
        if !UserComplete(db.users[purchase.userId]) {
          // The purchase was saved as paid above; the buyer's `save()` fails validation.
          return Reply(500, "server error"), matched;
        }
        var plan := db.plans[purchase.planId.value];
        var user := Subscribed(db.users[purchase.userId], plan, now, purchase.paymentId);
        db.SaveUser(purchase.userId, user);
      }
      return Reply(200, "ok"), matched;
    }
    if MetadataThrows(purchase, parseJson) {
      // The purchase was saved as paid above; reading the `null` metadata throws.
      return Reply(500, "server error"), matched;
    }
    // Certificate and template purchases are saved again with the same status: nothing more changes.
    reply := Reply(200, "ok");
  }

  /**
   * The webhook never consumes a purchase: an unused certificate purchase it
   * marks paid passes the generation gate exactly when its template exists.
   */
  lemma PaidUnusedGenerable(purchases: map<string, Purchase>, templates: map<string, Template>, id: string, paymentId: Option<string>)
    requires id != "" && id in purchases && !purchases[id].used
    ensures var after := purchases[id := Paid(purchases[id], paymentId)];
      Certificates.Gate(after, templates, id).None? <==>
        purchases[id].templateId.Some? && purchases[id].templateId.value in templates
  {
  }
}

=== FILE: wrappers.dfy ===
/** Option and Result values shared by every module of the model. */
module Wrappers {

  /** A value that may be absent: JavaScript's `undefined`/`null` for an optional field. */
  datatype Option<+T> = None | Some(value: T) {
    function GetOr(default: T): T {
      match this
      case Some(v) => v
      case None => default
    }
  }

  /** The outcome of an operation that either produces a value or fails with an error. */
  datatype Result<+T, +E> = Ok(value: T) | Err(error: E)
}
